=== FILE: README.md ===
# flask-video-processor, modelled in Dafny

This project models the decision logic of a video-processing web service.

A video is downloaded, and its audio is extracted. The audio is then transcribed and diarized (split into speaker turns). The transcript is cut into long "exchanges": conversational windows found either by start-marker phrases or by a change of speaker on a question. Each exchange then passes through three sub-steps:

- its speaker turns are scoped to the exchange window;
- short clips are defined from those turns by duration;
- the clips are cut from the video file.

Every step and sub-step has a status (Pending, Queued, Running, Complete, Skipped, Error, "Completed with Errors") and an error column in an SQLite store. Web routes start the steps after checking their prerequisites. Background tasks run them. The tasks exist twice: once in the task modules (`tasks/`) and once in the older single `pipeline.py`.

The model covers:

- **Analysis.** Speaker alignment, question detection, marker and speaker-change exchange detection, diarization scoping and clip selection (`Alignment`, `Markers`, `Tiling`, `SpeakerChange`, `ScopedFilter`, `ClipSelection`).
- **Store.** Rows are maps from ids to immutable records. Every write operation of `database.py` except `update_video_path` is a pure function on the store (`Store`).
- **Web gates.** For each route, the store afterwards and the HTTP status code (`Gates`).
- **Tasks.** Both variants of every step after the download, and of every sub-step task (`VideoSteps`, `ExchangeSteps`). This includes how failures are recorded and what the task queue does with them (`TaskCommon`).
- **Utilities.** Error-text formatting and HTML escaping (`ErrorText`), the ffprobe path guess and the clip window check (`Media`), and filename sanitising (`Filenames`).

Everything outside the process is a parameter: the transcription and diarization engines, FFmpeg, the file system (whether a file exists or is empty), the clock, and the task broker. A task run is a function from the store, the attempt number and those outcomes to the store afterwards and how the run ended (finished, or raising an exception class to the queue). Times are Dafny `real`s, and a missing JSON key is `None`.

Two analysis inputs are parameters too. The start-marker patterns are any list of anchored matchers, each giving the length of text it matches at the start of a string. The module's compiled regex list is one such list, so what is proved for every list holds for it. The regex class `\w` that the question pattern's word boundary uses is the `isWord` predicate. The pattern is a str pattern without `re.ASCII`, so Python's `\w` is Unicode: letters and digits of every script, plus `_`. That class comes from the interpreter's Unicode database. Case-insensitive matching of the question words is modelled exactly: ASCII case, plus the four non-ASCII letters the regex engine folds onto ASCII letters (U+0130, U+0131, U+017F and U+212A).

## Model

| member | source | states |
|---|---|---|
| Alignment.Contribution | analysis/alignment_utils.py:61-75 | a turn contributes only when both its bounds are present and it is non-empty, and then only an overlap above 1 ms that fits inside both the segment and the turn |
| Alignment.ChosenUnique | analysis/alignment_utils.py:79-89 | the speaker choice is well defined: at most one label has maximal total overlap with no earlier-inserted label reaching that total |
| Alignment.AddOverlapCorrect | analysis/alignment_utils.py:58-75 | one dictionary update keeps the overlap dictionary correct: keys in first-contribution order, each value that label's total overlap |
| Alignment.Accumulate | analysis/alignment_utils.py:58-75 | the dictionary built over all turns has exactly the qualifying labels in insertion order, each with its total overlap |
| Alignment.Best | analysis/alignment_utils.py:83 | `max` with a key returns an entry of maximal total, strictly above every earlier entry (first maximum wins ties) |
| Alignment.SpeakerForChosen | analysis/alignment_utils.py:48-94 | the computed speaker satisfies the reference choice: the default for a malformed or unmatched segment, otherwise the first label of maximal total overlap |
| Alignment.EmptyDiarizationDefaults | analysis/alignment_utils.py:31-38 | with no diarization every segment gets the default speaker |
| Alignment.Align | analysis/alignment_utils.py:11-107 | one aligned copy per transcript segment, in order and unchanged, each labelled with the reference choice |
| Alignment.IsLikelyQuestion | analysis/alignment_utils.py:115-148 | false for missing or blank text; true whenever the stripped text ends in `?` or matches the question-word pattern, for any word class `isWord` |
| Alignment.QuestionCharacterization | analysis/alignment_utils.py:115-148 | both directions: a text is a likely question exactly when its stripped form opens with a question word (matched up to Unicode case folding), followed by a word boundary under `isWord` and no line break, or ends in `?` |
| Alignment.DoInsideWord | analysis/alignment_utils.py:115-118 | a text opening with "do" followed by a word character, with no `e` as third letter, opens with no question word, because `\b` fails inside a word |
| Alignment.NoOpenerNoMark | analysis/alignment_utils.py:132-148 | trimmed text that opens with no question word and does not end in `?` is not a likely question |
| Alignment.UnicodeWordBlocksOpener | analysis/alignment_utils.py:115-148 | where `ñ` is a word character, as in Python's Unicode `\w`, "Doña Ana llegó" is not a likely question |
| Markers.CollapseWsNormalises | analysis/exchange_segmentation.py:68 | the whitespace normalisation yields single spaces between words only, with the same non-space characters in the same order |
| Markers.CollapseWsIdempotent | analysis/exchange_segmentation.py:68 | normalising whitespace twice changes nothing |
| Markers.SplitWords | analysis/exchange_segmentation.py:68 | every piece of the split is a non-empty run without whitespace |
| Markers.SplitJoin | analysis/exchange_segmentation.py:68 | splitting undoes joining words with single spaces |
| Markers.FirstMatching | analysis/exchange_segmentation.py:63-70 | the patterns are tried in list order, and the first one that matches decides |
| Markers.FindMarker | analysis/exchange_segmentation.py:46-74 | a marker is found exactly when the text is non-empty and some pattern matches its stripped form; it is the whitespace-normalised match of the first pattern in list order that matches |
| Markers.MarkerBoundaries | analysis/exchange_segmentation.py:108-124 | one start point per marked segment, in transcript order, with that segment's start and marker; no marked segment is missed |
| Markers.IdentifyLongExchanges | analysis/exchange_segmentation.py:79-180 | none without segments or patterns; every exchange is non-empty, starts at a marked segment with its marker, and is labelled `lex_` with distinct labels |
| Markers.MarkerExchangesTile | analysis/exchange_segmentation.py:105-175 | with increasing markers and a transcript ending after the last one, there is one exchange per marker and consecutive exchanges meet |
| Tiling.EmittedExactly | analysis/exchange_segmentation.py:133-175 | the start points that produce a window are exactly those whose window has a known end after its start, in increasing order |
| Tiling.DefineWindows | analysis/exchange_segmentation.py:133-175 | at most one window per start point, each non-empty with duration end minus start, labels distinct |
| Tiling.WindowsFaithful | analysis/exchange_segmentation.py:133-175 | each window belongs to an emitted start point, and every emitting start point yields its window |
| Tiling.Tiles | analysis/exchange_segmentation.py:133-175 | increasing start points with a later transcript end tile the span: each window ends where the next begins, and the last ends at the transcript end |
| SpeakerChange.ScanFrom | tasks/video_tasks.py:352-372 | the scan records exactly the segments that open an exchange (timed, new speaker, question), in order |
| SpeakerChange.ChangeBoundaries | tasks/video_tasks.py:352-372 | the start points are exactly the opening segments, in order, without markers |
| SpeakerChange.SpeakerChangeExchanges | tasks/video_tasks.py:352-412 | none for an empty transcript; every window is non-empty, labelled `spkchg_` with distinct labels, and starts at a timed question by a speaker other than the current one |
| SpeakerChange.OneSpeakerNoExchanges | tasks/video_tasks.py:352-372 | a transcript with one speaker throughout yields no exchanges |
| ScopedFilter.KeepOverlapping | analysis/qna_segmentation.py:37-57 | the kept turns are a subsequence; each turn occurs as often as in the input if it overlaps the window within the tolerance, else never |
| ScopedFilter.FilterByExchange | analysis/qna_segmentation.py:8-60 | nothing for a non-list input or a missing or empty window; otherwise exactly the overlapping turns, unchanged, in order |
| ScopedFilter.ClipTurn | tasks/exchange_tasks.py:92-105 | a kept turn overlapped the window, keeps its speaker, and is clipped to a non-empty piece of itself inside the window |
| ScopedFilter.ClipToExchange | tasks/exchange_tasks.py:89-108 | every output lies inside the window and is the clipped form of some input turn; never more outputs than inputs |
| ScopedFilter.PipelineFilterAgrees | pipeline.py:320-337 | the pipeline's filter, which tests only for missing bounds, agrees with the task modules' filter on every input |
| ScopedFilter.ClipIsFilterThenClip | tasks/exchange_tasks.py:89-108 | the clipped filter is the unclipped overlap filter followed by clipping each kept turn |
| ScopedFilter.ClipAppend | tasks/exchange_tasks.py:91-108 | the filter treats each turn on its own, so it distributes over concatenation |
| ScopedFilter.EmptyWindowKeepsNothing | tasks/exchange_tasks.py:97-101 | an empty or inverted window keeps nothing |
| ScopedFilter.ClipIdempotent | tasks/exchange_tasks.py:89-108 | filtering an already filtered list changes nothing |
| ClipSelection.SelectClips | analysis/clip_logic.py:40-68 | every turn is either kept or counted as skipped |
| ClipSelection.SelectionFaithful | analysis/clip_logic.py:40-68 | the clips are exactly those of the turns whose duration is within the inclusive bounds, each lasting end minus start |
| ClipSelection.SelectAppend | analysis/clip_logic.py:40-68 | selection distributes over concatenation, so input order is kept |
| ClipSelection.InvertedBoundsSelectNothing | analysis/clip_logic.py:53 | bounds with the maximum below the minimum select nothing and skip every turn |
| ClipSelection.DefineShortClips | analysis/clip_logic.py:7-71 | nothing for an empty or non-list input; otherwise the clips are exactly those of the eligible turns: every eligible turn yields its clip, and every clip is the clip of an eligible input turn, within the bounds, which default to 1 and 60 seconds |
| ClipSelection.ShippedBoundsAreDefaults | config.py:56-58 | the shipped configuration defines neither bound, so the defaults apply |
| ClipSelection.BoundsInclusive | analysis/clip_logic.py:53 | a turn of exactly the minimum or maximum duration is kept |
| ClipSelection.PipelineDefineClipsAsWritten | pipeline.py:381-398 | the pipeline helper fails with AttributeError for any non-empty list exactly when the configuration lacks a bound |
| ClipSelection.PipelineShippedConfigFails | pipeline.py:381-398 | with the shipped configuration every non-empty exchange fails clip definition in the pipeline variant |
| ClipSelection.PipelineDefineClips | pipeline.py:381-398 | the corrected helper never fails and keeps every clip within the defaulted bounds |
| ClipSelection.PipelineClipsAgree | pipeline.py:381-398 | the corrected helper is the analysis function, and it agrees with the helper as written whenever both bounds are configured |
| ErrorText.PyFrom | utils/error_utils.py:71 | Python's `s[i:]`: a suffix whose length follows the slicing rules for positive and negative `i` |
| ErrorText.TruncateAsWritten | utils/error_utils.py:61-71 | a string within the limit is kept; with at least two characters of room beyond the ellipsis the result fits |
| ErrorText.TruncationOverflows | utils/error_utils.py:68-71 | with a limit of 24, a 25-character text comes back 48 characters long |
| ErrorText.Truncate | utils/error_utils.py:61-71 | the result never exceeds a non-negative limit; it keeps the same number of characters from each end of the text around the ellipsis |
| ErrorText.TruncationsAgree | utils/error_utils.py:61-71 | the written and the corrected truncation differ only when one character of room remains beyond the ellipsis |
| ErrorText.FormatError | utils/error_utils.py:8-80 | the full text when it fits, otherwise a text of at most the limit (with the corrected truncation) |
| ErrorText.FormatErrorMatchesSource | utils/error_utils.py:56-71 | at every limit except the one the Findings name, the formatted text equals the source's truncation |
| ErrorText.ShortErrorVerbatim | utils/error_utils.py:29-33 | a short error with no traceback is stored as "Type: message" |
| ErrorText.Escape | utils/error_utils.py:95-97 | escaped text never contains a raw `<`, `>`, `"` or `'` |
| ErrorText.EscapeRoundTrip | utils/error_utils.py:95-97 | unescaping undoes escaping |
| ErrorText.FormatErrorForHtml | utils/error_utils.py:82-100 | at most 1000 characters, a prefix of the escaped text, free of raw markup, and decodes back to "Type: message" when nothing was cut |
| Media.DirnameOfJoin | utils/media_utils.py:27-30 | joining a file name onto a directory and taking the directory back returns it |
| Media.FfprobeGuess | utils/media_utils.py:20-37 | a guess exists exactly for a non-empty string path mentioning ffmpeg; a bare `ffmpeg` gives `ffprobe`, any other gives the ffprobe sibling |
| Media.GuessIsSibling | utils/media_utils.py:25-30 | the guess lies in ffmpeg's directory and keeps the `.exe` suffix exactly when ffmpeg has it |
| Media.ClipWindow | utils/media_utils.py:286-305 | refused for a missing input or a non-positive duration; an accepted window is non-empty, inside the request, and within the source duration plus half a second |
| Media.ClipWindowStable | utils/media_utils.py:286-305 | an accepted window is accepted unchanged when checked again |
| Filenames.EncodeChar | utils/media_utils.py:479-485 | a character's UTF-8 form is a lead byte followed by continuation bytes only |
| Filenames.CharBytes | utils/media_utils.py:479-485 | each character occupies its own byte range of the encoding, starting with a non-continuation byte |
| Filenames.FitPrefix | utils/media_utils.py:480-492 | a prefix of the name whose encoding fits in the byte budget |
| Filenames.FitPrefixMaximal | utils/media_utils.py:480-492 | no longer prefix fits: one more character would exceed the budget |
| Filenames.CutPosition | utils/media_utils.py:484-488 | stepping back over continuation bytes lands on the byte size of the longest fitting prefix, or inside the first character when none fits |
| Filenames.ReplaceBad | utils/media_utils.py:468-469 | each rejected character becomes the replacement and every other is kept |
| Filenames.CollapseRunsShape | utils/media_utils.py:473-474 | after collapsing, the only run character left is the replacement and no two run characters are adjacent |
| Filenames.CollapseKeepsSolid | utils/media_utils.py:473-474 | collapsing runs keeps every character outside runs, in order |
| Filenames.CollapseIdempotent | utils/media_utils.py:473-474 | collapsing twice changes nothing when the replacement is not whitespace |
| Filenames.Shorten | utils/media_utils.py:478-495 | a name within budget is kept; otherwise the longest fitting prefix without trailing replacement characters, within budget |
| Filenames.Guard | utils/media_utils.py:501-512 | a reserved device name gets the replacement appended; an empty or replacement-only name falls back to a timestamped name |
| Filenames.SanitizeFilename | utils/media_utils.py:456-514 | never empty or the bare replacement; free of rejected characters; a non-string or empty input gives the empty-name fallback |
| Filenames.CleanNameUnchanged | utils/media_utils.py:456-514 | a clean, short, unreserved name passes through unchanged |
| Store.StepNameRoundTrip | database.py:195-200 | every step is named by its own column name, and the name leads back to it |
| Store.AddVideoJob | database.py:140-164 | a new row with a fresh id holding the given URL, title and resolution, every step Pending, no file path, audio path, transcript or turns, and an empty clip list; the next video id moves past it; other rows untouched |
| Store.StoredError | database.py:201-204 | an error text is stored only with status Error and a non-empty message, cut to 3000 characters |
| Store.UpdateStepStatus | database.py:193-217 | an unknown step name is rejected; otherwise only that step's slot of that row changes; a missing row still reports success |
| Store.ResultStep | database.py:219-226 | only the transcript and diarization result columns can be written |
| Store.SetAudioPath | database.py:181-191 | only that row's audio path changes |
| Store.AddGeneratedClip | database.py:247-278 | the path is in the row's clip list afterwards and is appended only if absent; a missing row fails |
| Store.AddGeneratedClipIdempotent | database.py:247-278 | adding the same clip twice equals adding it once |
| Store.FirstError | database.py:341-346 | the first failed step in pipeline order, or none |
| Store.VideosWithErrors | database.py:325-358 | exactly the videos with a failed step, each summarised by its first failed step and that step's message |
| Store.DeleteVideos | database.py:360-372 | the named rows and their exchanges are gone, the rest unchanged; the count is the number of named rows that existed |
| Store.FindExchange | database.py:377-433 | finds the row holding a video and label, or shows none exists in a consistent store |
| Store.Upsert | database.py:403-424 | inserts or overwrites the row for a label as a fresh auto exchange; every other row is unchanged |
| Store.UpsertAllLastWins | database.py:384-428 | in a batch, the last candidate for a label decides that label's row |
| Store.UpsertAllKeys | database.py:384-428 | existing rows keep their video and label through a batch |
| Store.AddLongExchanges | database.py:377-433 | an empty batch succeeds untouched; a batch of unusable candidates or for a missing video fails untouched; rows not named by the batch are unchanged |
| Store.AddLongExchangesStores | database.py:377-433 | a successful batch stores each last-per-label candidate as a fresh auto row |
| Store.ManualLabelsAreNotAuto | database.py:437-438 | a manual label never equals an auto label starting with `lex_` or `spkchg_` |
| Store.AddManualExchange | database.py:435-456 | inserts a manual row with fresh sub-steps under a new id, failing exactly for a missing video or a taken label |
| Store.KindFilter | database.py:461-464 | only 'auto' and 'manual' select a kind; any other filter clears all kinds |
| Store.ClearExchanges | database.py:458-474 | exactly the selected exchanges of the video are deleted |
| Store.ClearBothKinds | database.py:458-474 | clearing auto and then manual exchanges equals clearing all |
| Store.UpdateSubstepStatus | database.py:492-511 | an unknown sub-step name is rejected; otherwise only that sub-step's slot of that exchange changes |
| Store.SubstepResult | database.py:513-520 | only the diarization and clip-definition result columns can be written |
| Store.ResetVideoFull | database.py:542-565 | download is Queued and the other steps Pending; results, audio path and clips are cleared and the video's exchanges deleted; a missing row reports failure |
| Store.ResetVideoStep | database.py:568-618 | the named step Queued, later steps Pending, earlier ones kept; results of reset steps cleared; all exchanges deleted up to transcript, only auto ones after |
| Store.FullResetIsDownloadReset | database.py:542-618 | in a consistent store the intended full reset equals the intended reset from download |
| Store.ResetVideoFullAsWritten | database.py:542-565 | as written: the row is reset as in the intended reset, and every exchange of the video stays, because the nested clear cannot take the write lock |
| Store.ResetVideoStepAsWritten | database.py:568-618 | as written: the row is reset as in the intended reset; the exchanges are cleared from transcript or earlier and untouched from diarization or exchange detection |
| Store.FullResetAsWrittenKeepsExchanges | database.py:542-618 | as written, an exchange of the video survives a full reset but not a reset from download, so the two differ; the intended full reset deletes it |
| Store.LateResetAsWrittenKeepsAuto | database.py:568-618 | as written, an auto exchange survives a reset from diarization or exchange detection; the intended reset deletes it |
| Store.ResetVideoStepIdempotent | database.py:568-618 | resetting the same step twice changes nothing more |
| Store.ResetExchangeSubsteps | database.py:620-638 | all three sub-steps Pending with results cleared; every other column (key, window, kind, marker) kept, other rows and the id counters untouched |
| Gates.StepPrereqs | app.py:267-285 | every step but download requires exactly one earlier step to be Complete |
| Gates.TriggerStep | app.py:237-265 | 404 unknown video, 400 unmet prerequisite (store untouched), 200 exactly when Queued and dispatched, otherwise 500 with the step in Error holding "Queueing error: Failed to dispatch <step> job: <err>" cut to 3000 characters |
| Gates.StepQueueingMessage | app.py:262-264 | a refused audio job leaves exactly "Queueing error: Failed to dispatch audio job: boom" on the step |
| Gates.StartedStepsFollowOrder | app.py:267-285 | a started step's predecessor was Complete, so the routes never run the pipeline out of order |
| Gates.TriggerSubstep | app.py:291-345 | 404 unknown exchange or parent, 500 for no parent id, 400 unmet prerequisite, 200 exactly when all checks pass and dispatch succeeds, otherwise 500 with the sub-step in Error holding "Queueing error: Failed to dispatch <substep> job for exchange <id>: <err>" cut to 3000 characters |
| Gates.SubstepQueueingMessage | app.py:330-332 | a refused diarization job for exchange 5 leaves exactly "Queueing error: Failed to dispatch diarization job for exchange 5: boom" on the sub-step |
| Gates.ConsistentStoreHasNoOrphans | app.py:291-333 | in a consistent store the missing-parent answers never occur, and every 500 comes from dispatch |
| Gates.MarkManualExchange | app.py:351-372 | 404 unknown video, 400 bad times, 201 with a new manual row holding the window, else 500 with nothing written |
| Gates.ManualMarkFailsOnlyOnCollision | app.py:351-372 | marking fails only when the generated label is already taken in that video |
| Gates.ServeClip | app.py:503-523 | a clip is served exactly when the directory exists, the name has no `..` or leading slash, the path resolves inside the directory, and the file exists |
| Gates.TraversalRefused | app.py:509-510 | a name containing `..` is never served |
| TaskCommon.HandleTaskFailure | tasks/exchange_tasks.py:116-127 | bad data is recorded without an attempt number and turned into Ignore; any other exception is recorded under its attempt number and re-raised |
| TaskCommon.HandlePipelineFailure | pipeline.py:345-350 | the pipeline records every exception and swallows it |
| TaskCommon.Handle | tasks/video_tasks.py:103-112 | per variant, how a failure ends the run and that a message is always recorded |
| TaskCommon.QueueFate | tasks/video_tasks.py:46-54 | a run is retried exactly when it raised a class in its retry tuple other than Ignore and attempts remain; Ignore is dropped |
| TaskCommon.StopsAreDropped | tasks/exchange_tasks.py:116-121 | bad data or an unmet prerequisite is always dropped, never retried |
| TaskCommon.NonRetryableNeverRetried | tasks/exchange_tasks.py:47-54 | bad data is never retried whatever the retry tuple, and only retried runs carry an attempt number |
| TaskCommon.PrerequisiteIgnoreDropsTask | tasks/exchange_tasks.py:73-75 | an unmet prerequisite is recorded under the attempt number by the generic handler and dropped by the queue |
| TaskCommon.RequiredPath | tasks/video_tasks.py:26-39 | a path is returned exactly when the row, a non-empty recorded path and a non-empty file exist |
| TaskCommon.PathFailure | tasks/video_tasks.py:26-39 | a missing row or path is a ValueError (dropped), a missing or empty file a RuntimeError (retried) |
| TaskCommon.CountsPartition | tasks/exchange_tasks.py:242-273 | every clip attempt counts once, as a success or as a failure |
| TaskCommon.Messages | tasks/exchange_tasks.py:262-273 | one non-empty message per failed attempt |
| TaskCommon.CutPaths | tasks/exchange_tasks.py:254-261 | one path per clip cut, each from a successful attempt |
| TaskCommon.RollupStatus | tasks/exchange_tasks.py:276-280 | Complete exactly with no failures, "Completed with Errors" with failures and successes, Error with failures only |
| TaskCommon.Summary | tasks/exchange_tasks.py:282-283 | none without messages; the first three joined by "; ", with "..." only when more were dropped |
| TaskCommon.SummaryNamesEveryShortList | tasks/exchange_tasks.py:282-283 | a summary of at most three messages contains each of them |
| ExchangeSteps.ScopeInputs | tasks/exchange_tasks.py:65-84 | the parent's turns are read exactly when the parent exists with diarization Complete and stored; otherwise a ValueError or the variant's prerequisite class |
| ExchangeSteps.ExchangeDiarizationTask | tasks/exchange_tasks.py:56-127 | only the exchange's diarization slot and result change, and the sub-step ends Complete exactly when its inputs are ready |
| ExchangeSteps.ScopingStoresClippedTurns | tasks/exchange_tasks.py:89-113 | a ready run stores the parent's turns clipped to the exchange window and sets Complete |
| ExchangeSteps.ScopingFailureClearsResult | tasks/exchange_tasks.py:116-127 | a failed check records Error, clears the result, and the task modules drop the run |
| ExchangeSteps.ExchangeDiarizationVariantsAgree | pipeline.py:293-350 | both variants leave the same store when ready and the same status otherwise |
| ExchangeSteps.DefineClipsTask | tasks/exchange_tasks.py:136-178 | only the clip-definition slot and result change, and the sub-step ends Complete exactly when the exchange's diarization is Complete and stored |
| ExchangeSteps.DefinitionStoresSelection | tasks/exchange_tasks.py:156-164 | a ready run stores the clips selected from the exchange's turns |
| ExchangeSteps.DefinitionFailureClearsResult | tasks/exchange_tasks.py:167-178 | a failed check records Error and clears the definitions |
| ExchangeSteps.StoredDefinitionsComeFromTurns | tasks/exchange_tasks.py:156-164 | every stored definition is within the bounds and cut from one eligible scoped turn |
| ExchangeSteps.DefineClipsVariantsAgree | pipeline.py:354-414 | with the corrected pipeline helper both variants agree |
| ExchangeSteps.AddClips | database.py:247-278 | adding clips keeps the old list as a prefix, gains every new path and nothing else |
| ExchangeSteps.CutClipsTask | tasks/exchange_tasks.py:187-302 | only the cutting slot and the parent's clip list change |
| ExchangeSteps.CutRefusedWhenNotReady | tasks/exchange_tasks.py:195-216 | a failed check records Error and leaves the videos alone |
| ExchangeSteps.CutSkipsEmptyList | tasks/exchange_tasks.py:218-224 | no definitions means Skipped with no clip, before the video file is examined |
| ExchangeSteps.CutRefusedWithoutVideoFile | tasks/exchange_tasks.py:226-228 | no usable video file records Error and cuts nothing; a missing path is dropped and a missing file retried |
| ExchangeSteps.CutAppendsEveryClip | tasks/exchange_tasks.py:242-273 | every definition is attempted, each cut clip is listed, old entries keep their order, and only cut clips are added |
| ExchangeSteps.CutSlot | tasks/exchange_tasks.py:276-287 | the status is the roll-up of the attempts and the error column holds the summary as the store keeps it |
| ExchangeSteps.CutSummaryKeptOnlyOnError | tasks/exchange_tasks.py:282-287 | the failure summary survives only when every clip failed; a "Completed with Errors" run keeps no message |
| VideoSteps.SetStep | database.py:193-217 | a status write changes only that step's slot |
| VideoSteps.FailStep | tasks/video_tasks.py:153-162 | a failure records Error with a message and clears the result when asked |
| VideoSteps.AudioCachePath | tasks/video_tasks.py:132-134 | the cached audio lies in the video file's directory |
| VideoSteps.AudioTask | tasks/video_tasks.py:121-163 | only the audio slot and path change, and the step ends Complete exactly when the video file is usable and a cache exists or extraction succeeds |
| VideoSteps.AudioRecordsCachePath | tasks/video_tasks.py:134-150 | success records the cache path next to the video file |
| VideoSteps.AudioFailureKeepsPath | tasks/video_tasks.py:153-162 | failure records Error, keeps the audio path, and drops the run or hands it back for retrying as the path check decides |
| VideoSteps.AudioCacheSkipsExtraction | tasks/video_tasks.py:137-140 | with a cached file, the extractor's outcome does not matter |
| VideoSteps.TranscriptTask | tasks/video_tasks.py:171-246 | only the transcript slot and result change, and the step ends Complete exactly when the audio is usable and a cache or the engine gives segments |
| VideoSteps.TranscriptStoresSegments | tasks/video_tasks.py:181-229 | success stores the cached segments when usable, else the engine's |
| VideoSteps.TranscriptCacheSkipsEngine | tasks/video_tasks.py:188-204 | with a usable cache, the engine's outcome does not matter |
| VideoSteps.TranscriptFailureVariants | pipeline.py:198-204 | failure records Error; the pipeline clears the transcript and the task modules keep it |
| VideoSteps.DiarizationTask | tasks/video_tasks.py:254-290 | only the diarization slot and result change, and the step ends Complete exactly when the audio is usable and the engine gives turns |
| VideoSteps.DiarizationStoresTurns | tasks/video_tasks.py:262-274 | success stores the engine's turns |
| VideoSteps.DiarizationFailureClearsResult | tasks/video_tasks.py:268-288 | failure records Error and clears the turns; a missing JSON result is dropped, an engine failure retried |
| VideoSteps.CandidateOf | database.py:384-397 | a detected exchange is handed to the store with every key present |
| VideoSteps.RegenerationReplacesAuto | tasks/video_tasks.py:418-424 | clearing and re-adding leaves exactly the definitions as the video's auto rows; other videos and unrelated manual rows are untouched |
| VideoSteps.SpeakerInputs | tasks/video_tasks.py:309-330 | inputs are read exactly when both steps are Complete and both results are stored; otherwise a ValueError or Ignore |
| VideoSteps.SpeakerChangeDefs | tasks/video_tasks.py:352-412 | speaker-change definitions have distinct labels, and there are none for an empty transcript |
| VideoSteps.AfterRegeneration | tasks/video_tasks.py:418-426 | the step ends Complete exactly when the store accepted the definitions |
| VideoSteps.IdentifyBySpeakerChange | tasks/video_tasks.py:298-439 | the step ends Complete exactly when the inputs are ready, and exchanges are untouched when they are not |
| VideoSteps.SpeakerChangeRegenerates | tasks/video_tasks.py:352-426 | a ready run replaces the video's auto exchanges by exactly the speaker-change definitions |
| VideoSteps.EmptyTranscriptKeepsExchanges | tasks/video_tasks.py:332-347 | an empty transcript completes without touching any exchange |
| VideoSteps.SpeakerChangeRefusedWithoutInputs | tasks/video_tasks.py:309-330 | missing inputs record Error and the run is dropped |
| VideoSteps.MarkerInputs | pipeline.py:253-264 | the transcript is read exactly when its step is Complete and it is stored; otherwise a ValueError or RuntimeError |
| VideoSteps.IdentifyByMarkers | pipeline.py:247-287 | the step ends Complete exactly when the transcript is ready; the pipeline always finishes |
| VideoSteps.MarkersRegenerate | pipeline.py:266-281 | a ready run replaces the video's auto exchanges by exactly the marker definitions |
| VideoSteps.EmptyTranscriptStrategiesDiffer | pipeline.py:266-279 | on an empty transcript the task modules keep the auto exchanges and the pipeline removes them all, keeping every other row |

## Left out

- SQLite connections, transactions, row factories, JSON encoding and decoding, and timestamps: a stored result is kept as the decoded list, and a database error is not modelled except where a write's `False` is part of the logic (`add_long_exchanges`, `add_manual_exchange`).
- Concurrency between web requests and workers: writes are modelled as sequential. The nested connection in the resets is not a concurrency matter and is covered under Findings.
- Rounding to three decimals and floating-point behaviour: times are exact reals.
- Non-numeric values in time fields, and non-dict segments: only missing or `None` fields are modelled.
- The retry countdowns and the queue's scheduling: only whether a run is retried, dropped or finished is modelled.
- Flask rendering, flash messages, JSON bodies, server-sent events, the index and video-details pages, and the template filters.
- Media.FfprobeGuess: paths follow POSIX `os.path` rules, so a Windows path such as `C:\path\ffmpeg.exe` has no `/` and gives the bare `ffprobe.exe`, where Windows `os.path.dirname` would split at `\` and give `C:\path\ffprobe.exe`.
- The download task (both variants) and `update_video_path`: they wrap the external downloader and its file-name conflict handling.
- `trigger_manual_clip_creation` and the file deletion in the `delete_videos` route: they combine file-system calls not modelled here. The record deletion is modelled as `Store.DeleteVideos`.
- The engines (Whisper, pyannote, FFmpeg, ffprobe): each is a parameter giving its result or error. `get_video_duration` is the `sourceDuration` parameter.
- The output clip file name and directory creation in the cutting task: the cutter is a parameter giving each definition's outcome, and exceptions escaping it or the per-clip store writes mid-loop are not modelled.
- Path normalisation by `os.path.abspath` in `serve_clip`: the resolved paths are parameters.
- The transcript cache file (`transcript.json` next to the audio): it is abstracted as the `TranscriptCache` parameter. The branches of the transcript task that fail after the engine returned (writing the cache, processing the segments) are not modelled.
- The alignment result can never be empty for a non-empty transcript, so the task modules' "alignment failed" branch is unreachable and not modelled.
- VideoSteps.TranscriptTask: does not model the task modules' clearing of the transcript after a processing failure, because every modelled failure happens before a transcript exists.
- ExchangeSteps.DefineClipsTask: models the pipeline variant with the corrected clip-definition helper (see Findings), not with the helper as written.
- VideoSteps.Regenerate: does not state that the next exchange id is unchanged, because inserting rows advances it.
- Alignment.IsLikelyQuestion: only the text argument's absence is modelled, not a non-string text. The word class is the `isWord` parameter rather than Python's Unicode table.
- Alignment.Align: a turn whose `label` key holds an explicit null is credited to the default speaker. The source keys its overlap under None, which can change the chosen speaker. A missing key and a null value are one `None` here; the diarization engine wrapper always writes a string label (`analysis/diarization.py:228`).
- ClipSelection.DefineShortClips: for the same reason, a turn with an explicit null label gives a clip whose speaker is 'UNKNOWN'; the source gives None.
- ErrorText.FormatError: uses the corrected truncation, so its bound holds for every limit. With `max_length` 24 the source's text can exceed the limit (see Findings). `ErrorText.FormatErrorMatchesSource` shows that the two agree at every other limit.
- Store.FullResetIsDownloadReset: relates the intended resets only. As written, the full reset keeps the exchanges and the reset from download deletes them (see Findings and `Store.FullResetAsWrittenKeepsExchanges`).

## Findings

| source | as written | input that shows it | evidently intended | confidence | as-written member | corrected member |
|---|---|---|---|---|---|---|
| pipeline.py:381-398 | the clip-definition helper in the pipeline variant reads `config.CLIP_MIN_DURATION_SECONDS` and `config.CLIP_MAX_DURATION_SECONDS`, which the shipped `config.py` (lines 56-58) leaves commented out | any exchange with at least one scoped diarization turn raises AttributeError, so clip definition always ends in Error | use the same defaults as `analysis/clip_logic.py` (1.0 and 60.0 seconds) | not executed | ClipSelection.PipelineDefineClipsAsWritten, ClipSelection.PipelineShippedConfigFails | ClipSelection.PipelineDefineClips |
| utils/error_utils.py:61-71 | when exactly one character of room remains beyond the ellipsis, `half_cutoff` is 0 and `full_error[-0:]` is the whole text | `max_length` 24 and a 25-character error give a 48-character result, longer than the input | keep `half_cutoff` characters from each end, so the result never exceeds `max_length` | not executed | ErrorText.TruncateAsWritten, ErrorText.TruncationOverflows | ErrorText.Truncate |
| database.py:542-618 | `reset_video_full`, and `reset_video_step` from diarization or exchange_id, call `clear_long_exchanges_for_video` while their own connection holds an uncommitted UPDATE; that helper opens a second connection (lines 469-474), and under write-ahead logging (line 26) it waits out the 15-second busy timeout (line 25), catches the lock error and returns False, which the caller ignores | a full reset of a video that has exchanges: the row is reset and every exchange stays, whereas a reset from download deletes them | delete the exchanges in the same transaction as the row update | not executed | Store.ResetVideoFullAsWritten, Store.ResetVideoStepAsWritten, Store.FullResetAsWrittenKeepsExchanges, Store.LateResetAsWrittenKeepsAuto | Store.ResetVideoFull, Store.ResetVideoStep |

=== FILE: alignment.dfy ===
/** Speaker alignment and the question heuristic (the analysis layer's
    alignment utilities). Each transcript segment receives the diarization
    label that overlaps it longest; ties go to the label that first
    contributed overlap. */
module Alignment {
  import opened Base
  import opened Segments

  /** Overlaps of at most this many seconds are ignored as noise. */
  const NoiseFloor: real := 0.001

  /** The overlap one diarization turn contributes to the transcript span
      [ts, te): nothing when the turn lacks a bound or is empty, or when
      the overlap does not exceed the noise floor. */
  function Contribution(ts: real, te: real, d: DiarSeg): (c: Option<real>)
    ensures c.Some? ==> WellTimed(d.start, d.end) && c.value > NoiseFloor
    ensures c.Some? ==> c.value <= te - ts && c.value <= d.end.value - d.start.value
  {
    if !WellTimed(d.start, d.end) then None
    else
      var ov := Max(0.0, Min(te, d.end.value) - Max(ts, d.start.value));
      if ov > NoiseFloor then Some(ov) else None
  }

  /** The label a turn is counted under (`get('label', default)`). */
  function LabelOf(d: DiarSeg, default: string): string {
    d.speakerLabel.GetOr(default)
  }

  // ---------------------------------------------------------------------------
  // Reference definitions: which labels qualify, in which order, with what total
  // ---------------------------------------------------------------------------

  /** Labels of the turns that contribute overlap, in diarization order,
      repetitions kept. */
  function Qualifying(ts: real, te: real, ds: seq<DiarSeg>, default: string): (q: seq<string>)
    ensures |q| <= |ds|
  {
    if |ds| == 0 then []
    else
      var p := ds[..|ds| - 1];
      var d := ds[|ds| - 1];
      Qualifying(ts, te, p, default) + (if Contribution(ts, te, d).Some? then [LabelOf(d, default)] else [])
  }

  /** The first occurrence of every element, in order of first appearance. */
  function Dedup(s: seq<string>): (r: seq<string>)
    ensures Distinct(r)
    ensures forall x :: x in r <==> x in s
  {
    if |s| == 0 then []
    else
      var d := Dedup(s[..|s| - 1]);
      assert forall x :: x in s <==> x in s[..|s| - 1] || x == s[|s| - 1];
      if s[|s| - 1] in d then d else d + [s[|s| - 1]]
  }

  /** The labels that overlap [ts, te), each once, in the order they first
      contributed: the key order of the source's overlap dictionary. */
  function Keys(ts: real, te: real, ds: seq<DiarSeg>, default: string): seq<string> {
    Dedup(Qualifying(ts, te, ds, default))
  }

  /** Total overlap credited to label `lbl`. */
  function Total(ts: real, te: real, ds: seq<DiarSeg>, default: string, lbl: string): real {
    if |ds| == 0 then 0.0
    else
      var d := ds[|ds| - 1];
      var c := Contribution(ts, te, d);
      Total(ts, te, ds[..|ds| - 1], default, lbl)
        + (if c.Some? && LabelOf(d, default) == lbl then c.value else 0.0)
  }

  /** Position `b` of the key list `k` holds a maximal total, strictly
      above the total of every earlier key. */
  ghost predicate Leads(ts: real, te: real, ds: seq<DiarSeg>, default: string, k: seq<string>, b: int) {
    0 <= b < |k|
    && (forall j :: 0 <= j < |k| ==> Total(ts, te, ds, default, k[j]) <= Total(ts, te, ds, default, k[b]))
    && (forall j :: 0 <= j < b ==> Total(ts, te, ds, default, k[j]) < Total(ts, te, ds, default, k[b]))
  }

  /** The speaker the source must assign to transcript segment `t`: the
      default when `t` is malformed or nothing overlaps it; otherwise a
      label of maximal total overlap, no earlier-inserted label reaching
      the same total. */
  ghost predicate ChosenBy(t: TranscriptSeg, ds: seq<DiarSeg>, default: string, speaker: string) {
    if !WellTimed(t.start, t.end) then speaker == default
    else
      var ts, te := t.start.value, t.end.value;
      var k := Keys(ts, te, ds, default);
      if |k| == 0 then speaker == default
      else exists b :: Leads(ts, te, ds, default, k, b) && k[b] == speaker
  }

  /** At most one position of a list without repetitions leads. */
  lemma {:induction false} LeaderUnique(ts: real, te: real, ds: seq<DiarSeg>, default: string, k: seq<string>, a: int, b: int)
    requires Leads(ts, te, ds, default, k, a) && Leads(ts, te, ds, default, k, b)
    ensures a == b
  {
    assert Total(ts, te, ds, default, k[a]) == Total(ts, te, ds, default, k[b]);
  }

  /** The reference choice is a function of its inputs: at most one speaker
      satisfies it. */
  lemma {:induction false} ChosenUnique(t: TranscriptSeg, ds: seq<DiarSeg>, default: string, a: string, b: string)
    requires ChosenBy(t, ds, default, a) && ChosenBy(t, ds, default, b)
    ensures a == b
  {
    if WellTimed(t.start, t.end) {
      var ts, te := t.start.value, t.end.value;
      var k := Keys(ts, te, ds, default);
      if |k| > 0 {
        var ia :| Leads(ts, te, ds, default, k, ia) && k[ia] == a;
        var ib :| Leads(ts, te, ds, default, k, ib) && k[ib] == b;
        LeaderUnique(ts, te, ds, default, k, ia, ib);
      }
    }
  }

  // ---------------------------------------------------------------------------
  // The computation: an insertion-ordered overlap dictionary and `max(..., key=)`
  // ---------------------------------------------------------------------------

  /** One entry of the overlap dictionary. */
  datatype Entry = Entry(key: string, total: real)

  function LabelsOf(acc: seq<Entry>): (r: seq<string>)
    ensures |r| == |acc| && forall j :: 0 <= j < |acc| ==> r[j] == acc[j].key
  {
    if |acc| == 0 then [] else [acc[0].key] + LabelsOf(acc[1..])
  }

  predicate Distinct(s: seq<string>) {
    forall i, j :: 0 <= i < j < |s| ==> s[i] != s[j]
  }

  /** `overlaps[label] = overlaps.get(label, 0) + x` on an insertion-ordered
      dictionary: an existing key keeps its place, a new key goes last. */
  function AddOverlap(acc: seq<Entry>, lbl: string, x: real): (r: seq<Entry>)
    requires Distinct(LabelsOf(acc))
    ensures lbl in LabelsOf(acc) ==> |r| == |acc| && forall j :: 0 <= j < |acc| ==>
      r[j].key == acc[j].key
      && r[j].total == (if acc[j].key == lbl then acc[j].total + x else acc[j].total)
    ensures lbl !in LabelsOf(acc) ==> r == acc + [Entry(lbl, x)]
  {
    if |acc| == 0 then [Entry(lbl, x)]
    else if acc[0].key == lbl then [Entry(lbl, acc[0].total + x)] + acc[1..]
    else
      assert lbl in LabelsOf(acc) <==> lbl in LabelsOf(acc[1..]);
      [acc[0]] + AddOverlap(acc[1..], lbl, x)
  }

  /** One more turn extends the qualifying labels by at most its own label. */
  lemma {:induction false} QualifyingSnoc(ts: real, te: real, p: seq<DiarSeg>, d: DiarSeg, default: string)
    ensures Qualifying(ts, te, p + [d], default) == Qualifying(ts, te, p, default)
      + (if Contribution(ts, te, d).Some? then [LabelOf(d, default)] else [])
    ensures forall l :: Total(ts, te, p + [d], default, l) == Total(ts, te, p, default, l)
                        + (var c := Contribution(ts, te, d); if c.Some? && LabelOf(d, default) == l then c.value else 0.0)
  {
    assert (p + [d])[..|p + [d]| - 1] == p;
  }

  lemma {:induction false} DedupSnoc(q: seq<string>, l: string)
    ensures Dedup(q + [l]) == if l in Dedup(q) then Dedup(q) else Dedup(q) + [l]
  {
    assert (q + [l])[..|q + [l]| - 1] == q;
  }

  /** The keys after `AddOverlap`: unchanged for a present key, the new key
      appended otherwise. */
  lemma {:induction false} AddOverlapLabels(acc: seq<Entry>, lbl: string, x: real)
    requires Distinct(LabelsOf(acc))
    ensures LabelsOf(AddOverlap(acc, lbl, x))
      == if lbl in LabelsOf(acc) then LabelsOf(acc) else LabelsOf(acc) + [lbl]
  {
    var r := AddOverlap(acc, lbl, x);
    if lbl in LabelsOf(acc) {
      assert forall j :: 0 <= j < |r| ==> LabelsOf(r)[j] == LabelsOf(acc)[j];
    } else {
      assert forall j :: 0 <= j < |r| ==> LabelsOf(r)[j] == (LabelsOf(acc) + [lbl])[j];
    }
  }

  /** Adding one turn's overlap to a dictionary keyed by a prefix's `Keys`
      keys it by the longer prefix's `Keys`. */
  lemma {:induction false} AddOverlapKeys(ts: real, te: real, p: seq<DiarSeg>, d: DiarSeg, default: string, acc: seq<Entry>)
    requires LabelsOf(acc) == Keys(ts, te, p, default)
    requires Contribution(ts, te, d).Some?
    ensures Distinct(LabelsOf(acc))
    ensures LabelsOf(AddOverlap(acc, LabelOf(d, default), Contribution(ts, te, d).value)) == Keys(ts, te, p + [d], default)
  {
    var l := LabelOf(d, default);
    QualifyingSnoc(ts, te, p, d, default);
    DedupSnoc(Qualifying(ts, te, p, default), l);
    AddOverlapLabels(acc, l, Contribution(ts, te, d).value);
  }

  /** Adding one turn's overlap to a dictionary whose values are a prefix's
      totals gives values that are the longer prefix's totals. */
  lemma {:induction false} AddOverlapTotals(ts: real, te: real, p: seq<DiarSeg>, d: DiarSeg, default: string, acc: seq<Entry>)
    requires Distinct(LabelsOf(acc))
    requires forall x :: x in LabelsOf(acc) <==> x in Qualifying(ts, te, p, default)
    requires forall j :: 0 <= j < |acc| ==> acc[j].total == Total(ts, te, p, default, acc[j].key)
    requires Contribution(ts, te, d).Some?
    ensures var r := AddOverlap(acc, LabelOf(d, default), Contribution(ts, te, d).value);
      forall j :: 0 <= j < |r| ==> r[j].total == Total(ts, te, p + [d], default, r[j].key)
  {
    var l := LabelOf(d, default);
    QualifyingSnoc(ts, te, p, d, default);
    if l !in LabelsOf(acc) {
      TotalAbsent(ts, te, p, default, l);
    }
  }

  /** Adding one turn's overlap to a dictionary that is correct for a prefix
      gives the dictionary that is correct for the longer prefix. */
  lemma {:induction false} AddOverlapCorrect(ts: real, te: real, p: seq<DiarSeg>, d: DiarSeg, default: string, acc: seq<Entry>)
    requires LabelsOf(acc) == Keys(ts, te, p, default)
    requires forall j :: 0 <= j < |acc| ==> acc[j].total == Total(ts, te, p, default, acc[j].key)
    requires Contribution(ts, te, d).Some?
    ensures Distinct(LabelsOf(acc))
    ensures var r := AddOverlap(acc, LabelOf(d, default), Contribution(ts, te, d).value);
      LabelsOf(r) == Keys(ts, te, p + [d], default)
      && forall j :: 0 <= j < |r| ==> r[j].total == Total(ts, te, p + [d], default, r[j].key)
  {
    AddOverlapKeys(ts, te, p, d, default, acc);
    AddOverlapTotals(ts, te, p, d, default, acc);
  }

  /** A label that never qualified has total zero. */
  lemma {:induction false} TotalAbsent(ts: real, te: real, ds: seq<DiarSeg>, default: string, l: string)
    requires l !in Qualifying(ts, te, ds, default)
    ensures Total(ts, te, ds, default, l) == 0.0
  {
    if |ds| > 0 {
      var p := ds[..|ds| - 1];
      assert ds == p + [ds[|ds| - 1]];
      QualifyingSnoc(ts, te, p, ds[|ds| - 1], default);
      TotalAbsent(ts, te, p, default, l);
    }
  }

  /** The overlap dictionary built by scanning every diarization turn: its
      keys are `Keys` in order and each value is that label's `Total`. */
  function Accumulate(ts: real, te: real, ds: seq<DiarSeg>, default: string): (acc: seq<Entry>)
    ensures LabelsOf(acc) == Keys(ts, te, ds, default)
    ensures forall j :: 0 <= j < |acc| ==> acc[j].total == Total(ts, te, ds, default, acc[j].key)
  {
    if |ds| == 0 then []
    else
      var p := ds[..|ds| - 1];
      var d := ds[|ds| - 1];
      assert ds == p + [d];
      var acc := Accumulate(ts, te, p, default);
      QualifyingSnoc(ts, te, p, d, default);
      match Contribution(ts, te, d)
      case None =>
        assert Qualifying(ts, te, ds, default) == Qualifying(ts, te, p, default);
        acc
      case Some(x) =>
        AddOverlapCorrect(ts, te, p, d, default, acc);
        AddOverlap(acc, LabelOf(d, default), x)
  }

  /** The index `max(dict, key=dict.get)` returns among the first `n`
      entries: a maximal total, strictly above every earlier entry. */
  function Best(acc: seq<Entry>, n: nat): (b: nat)
    requires 1 <= n <= |acc|
    ensures b < n
    ensures forall j :: 0 <= j < n ==> acc[j].total <= acc[b].total
    ensures forall j :: 0 <= j < b ==> acc[j].total < acc[b].total
  {
    if n == 1 then 0
    else
      var b := Best(acc, n - 1);
      if acc[n - 1].total > acc[b].total then n - 1 else b
  }

  /** The speaker the source assigns to one transcript segment. */
  function SpeakerFor(t: TranscriptSeg, ds: seq<DiarSeg>, default: string): string {
    if !WellTimed(t.start, t.end) then default
    else
      var acc := Accumulate(t.start.value, t.end.value, ds, default);
      if |acc| == 0 then default else acc[Best(acc, |acc|)].key
  }

  /** On a dictionary keyed by `Keys` and valued by `Total`, the entry
      `Best` picks leads. */
  lemma {:induction false} BestLeads(ts: real, te: real, ds: seq<DiarSeg>, default: string, acc: seq<Entry>)
    requires |acc| > 0
    requires LabelsOf(acc) == Keys(ts, te, ds, default)
    requires forall j :: 0 <= j < |acc| ==> acc[j].total == Total(ts, te, ds, default, acc[j].key)
    ensures Best(acc, |acc|) < |Keys(ts, te, ds, default)|
    ensures Keys(ts, te, ds, default)[Best(acc, |acc|)] == acc[Best(acc, |acc|)].key
    ensures Leads(ts, te, ds, default, Keys(ts, te, ds, default), Best(acc, |acc|))
  {
    var k, b := Keys(ts, te, ds, default), Best(acc, |acc|);
    forall j | 0 <= j < |k|
      ensures Total(ts, te, ds, default, k[j]) <= Total(ts, te, ds, default, k[b])
      ensures j < b ==> Total(ts, te, ds, default, k[j]) < Total(ts, te, ds, default, k[b])
    {
      assert k[j] == acc[j].key;
    }
  }

  lemma {:induction false} SpeakerForChosen(t: TranscriptSeg, ds: seq<DiarSeg>, default: string)
    ensures ChosenBy(t, ds, default, SpeakerFor(t, ds, default))
  {
    if WellTimed(t.start, t.end) {
      var ts, te := t.start.value, t.end.value;
      var acc := Accumulate(ts, te, ds, default);
      if |acc| > 0 {
        BestLeads(ts, te, ds, default, acc);
      }
    }
  }

  /** Segments aligned with an empty diarization all get the default. */
  lemma {:induction false} EmptyDiarizationDefaults(t: TranscriptSeg, default: string, speaker: string)
    requires ChosenBy(t, [], default, speaker)
    ensures speaker == default
  {
    if WellTimed(t.start, t.end) {
      assert Qualifying(t.start.value, t.end.value, [], default) == [];
    }
  }

  function AlignEach(ts: seq<TranscriptSeg>, ds: seq<DiarSeg>, default: string): (r: seq<AlignedSeg>)
    ensures |r| == |ts|
    ensures forall i :: 0 <= i < |ts| ==> r[i].seg == ts[i] && ChosenBy(ts[i], ds, default, r[i].speaker)
  {
    if |ts| == 0 then []
    else
      SpeakerForChosen(ts[0], ds, default);
      [AlignedSeg(ts[0], SpeakerFor(ts[0], ds, default))] + AlignEach(ts[1..], ds, default)
  }

  /** `align_transcript_diarization`: one aligned copy per transcript
      segment, in order, each labelled as `ChosenBy` prescribes. */
  function Align(ts: seq<TranscriptSeg>, ds: seq<DiarSeg>, default: string): (r: seq<AlignedSeg>)
    ensures |r| == |ts|
    ensures forall i :: 0 <= i < |ts| ==> r[i].seg == ts[i] && ChosenBy(ts[i], ds, default, r[i].speaker)
  {
    if |ts| == 0 then []
    else if |ds| == 0 then
      var r := seq(|ts|, i requires 0 <= i < |ts| => AlignedSeg(ts[i], default));
      assert forall i :: 0 <= i < |ts| ==> WellTimed(ts[i].start, ts[i].end) ==>
        Qualifying(ts[i].start.value, ts[i].end.value, ds, default) == [];
      r
    else AlignEach(ts, ds, default)
  }

  // ---------------------------------------------------------------------------
  // Question heuristic
  // ---------------------------------------------------------------------------

  /** The words the question pattern accepts at the start of a sentence. */
  const QuestionWords: seq<string> := [
    "who", "what", "where", "when", "why", "how", "is", "are", "am", "do",
    "does", "did", "can", "could", "will", "would", "should", "may", "might",
    "was", "were", "have", "has", "had"]

  /** The regex class `\w` as a predicate on characters. The question
      pattern is a str pattern compiled without `re.ASCII`, so its `\w`
      holds `_` and every character Python counts as alphanumeric, in any
      script (`ñ`, `è`, `ß`, digits of other scripts). That set comes from
      the interpreter's Unicode database, so the question test takes it as
      a parameter. */
  type WordClass = char -> bool

  predicate NoNewline(s: string) {
    forall i :: 0 <= i < |s| ==> s[i] != '\n'
  }

  /** Whether character `c` matches the lower-case ASCII letter `l` under
      Unicode IGNORECASE: its ASCII case, the dotted and dotless i (U+0130,
      U+0131), the long s (U+017F) and the Kelvin sign (U+212A). */
  predicate FoldsTo(c: char, l: char) {
    LowerChar(c) == l
    || (l == 'i' && (c == '\U{0130}' || c == '\U{0131}'))
    || (l == 's' && c == '\U{017F}')
    || (l == 'k' && c == '\U{212A}')
  }

  /** `c` starts with `w` up to case. */
  predicate FoldedPrefix(c: string, w: string) {
    |w| <= |c| && forall i :: 0 <= i < |w| ==> FoldsTo(c[i], w[i])
  }

  /** The first alternative of the pattern on stripped text: a question word
      (any case) followed by a word boundary under `isWord`, and a rest `.`
      can consume (no line break) up to the end. */
  predicate OpensWith(c: string, w: string, isWord: WordClass) {
    0 < |w| && FoldedPrefix(c, w)
    && isWord(c[|w| - 1]) != (|c| > |w| && isWord(c[|w|]))
    && NoNewline(c[|w|..])
  }

  /** The second alternative on stripped text: a `?` preceded by no line
      break and followed only by whitespace. */
  predicate EndsInQuestionMark(c: string) {
    exists i :: 0 <= i < |c| && c[i] == '?' && NoNewline(c[..i])
      && forall j :: i < j < |c| ==> IsSpace(c[j])
  }

  predicate PatternMatches(c: string, isWord: WordClass) {
    (exists k :: 0 <= k < |QuestionWords| && OpensWith(c, QuestionWords[k], isWord))
    || EndsInQuestionMark(c)
  }

  /** `is_likely_question`: false for a missing or blank text; otherwise the
      stripped text matches the question pattern or ends with `?`. */
  function IsLikelyQuestion(text: Option<string>, isWord: WordClass): (q: bool)
    ensures q ==> text.Some? && |Strip(text.value)| > 0
    ensures text.Some? && EndsWith(Strip(text.value), "?") ==> q
    ensures text.Some? && PatternMatches(Strip(text.value), isWord) ==> q
  {
    match text
    case None => false
    case Some(s) =>
      if |s| == 0 then false
      else
        var c := Strip(s);
        if |c| == 0 then false
        else PatternMatches(c, isWord) || EndsWith(c, "?")
  }

  /** On text that does not end in whitespace, a `?` followed only by
      whitespace is the last character. */
  lemma {:induction false} MarkIsLast(c: string)
    requires |c| > 0 ==> !IsSpace(c[|c| - 1])
    ensures EndsInQuestionMark(c) ==> EndsWith(c, "?")
  {
    if EndsInQuestionMark(c) {
      var i :| 0 <= i < |c| && c[i] == '?' && NoNewline(c[..i]) && forall j :: i < j < |c| ==> IsSpace(c[j]);
      assert i == |c| - 1;
      assert c[|c| - 1..] == "?";
    }
  }

  /** Every question word is at least two characters long, so only
      non-empty text opens with one. */
  lemma {:induction false} OpensNonEmpty(c: string, isWord: WordClass)
    ensures (exists k :: 0 <= k < |QuestionWords| && OpensWith(c, QuestionWords[k], isWord)) ==> |c| >= 2
  {
    assert forall k :: 0 <= k < |QuestionWords| ==> |QuestionWords[k]| >= 2;
  }

  /** On stripped text the second alternative adds nothing beyond the
      trailing-`?` fallback: a question is a leading question word or a
      final question mark. */
  lemma {:induction false} QuestionCharacterization(s: string, isWord: WordClass)
    ensures IsLikelyQuestion(Some(s), isWord) <==>
      (exists k :: 0 <= k < |QuestionWords| && OpensWith(Strip(s), QuestionWords[k], isWord))
      || EndsWith(Strip(s), "?")
  {
    var c := Strip(s);
    MarkIsLast(c);
    OpensNonEmpty(c, isWord);
  }

  /** Text that neither starts nor ends with whitespace is already stripped. */
  lemma StripTrimmed(c: string)
    requires |c| > 0 && !IsSpace(c[0]) && !IsSpace(c[|c| - 1])
    ensures Strip(c) == c
  {
    assert LStrip(c) == c;
    assert RStrip(c) == c;
  }

  /** Text opening with "do" and a third word character opens with no
      question word: "do" meets no boundary, and no other word fits. */
  lemma {:induction false} DoInsideWord(c: string, isWord: WordClass)
    requires |c| >= 3 && LowerChar(c[0]) == 'd' && LowerChar(c[1]) == 'o' && LowerChar(c[2]) != 'e'
    requires isWord(c[1]) && isWord(c[2])
    ensures forall k :: 0 <= k < |QuestionWords| ==> !OpensWith(c, QuestionWords[k], isWord)
  {
    forall k | 0 <= k < |QuestionWords|
      ensures !OpensWith(c, QuestionWords[k], isWord)
    {
      var w := QuestionWords[k];
      if w != "do" && w != "does" && w != "did" {
        assert !FoldsTo(c[0], w[0]);
      } else if w == "does" {
        assert !FoldsTo(c[2], w[2]);
      } else if w == "did" {
        assert !FoldsTo(c[1], w[1]);
      }
    }
  }

  /** Trimmed text that opens with no question word and does not end in
      `?` is not a likely question. */
  lemma {:induction false} NoOpenerNoMark(c: string, isWord: WordClass)
    requires |c| > 0 && !IsSpace(c[0]) && !IsSpace(c[|c| - 1]) && c[|c| - 1] != '?'
    requires forall k :: 0 <= k < |QuestionWords| ==> !OpensWith(c, QuestionWords[k], isWord)
    ensures !IsLikelyQuestion(Some(c), isWord)
  {
    StripTrimmed(c);
    QuestionCharacterization(c, isWord);
  }

  /** The boundary follows the word class: where `ñ` is a word character,
      as in Python's Unicode `\w`, "Doña Ana llegó" does not open with
      "do", and with no `?` it is not a question. */
  lemma UnicodeWordBlocksOpener(isWord: WordClass)
    requires isWord('o') && isWord('\U{00F1}')
    ensures !IsLikelyQuestion(Some("Do\U{00F1}a Ana lleg\U{00F3}"), isWord)
  {
    var c := "Do\U{00F1}a Ana lleg\U{00F3}";
    DoInsideWord(c, isWord);
    NoOpenerNoMark(c, isWord);
  }
}

=== FILE: base.dfy ===
/** Shared vocabulary: optional values, decimal rendering of naturals and the
    small string operations (Python's strip, startswith, `in`, lower, join)
    that the rest of the model is stated in. */
module Base {

  /** An optional value: `None` stands for a missing key or a JSON null. */
  datatype Option<+T> = None | Some(value: T) {
    function GetOr(default: T): T {
      match this
      case Some(v) => v
      case None => default
    }
  }

  /** The outcome of an operation that can raise: `Err` carries the message. */
  datatype Result<+T> = Ok(value: T) | Err(error: string)

  // ---------------------------------------------------------------------------
  // Decimal rendering of naturals (Python's str(int) on non-negative values)
  // ---------------------------------------------------------------------------

  predicate IsDigit(c: char) {
    '0' <= c <= '9'
  }

  predicate AllDigits(s: string) {
    forall i :: 0 <= i < |s| ==> IsDigit(s[i])
  }

  function DigitChar(d: nat): (c: char)
    requires d < 10
    ensures IsDigit(c)
  {
    ['0', '1', '2', '3', '4', '5', '6', '7', '8', '9'][d]
  }

  function DigitValue(c: char): (d: nat)
    requires IsDigit(c)
    ensures d < 10
  {
    if c == '0' then 0 else if c == '1' then 1 else if c == '2' then 2
    else if c == '3' then 3 else if c == '4' then 4 else if c == '5' then 5
    else if c == '6' then 6 else if c == '7' then 7 else if c == '8' then 8
    else 9
  }

  lemma DigitRoundTrip(d: nat)
    requires d < 10
    ensures DigitValue(DigitChar(d)) == d
  {
  }

  /** `str(n)` for a natural number. */
  function Show(n: nat): (s: string)
    ensures |s| > 0 && AllDigits(s)
  {
    if n < 10 then [DigitChar(n)] else Show(n / 10) + [DigitChar(n % 10)]
  }

  /** `int(s)` for a non-empty string of decimal digits. */
  function ParseNat(s: string): nat
    requires AllDigits(s)
  {
    if |s| == 0 then 0
    else ParseNat(s[..|s| - 1]) * 10 + DigitValue(s[|s| - 1])
  }

  /** Parsing undoes rendering, so distinct numbers render distinctly. */
  lemma {:induction false} ParseShow(n: nat)
    ensures ParseNat(Show(n)) == n
  {
    var s := Show(n);
    if n < 10 {
      DigitRoundTrip(n);
    } else {
      assert s[..|s| - 1] == Show(n / 10);
      DigitRoundTrip(n % 10);
      ParseShow(n / 10);
    }
  }

  lemma ShowInjective(a: nat, b: nat)
    ensures Show(a) == Show(b) ==> a == b
  {
    ParseShow(a);
    ParseShow(b);
  }

  // ---------------------------------------------------------------------------
  // Characters and strings
  // ---------------------------------------------------------------------------

  /** Characters Python's `str.strip()`, `str.split()` and the regex class `\s`
      treat as whitespace: the ASCII ones, the separators 0x1C-0x1F, NEL,
      and the Unicode space separators and line and paragraph separators. */
  predicate IsSpace(c: char) {
    '\t' <= c <= '\r' || '\U{001C}' <= c <= ' ' || c == '\U{0085}' || c == '\U{00A0}'
    || c == '\U{1680}' || '\U{2000}' <= c <= '\U{200A}' || c == '\U{2028}' || c == '\U{2029}'
    || c == '\U{202F}' || c == '\U{205F}' || c == '\U{3000}'
  }

  /** `s.lstrip()`: the suffix left after dropping leading whitespace. */
  function LStrip(s: string): (r: string)
    ensures |r| <= |s| && r == s[|s| - |r|..]
    ensures |r| > 0 ==> !IsSpace(r[0])
  {
    if |s| > 0 && IsSpace(s[0]) then LStrip(s[1..]) else s
  }

  /** What `LStrip` drops is whitespace. */
  lemma {:induction false} LStripDropsSpace(s: string)
    ensures forall i :: 0 <= i < |s| - |LStrip(s)| ==> IsSpace(s[i])
  {
    if |s| > 0 && IsSpace(s[0]) {
      LStripDropsSpace(s[1..]);
      forall i | 1 <= i < |s| - |LStrip(s)|
        ensures IsSpace(s[i])
      {
        assert s[i] == s[1..][i - 1];
      }
    }
  }

  /** `s.rstrip()`: the prefix left after dropping trailing whitespace. */
  function RStrip(s: string): (r: string)
    ensures |r| <= |s| && r == s[..|r|]
    ensures forall i :: |r| <= i < |s| ==> IsSpace(s[i])
    ensures |r| > 0 ==> !IsSpace(r[|r| - 1])
  {
    if |s| > 0 && IsSpace(s[|s| - 1]) then RStrip(s[..|s| - 1]) else s
  }

  /** `s.strip()`. */
  function Strip(s: string): (r: string)
    ensures |r| <= |s|
    ensures |r| > 0 ==> !IsSpace(r[0]) && !IsSpace(r[|r| - 1])
    ensures (forall i :: 0 <= i < |s| ==> IsSpace(s[i])) <==> |r| == 0
  {
    var l := LStrip(s);
    var r := RStrip(l);
    LStripDropsSpace(s);
    assert |l| > 0 ==> l[0] == s[|s| - |l|];
    assert forall i :: |s| - |l| <= i < |s| ==> s[i] == l[i - (|s| - |l|)];
    r
  }

  predicate StartsWith(s: string, p: string) {
    |p| <= |s| && s[..|p|] == p
  }

  predicate EndsWith(s: string, p: string) {
    |p| <= |s| && s[|s| - |p|..] == p
  }

  /** Python's `sub in s`. */
  predicate Contains(s: string, sub: string)
    decreases |s|
  {
    StartsWith(s, sub) || (|s| > 0 && Contains(s[1..], sub))
  }

  /** An occurrence at any position is found by `Contains`. */
  lemma {:induction false} ContainsAt(s: string, sub: string, k: nat)
    requires k <= |s| && StartsWith(s[k..], sub)
    ensures Contains(s, sub)
  {
    if k > 0 {
      assert s[1..][k - 1..] == s[k..];
      ContainsAt(s[1..], sub, k - 1);
    }
  }

  /** ASCII case mapping, as `str.lower()` / `str.upper()` do on ASCII text. */
  function LowerChar(c: char): char {
    if 'A' <= c <= 'Z' then (c as int + 32) as char else c
  }

  function UpperChar(c: char): char {
    if 'a' <= c <= 'z' then (c as int - 32) as char else c
  }

  function Lower(s: string): (r: string)
    ensures |r| == |s| && forall i :: 0 <= i < |s| ==> r[i] == LowerChar(s[i])
  {
    if |s| == 0 then [] else [LowerChar(s[0])] + Lower(s[1..])
  }

  function Upper(s: string): (r: string)
    ensures |r| == |s| && forall i :: 0 <= i < |s| ==> r[i] == UpperChar(s[i])
  {
    if |s| == 0 then [] else [UpperChar(s[0])] + Upper(s[1..])
  }

  /** The position of the last `c` in `s` (Python's `s.rfind(c)` when it finds one). */
  function LastIndex(s: string, c: char): (k: Option<nat>)
    ensures k.Some? ==> k.value < |s| && s[k.value] == c && forall j :: k.value < j < |s| ==> s[j] != c
    ensures k.None? ==> forall j :: 0 <= j < |s| ==> s[j] != c
  {
    if |s| == 0 then None
    else if s[|s| - 1] == c then Some(|s| - 1)
    else LastIndex(s[..|s| - 1], c)
  }

  /** `sep.join(items)`. */
  function Join(items: seq<string>, sep: string): string {
    if |items| == 0 then []
    else if |items| == 1 then items[0]
    else items[0] + sep + Join(items[1..], sep)
  }

  /** Python's `s[:n]` for any integer `n` (a negative `n` counts from the end). */
  function PyPrefix(s: string, n: int): (r: string)
    ensures |r| <= |s| && r == s[..|r|]
    ensures 0 <= n ==> |r| == if n <= |s| then n else |s|
    ensures n < 0 ==> |r| == if -n <= |s| then |s| + n else 0
  {
    if n >= 0 then (if n <= |s| then s[..n] else s)
    else if -n <= |s| then s[..|s| + n]
    else []
  }
}

=== FILE: clip_selection.dfy ===
/** Duration-bounded short-clip selection inside one exchange: every
    diarization turn whose duration lies within [min, max] (both inclusive)
    becomes a clip definition; malformed turns are skipped, never fatal. */
module ClipSelection {
  import opened Base
  import opened Segments

  /** Defaults applied when the configuration does not define the bounds. */
  const DefaultMinDuration: real := 1.0
  const DefaultMaxDuration: real := 60.0

  /** The clip bounds a configuration object may carry (None = attribute absent). */
  datatype ClipConfig = ClipConfig(minDuration: Option<real>, maxDuration: Option<real>)

  /** The shipped configuration leaves both clip bounds commented out. */
  const ShippedConfig: ClipConfig := ClipConfig(None, None)

  /** Outcome of the selection loop: the definitions and how many turns were
      passed over, whether for their duration or for being malformed. */
  datatype Selection = Selection(clips: seq<ClipDef>, skipped: nat)

  /** A turn can be read: both times present. */
  predicate Readable(d: DiarSeg) {
    d.start.Some? && d.end.Some?
  }

  /** A readable turn whose duration lies within the inclusive bounds. */
  predicate Eligible(d: DiarSeg, lo: real, hi: real) {
    Readable(d) && lo <= d.end.value - d.start.value <= hi
  }

  /** The definition produced for an eligible turn. */
  function ClipOf(d: DiarSeg): (c: ClipDef)
    requires Readable(d)
    ensures c.absoluteStart == d.start.value && c.absoluteEnd == d.end.value
    ensures c.duration == c.absoluteEnd - c.absoluteStart
    ensures c.speaker == d.speakerLabel.GetOr(Unknown)
  {
    ClipDef(d.start.value, d.end.value, d.speakerLabel.GetOr(Unknown), d.end.value - d.start.value)
  }

  /** The selection loop: one definition per eligible turn, in input order;
      every other turn counted as skipped, so kept plus skipped is the input
      size. `SelectionFaithful` states which clips it keeps. */
  function SelectClips(ds: seq<DiarSeg>, lo: real, hi: real): (r: Selection)
    ensures |r.clips| + r.skipped == |ds|
  {
    if |ds| == 0 then Selection([], 0)
    else
      var rest := SelectClips(ds[1..], lo, hi);
      if Eligible(ds[0], lo, hi) then Selection([ClipOf(ds[0])] + rest.clips, rest.skipped)
      else Selection(rest.clips, rest.skipped + 1)
  }

  /** The clips selected are exactly those of the eligible turns: each lies
      within the bounds and comes from an eligible turn, and no eligible turn
      is passed over. */
  lemma {:induction false} SelectionFaithful(ds: seq<DiarSeg>, lo: real, hi: real)
    ensures forall c :: c in SelectClips(ds, lo, hi).clips ==>
              lo <= c.duration <= hi && c.duration == c.absoluteEnd - c.absoluteStart
    ensures forall c :: c in SelectClips(ds, lo, hi).clips ==>
              exists i :: 0 <= i < |ds| && Eligible(ds[i], lo, hi) && c == ClipOf(ds[i])
    ensures forall i :: 0 <= i < |ds| && Eligible(ds[i], lo, hi) ==> ClipOf(ds[i]) in SelectClips(ds, lo, hi).clips
  {
    if |ds| > 0 {
      var tail := ds[1..];
      SelectionFaithful(tail, lo, hi);
      var rest := SelectClips(tail, lo, hi).clips;
      forall c | c in SelectClips(ds, lo, hi).clips
        ensures exists i :: 0 <= i < |ds| && Eligible(ds[i], lo, hi) && c == ClipOf(ds[i])
      {
        if c !in rest {
          assert Eligible(ds[0], lo, hi) && c == ClipOf(ds[0]);
        } else {
          var j :| 0 <= j < |tail| && Eligible(tail[j], lo, hi) && c == ClipOf(tail[j]);
          assert ds[j + 1] == tail[j];
        }
      }
      forall i | 0 < i < |ds| && Eligible(ds[i], lo, hi)
        ensures ClipOf(ds[i]) in SelectClips(ds, lo, hi).clips
      {
        assert ds[i] == tail[i - 1];
      }
    }
  }

  /** Selection handles each turn on its own, so it distributes over
      concatenation and keeps the input order. */
  lemma {:induction false} SelectAppend(a: seq<DiarSeg>, b: seq<DiarSeg>, lo: real, hi: real)
    ensures SelectClips(a + b, lo, hi).clips == SelectClips(a, lo, hi).clips + SelectClips(b, lo, hi).clips
    ensures SelectClips(a + b, lo, hi).skipped == SelectClips(a, lo, hi).skipped + SelectClips(b, lo, hi).skipped
  {
    if |a| == 0 {
      assert a + b == b;
    } else {
      assert (a + b)[0] == a[0];
      assert (a + b)[1..] == a[1..] + b;
      SelectAppend(a[1..], b, lo, hi);
    }
  }

  /** Inverted bounds select nothing and skip everything. */
  lemma {:induction false} InvertedBoundsSelectNothing(ds: seq<DiarSeg>, lo: real, hi: real)
    requires hi < lo
    ensures SelectClips(ds, lo, hi) == Selection([], |ds|)
  {
    if |ds| > 0 {
      InvertedBoundsSelectNothing(ds[1..], lo, hi);
    }
  }

  /** `define_short_clips_from_segments`: nothing for an empty or non-list
      input; otherwise the selection with the configured bounds, falling back
      to 1.0 and 60.0 seconds. */
  function DefineShortClips(input: Payload<DiarSeg>, cfg: ClipConfig): (r: seq<ClipDef>)
    ensures input.NotAList? || input.items == [] ==> r == []
    ensures input.List? ==> |r| <= |input.items|
    ensures forall c :: c in r ==>
              cfg.minDuration.GetOr(DefaultMinDuration) <= c.duration <= cfg.maxDuration.GetOr(DefaultMaxDuration)
    ensures input.List? ==> forall i :: 0 <= i < |input.items| ==>
              (Eligible(input.items[i], cfg.minDuration.GetOr(DefaultMinDuration), cfg.maxDuration.GetOr(DefaultMaxDuration))
               ==> ClipOf(input.items[i]) in r)
    ensures forall c :: c in r ==>
              input.List? && exists i :: (0 <= i < |input.items|
                && Eligible(input.items[i], cfg.minDuration.GetOr(DefaultMinDuration), cfg.maxDuration.GetOr(DefaultMaxDuration))
                && c == ClipOf(input.items[i]))
  {
    match input
    case NotAList => []
    case List(ds) =>
      var lo := cfg.minDuration.GetOr(DefaultMinDuration);
      var hi := cfg.maxDuration.GetOr(DefaultMaxDuration);
      if |ds| == 0 then []
      else
        SelectionFaithful(ds, lo, hi);
        SelectClips(ds, lo, hi).clips
  }

  /** With the shipped configuration the bounds are the defaults. */
  lemma ShippedBoundsAreDefaults(ds: seq<DiarSeg>)
    ensures DefineShortClips(List(ds), ShippedConfig) == SelectClips(ds, 1.0, 60.0).clips
  {
  }

  /** Turns of exactly the minimum or maximum duration are kept. */
  lemma BoundsInclusive(d: DiarSeg, cfg: ClipConfig)
    requires Readable(d)
    requires d.end.value - d.start.value == cfg.minDuration.GetOr(DefaultMinDuration)
             || d.end.value - d.start.value == cfg.maxDuration.GetOr(DefaultMaxDuration)
    requires cfg.minDuration.GetOr(DefaultMinDuration) <= cfg.maxDuration.GetOr(DefaultMaxDuration)
    ensures DefineShortClips(List([d]), cfg) == [ClipOf(d)]
  {
  }

  // ---------------------------------------------------------------------------
  // The clip-definition helper nested in the pipeline task
  // ---------------------------------------------------------------------------

  /** The pipeline's nested helper as written: for a non-empty list it reads
      both bounds from the configuration without a default, so a
      configuration lacking them raises AttributeError before any turn is
      examined. */
  function PipelineDefineClipsAsWritten(ds: seq<DiarSeg>, cfg: ClipConfig): (r: Result<seq<ClipDef>>)
    ensures ds == [] ==> r == Ok([])
    ensures r.Err? <==> ds != [] && (cfg.minDuration.None? || cfg.maxDuration.None?)
    ensures r.Ok? && ds != [] ==> forall c :: c in r.value ==>
              cfg.minDuration.value <= c.duration <= cfg.maxDuration.value
  {
    if |ds| == 0 then Ok([])
    else if cfg.minDuration.None? then Err("AttributeError: 'Config' object has no attribute 'CLIP_MIN_DURATION_SECONDS'")
    else if cfg.maxDuration.None? then Err("AttributeError: 'Config' object has no attribute 'CLIP_MAX_DURATION_SECONDS'")
    else
      SelectionFaithful(ds, cfg.minDuration.value, cfg.maxDuration.value);
      Ok(SelectClips(ds, cfg.minDuration.value, cfg.maxDuration.value).clips)
  }

  /** With the shipped configuration every non-empty exchange fails clip
      definition in the pipeline variant. */
  lemma PipelineShippedConfigFails(ds: seq<DiarSeg>)
    requires ds != []
    ensures PipelineDefineClipsAsWritten(ds, ShippedConfig).Err?
  {
  }

  /** The helper as evidently intended: the same defaults as the analysis
      module, so it never fails and agrees with it on every list. */
  function PipelineDefineClips(ds: seq<DiarSeg>, cfg: ClipConfig): (r: Result<seq<ClipDef>>)
    ensures r.Ok?
    ensures forall c :: c in r.value ==>
              cfg.minDuration.GetOr(DefaultMinDuration) <= c.duration <= cfg.maxDuration.GetOr(DefaultMaxDuration)
  {
    var lo := cfg.minDuration.GetOr(DefaultMinDuration);
    var hi := cfg.maxDuration.GetOr(DefaultMaxDuration);
    if |ds| == 0 then Ok([])
    else
      SelectionFaithful(ds, lo, hi);
      Ok(SelectClips(ds, lo, hi).clips)
  }

  /** The corrected helper is the analysis module's function, and it agrees
      with the helper as written whenever the configuration defines both bounds. */
  lemma PipelineClipsAgree(ds: seq<DiarSeg>, cfg: ClipConfig)
    ensures PipelineDefineClips(ds, cfg) == Ok(DefineShortClips(List(ds), cfg))
    ensures cfg.minDuration.Some? && cfg.maxDuration.Some? ==>
              PipelineDefineClipsAsWritten(ds, cfg) == PipelineDefineClips(ds, cfg)
  {
  }
}

=== FILE: error_text.dfy ===
/** Error text stored with a failed step: "Type: message", optionally
    followed by a traceback snippet, cut in the middle when it is too long;
    and the HTML-escaped variant shown in the browser. */
module ErrorText {
  import opened Base

  /** An exception as the formatter sees it: its class name and `str()`. */
  datatype ErrorValue = ErrorValue(typeName: string, message: string)

  /** What formatting the traceback yielded: not requested, the formatted
      lines, or the reason formatting failed. */
  datatype Trace = NoTrace | Lines(lines: seq<string>) | TraceFailed(reason: string)

  const DefaultMaxLength: int := 3000
  const HtmlMaxLength: int := 1000
  const Ellipsis: string := "\n ... [TRUNCATED] ... \n"

  /** Python's `s[i:]` for any integer `i` (a negative `i` counts from the end). */
  function PyFrom(s: string, i: int): (r: string)
    ensures |r| <= |s| && r == s[|s| - |r|..]
    ensures 0 <= i ==> |r| == if i <= |s| then |s| - i else 0
    ensures i < 0 ==> |r| == if -i <= |s| then -i else |s|
  {
    if i >= 0 then (if i <= |s| then s[i..] else [])
    else if -i <= |s| then s[|s| + i..]
    else s
  }

  function BasicInfo(e: ErrorValue): (s: string)
    ensures StartsWith(s, e.typeName) && EndsWith(s, e.message)
    ensures |s| == |e.typeName| + 2 + |e.message|
  {
    e.typeName + ": " + e.message
  }

  /** The traceback part: the last ten lines joined and stripped under a
      header, or a note that formatting failed. */
  function TracePart(t: Trace): string {
    match t
    case NoTrace => ""
    case Lines(ls) =>
      var last := if |ls| > 10 then ls[|ls| - 10..] else ls;
      "\n--- Traceback Snippet ---\n" + Strip(Join(last, "\n"))
    case TraceFailed(reason) => "\n(Traceback formatting failed: " + reason + ")"
  }

  // ---------------------------------------------------------------------------
  // Middle truncation
  // ---------------------------------------------------------------------------

  /** The truncation step as written. A window too small for the ellipsis
      falls back to a plain prefix; otherwise half the remaining room is
      kept from each end. With one character of room the half is 0, and
      the suffix slice `s[-0:]` is the whole string. */
  function TruncateAsWritten(s: string, maxLength: int): (r: string)
    ensures |s| <= maxLength ==> r == s
    ensures |s| > maxLength && maxLength - |Ellipsis| >= 2 ==> |r| <= maxLength
  {
    if |s| <= maxLength then s
    else
      var cutoff := maxLength - |Ellipsis|;
      if cutoff <= 0 then PyPrefix(s, maxLength)
      else
        var half := cutoff / 2;
        PyPrefix(s, half) + Ellipsis + PyFrom(s, -half)
  }

  /** With exactly one character of room beyond the ellipsis the written
      truncation returns more than it was given. */
  lemma TruncationOverflows(s: string)
    requires |s| == 25
    ensures |TruncateAsWritten(s, 24)| == 48
    ensures |TruncateAsWritten(s, 24)| > |s|
  {
    assert |Ellipsis| == 23;
  }

  /** The truncation step as intended: the suffix takes exactly `half`
      characters, also when `half` is 0. */
  function Truncate(s: string, maxLength: int): (r: string)
    ensures |s| <= maxLength ==> r == s
    ensures 0 <= maxLength < |s| ==> |r| <= maxLength
    ensures |s| > maxLength && maxLength <= |Ellipsis| ==> r == PyPrefix(s, maxLength)
    ensures |s| > maxLength > |Ellipsis| ==>
              var half := (maxLength - |Ellipsis|) / 2;
              |r| == 2 * half + |Ellipsis| && maxLength - 1 <= |r|
              && StartsWith(r, s[..half]) && EndsWith(r, s[|s| - half..])
  {
    if |s| <= maxLength then s
    else
      var cutoff := maxLength - |Ellipsis|;
      if cutoff <= 0 then PyPrefix(s, maxLength)
      else
        var half := cutoff / 2;
        var r := s[..half] + Ellipsis + s[|s| - half..];
        assert r[..half] == s[..half];
        assert r[|r| - half..] == s[|s| - half..];
        r
  }

  /** The two truncations differ only when the room beyond the ellipsis is a
      single character. */
  lemma TruncationsAgree(s: string, maxLength: int)
    requires maxLength - |Ellipsis| != 1
    ensures TruncateAsWritten(s, maxLength) == Truncate(s, maxLength)
  {
  }

  /** `format_error` with the corrected truncation. */
  function FormatError(e: ErrorValue, t: Trace, maxLength: int): (r: string)
    ensures maxLength >= 0 ==> |r| <= maxLength || r == BasicInfo(e) + TracePart(t)
    ensures |BasicInfo(e) + TracePart(t)| <= maxLength ==> r == BasicInfo(e) + TracePart(t)
    ensures 0 <= maxLength < |BasicInfo(e) + TracePart(t)| ==> |r| <= maxLength
  {
    Truncate(BasicInfo(e) + TracePart(t), maxLength)
  }

  /** At every limit but the one the Findings name, the corrected
      `FormatError` is the source's text. */
  lemma FormatErrorMatchesSource(e: ErrorValue, t: Trace, maxLength: int)
    requires maxLength - |Ellipsis| != 1
    ensures FormatError(e, t, maxLength) == TruncateAsWritten(BasicInfo(e) + TracePart(t), maxLength)
  {
    TruncationsAgree(BasicInfo(e) + TracePart(t), maxLength);
  }

  /** Short errors with no traceback are stored as "Type: message". */
  lemma ShortErrorVerbatim(e: ErrorValue)
    requires |e.typeName| + |e.message| + 2 <= DefaultMaxLength
    ensures FormatError(e, NoTrace, DefaultMaxLength) == e.typeName + ": " + e.message
  {
  }

  // ---------------------------------------------------------------------------
  // HTML escaping
  // ---------------------------------------------------------------------------

  /** `html.escape` with quoting on, one character at a time. */
  function EscapeChar(c: char): (r: string)
    ensures |r| > 0
  {
    if c == '&' then "&amp;"
    else if c == '<' then "&lt;"
    else if c == '>' then "&gt;"
    else if c == '"' then "&quot;"
    else if c == '\'' then "&#x27;"
    else [c]
  }

  /** Characters that never appear raw in escaped text. */
  predicate Markup(c: char) {
    c == '<' || c == '>' || c == '"' || c == '\''
  }

  function Escape(s: string): (r: string)
    ensures |r| >= |s|
    ensures forall i :: 0 <= i < |r| ==> !Markup(r[i])
  {
    if |s| == 0 then ""
    else
      var head := EscapeChar(s[0]);
      var rest := Escape(s[1..]);
      assert forall i :: 0 <= i < |head| ==> !Markup(head[i]);
      assert forall i :: |head| <= i < |head + rest| ==> (head + rest)[i] == rest[i - |head|];
      head + rest
  }

  /** The inverse of `Escape`: the five entities back to their characters. */
  function Unescape(s: string): string
    decreases |s|
  {
    if |s| == 0 then ""
    else if StartsWith(s, "&amp;") then "&" + Unescape(s[5..])
    else if StartsWith(s, "&lt;") then "<" + Unescape(s[4..])
    else if StartsWith(s, "&gt;") then ">" + Unescape(s[4..])
    else if StartsWith(s, "&quot;") then "\"" + Unescape(s[6..])
    else if StartsWith(s, "&#x27;") then "'" + Unescape(s[6..])
    else [s[0]] + Unescape(s[1..])
  }

  lemma UnescapeHead(c: char, rest: string)
    ensures Unescape(EscapeChar(c) + rest) == [c] + Unescape(rest)
  {
    var s := EscapeChar(c) + rest;
    assert s[..|EscapeChar(c)|] == EscapeChar(c);
    assert s[|EscapeChar(c)|..] == rest;
    if c == '&' || Markup(c) {
      assert s[1] == EscapeChar(c)[1];
      assert c != '&' ==> !StartsWith(s, "&amp;");
      assert c != '&' && c != '<' ==> !StartsWith(s, "&lt;");
      assert c == '"' || c == '\'' ==> !StartsWith(s, "&gt;");
      assert c == '\'' ==> !StartsWith(s, "&quot;");
    } else {
      assert s[0] == c;
    }
  }

  /** Escaping loses nothing. */
  lemma {:induction false} EscapeRoundTrip(s: string)
    ensures Unescape(Escape(s)) == s
  {
    if |s| > 0 {
      UnescapeHead(s[0], Escape(s[1..]));
      EscapeRoundTrip(s[1..]);
      assert [s[0]] + s[1..] == s;
    }
  }

  /** `format_error_for_html`: the escaped "Type: message", cut to 1000
      characters, so never longer than that and free of raw markup
      characters; when the escaped text fits, it decodes back to the
      original. */
  function FormatErrorForHtml(e: ErrorValue): (r: string)
    ensures |r| <= HtmlMaxLength
    ensures forall i :: 0 <= i < |r| ==> !Markup(r[i])
    ensures StartsWith(Escape(BasicInfo(e)), r)
    ensures |Escape(BasicInfo(e))| <= HtmlMaxLength ==> Unescape(r) == BasicInfo(e)
  {
    var full := Escape(BasicInfo(e));
    EscapeRoundTrip(BasicInfo(e));
    var r := PyPrefix(full, HtmlMaxLength);
    assert |full| <= HtmlMaxLength ==> r == full;
    r
  }
}

=== FILE: exchange_steps.dfy ===
/** The exchange-level tasks: scoping the video's full diarization to one
    exchange, defining short clips from the scoped turns, and cutting them.
    Each exists in the task modules (Running marked on the first attempt,
    failures classified for the queue) and in the pipeline module (Running
    marked on every run, every failure recorded and swallowed). */
module ExchangeSteps {
  import opened Base
  import opened Segments
  import opened ErrorText
  import opened Store
  import opened ScopedFilter
  import opened ClipSelection
  import opened TaskCommon

  /** The exchange's parent video, when it is stored. */
  predicate HasParent(db: Db, xid: nat) {
    xid in db.exchanges && db.exchanges[xid].videoId in db.videos
  }

  function Parent(db: Db, xid: nat): Video
    requires HasParent(db, xid)
  {
    db.videos[db.exchanges[xid].videoId]
  }

  /** The task modules also refuse a parent id of 0, which no stored video has. */
  predicate ParentFound(db: Db, xid: nat, v: Variant) {
    HasParent(db, xid) && (v == Tasks ==> db.exchanges[xid].videoId != 0)
  }

  /** The first checks of the diarization and cutting tasks: the exchange
      row and its parent video. */
  function ParentCheck(db: Db, xid: nat, v: Variant, trace: Trace): (r: Option<Raised>)
    ensures r.None? <==> ParentFound(db, xid, v)
    ensures r.Some? ==> r.value.cls == ValueError
  {
    if xid !in db.exchanges then Some(Raised(ValueError, "Exchange record not found.", trace))
    else
      var vid := db.exchanges[xid].videoId;
      if v == Tasks && vid == 0 then Some(Raised(ValueError, "Parent video ID missing for exchange " + Show(xid) + ".", trace))
      else if vid !in db.videos then
        Some(Raised(ValueError, (if v == Tasks then "Parent video record " else "Parent video ") + Show(vid) + " not found.", trace))
      else None
  }

  function SubOf(db: Db, xid: nat, s: Substep): Slot
    requires xid in db.exchanges
  {
    db.exchanges[xid].subs.Get(s)
  }

  // ---------------------------------------------------------------------------
  // What a sub-step task may write
  // ---------------------------------------------------------------------------

  /** The row with the slot and the result column of `s` blanked: what a
      task working on sub-step `s` leaves as it was. */
  function Rest(x: Exchange, s: Substep): Exchange {
    x.(subs := x.subs.Set(s, Fresh),
       diarization := if s == ExchangeDiarization then None else x.diarization,
       clipDefs := if s == ClipDefinition then None else x.clipDefs)
  }

  /** `b` is `a` with at most row `xid` changed, and there only in the slot
      and result column of `s`. */
  predicate RowsFrame(a: map<nat, Exchange>, b: map<nat, Exchange>, xid: nat, s: Substep) {
    b.Keys == a.Keys
    && (forall x :: x in a && x != xid ==> b[x] == a[x])
    && (xid in a ==> Rest(b[xid], s) == Rest(a[xid], s))
  }

  /** Only sub-step `s` of exchange `xid` changed; the videos are untouched. */
  predicate OnlySubstep(db: Db, r: Db, xid: nat, s: Substep) {
    r.videos == db.videos && r.nextVideo == db.nextVideo && r.nextExchange == db.nextExchange
    && RowsFrame(db.exchanges, r.exchanges, xid, s)
  }

  lemma SetTwice(subs: SubSlots, s: Substep, a: Slot, b: Slot)
    ensures subs.Set(s, a).Set(s, b) == subs.Set(s, b)
  {
  }

  /** The other sub-steps read the same after a write to `s`. */
  lemma RestKeepsOthers(x: Exchange, y: Exchange, s: Substep)
    requires Rest(x, s) == Rest(y, s)
    ensures SameKey(x, y) && x.kind == y.kind && x.start == y.start && x.end == y.end
    ensures forall t :: t != s ==> x.subs.Get(t) == y.subs.Get(t)
    ensures s != ExchangeDiarization ==> x.diarization == y.diarization
    ensures s != ClipDefinition ==> x.clipDefs == y.clipDefs
  {
    assert forall t :: t != s ==> x.subs.Get(t) == x.subs.Set(s, Fresh).Get(t) == Rest(x, s).subs.Get(t);
    assert forall t :: t != s ==> y.subs.Get(t) == y.subs.Set(s, Fresh).Get(t) == Rest(y, s).subs.Get(t);
  }

  /** The same, for the row a frame allows to change. */
  lemma FrameKeepsRow(a: map<nat, Exchange>, b: map<nat, Exchange>, xid: nat, s: Substep)
    requires RowsFrame(a, b, xid, s)
    ensures xid in a ==>
              (SameKey(b[xid], a[xid]) && b[xid].kind == a[xid].kind && b[xid].start == a[xid].start && b[xid].end == a[xid].end
               && (forall t :: t != s ==> b[xid].subs.Get(t) == a[xid].subs.Get(t))
               && (s != ExchangeDiarization ==> b[xid].diarization == a[xid].diarization)
               && (s != ClipDefinition ==> b[xid].clipDefs == a[xid].clipDefs))
  {
    if xid in a {
      RestKeepsOthers(b[xid], a[xid], s);
    }
  }

  lemma {:induction false} FrameTrans(a: map<nat, Exchange>, b: map<nat, Exchange>, c: map<nat, Exchange>, xid: nat, s: Substep)
    requires RowsFrame(a, b, xid, s) && RowsFrame(b, c, xid, s)
    ensures RowsFrame(a, c, xid, s)
  {
  }

  /** A write confined to one sub-step keeps the schema's guarantees as long
      as no video disappears. */
  lemma FrameKeepsValid(db: Db, r: Db, xid: nat, s: Substep)
    requires RowsFrame(db.exchanges, r.exchanges, xid, s)
    requires r.videos.Keys == db.videos.Keys && r.nextVideo == db.nextVideo && r.nextExchange == db.nextExchange
    ensures Valid(db) ==> Valid(r)
  {
    FrameKeepsRow(db.exchanges, r.exchanges, xid, s);
    if Valid(db) {
      forall x, y | x in r.exchanges && y in r.exchanges && x != y
        ensures !SameKey(r.exchanges[x], r.exchanges[y])
      {
        assert SameKey(r.exchanges[x], r.exchanges[y]) == SameKey(db.exchanges[x], db.exchanges[y]);
      }
    }
  }

  /** `update_exchange_substep_status` on sub-step `s`. */
  function SetSlot(db: Db, xid: nat, s: Substep, status: Status, msg: Option<string>): (r: Db)
    ensures OnlySubstep(db, r, xid, s)
    ensures xid in db.exchanges ==> r.exchanges[xid] == db.exchanges[xid].(subs := db.exchanges[xid].subs.Set(s, Slot(status, StoredError(status, msg))))
    ensures xid !in db.exchanges ==> r == db
  {
    assert SubstepNamed(SubstepName(s)) == Some(s);
    var subs := if xid in db.exchanges then db.exchanges[xid].subs else FreshSubs;
    SetTwice(subs, s, Slot(status, StoredError(status, msg)), Fresh);
    UpdateSubstepStatus(db, xid, SubstepName(s), status, msg).0
  }

  /** `update_exchange_substep_result` for the scoped turns. */
  function StoreScoped(db: Db, xid: nat, d: Option<seq<DiarSeg>>): (r: Db)
    ensures OnlySubstep(db, r, xid, ExchangeDiarization)
    ensures xid in db.exchanges ==> r.exchanges[xid] == db.exchanges[xid].(diarization := d)
    ensures xid !in db.exchanges ==> r == db
  {
    SetExchangeDiarization(db, xid, d)
  }

  /** `update_exchange_substep_result` for the clip definitions. */
  function StoreDefinitions(db: Db, xid: nat, c: Option<seq<ClipDef>>): (r: Db)
    ensures OnlySubstep(db, r, xid, ClipDefinition)
    ensures xid in db.exchanges ==> r.exchanges[xid] == db.exchanges[xid].(clipDefs := c)
    ensures xid !in db.exchanges ==> r == db
  {
    SetClipDefinitions(db, xid, c)
  }

  /** The Running mark of a variant's attempt. */
  function Begin(db: Db, xid: nat, s: Substep, v: Variant, retries: nat): (r: Db)
    ensures OnlySubstep(db, r, xid, s)
    ensures xid in db.exchanges ==>
              (r.exchanges[xid].diarization == db.exchanges[xid].diarization
               && r.exchanges[xid].clipDefs == db.exchanges[xid].clipDefs)
  {
    if MarksRunning(v, retries) then SetSlot(db, xid, s, Running, None) else db
  }

  /** The failure path of every sub-step task: Error with the handler's
      message, and the sub-step's result column, if it has one, cleared. */
  function FailSubstep(db: Db, xid: nat, s: Substep, msg: string): (r: Db)
    requires |msg| > 0
    ensures OnlySubstep(db, r, xid, s)
    ensures xid in db.exchanges ==>
              (SubOf(r, xid, s).status == Error && SubOf(r, xid, s).error.Some?
               && (s == ExchangeDiarization ==> r.exchanges[xid].diarization.None?)
               && (s == ClipDefinition ==> r.exchanges[xid].clipDefs.None?)
               && (s == ClipCutting ==> r.exchanges[xid] == db.exchanges[xid].(subs := r.exchanges[xid].subs)))
    ensures xid !in db.exchanges ==> r == db
  {
    var db1 := SetSlot(db, xid, s, Error, Some(msg));
    var r := match s
      case ExchangeDiarization => StoreScoped(db1, xid, None)
      case ClipDefinition => StoreDefinitions(db1, xid, None)
      case ClipCutting => db1;
    FrameTrans(db.exchanges, db1.exchanges, r.exchanges, xid, s);
    r
  }

  // ---------------------------------------------------------------------------
  // Exchange diarization
  // ---------------------------------------------------------------------------

  /** Everything the scoping needs is in place: the parent's diarization
      step is Complete and its result stored. */
  predicate ScopeReady(db: Db, xid: nat, v: Variant) {
    ParentFound(db, xid, v) && Parent(db, xid).steps.diarization.status == Complete
    && Parent(db, xid).fullDiarization.Some?
  }

  function ScopeInputs(db: Db, xid: nat, v: Variant, trace: Trace): (r: Checked<seq<DiarSeg>>)
    ensures r.Go? <==> ScopeReady(db, xid, v)
    ensures r.Go? ==> r.value == Parent(db, xid).fullDiarization.value
    ensures r.Stop? ==> r.exc.cls == ValueError || r.exc.cls == PrerequisiteClass(v)
  {
    match ParentCheck(db, xid, v, trace)
    case Some(e) => Stop(e)
    case None =>
      var p := Parent(db, xid);
      if p.steps.diarization.status != Complete then
        Stop(Raised(PrerequisiteClass(v), "Cannot process exchange diarization: Parent video full diarization is not 'Complete'.", trace))
      else if p.fullDiarization.None? then Stop(Raised(ValueError, "Full diarization result missing in DB.", trace))
      else Go(p.fullDiarization.value)
  }

  /** `process_exchange_diarization_task`: the parent's turns clipped to the
      exchange window are stored and the sub-step set Complete; any failed
      check records Error and clears the result. The sub-step ends Complete
      exactly when its inputs are in place. */
  function ExchangeDiarizationTask(db: Db, xid: nat, v: Variant, retries: nat, trace: Trace): (r: Run)
    ensures OnlySubstep(db, r.db, xid, ExchangeDiarization)
    ensures Valid(db) ==> Valid(r.db)
    ensures xid in db.exchanges ==>
              (SubOf(r.db, xid, ExchangeDiarization).status == Complete <==> ScopeReady(db, xid, v))
    ensures xid !in db.exchanges ==> r.db == db
    ensures v == Pipeline ==> r.ending == Finished
  {
    var db1 := Begin(db, xid, ExchangeDiarization, v, retries);
    FrameKeepsRow(db.exchanges, db1.exchanges, xid, ExchangeDiarization);
    assert ScopeReady(db1, xid, v) == ScopeReady(db, xid, v);
    var r := match ScopeInputs(db1, xid, v, trace)
      case Stop(e) =>
        var h := Handle(v, e, retries);
        Run(FailSubstep(db1, xid, ExchangeDiarization, h.stored), h.ending)
      case Go(ds) =>
        var x := db1.exchanges[xid];
        var scoped := if v == Tasks then ClipToExchange(ds, x.start, x.end) else ClipToExchangePipeline(ds, x.start, x.end);
        var db2 := StoreScoped(db1, xid, Some(scoped));
        Run(SetSlot(db2, xid, ExchangeDiarization, Complete, None), Finished);
    FrameTrans(db.exchanges, db1.exchanges, r.db.exchanges, xid, ExchangeDiarization);
    FrameKeepsValid(db, r.db, xid, ExchangeDiarization);
    r
  }

  /** With its inputs in place the run stores exactly the parent's turns
      clipped to the exchange window and sets Complete. */
  lemma ScopingStoresClippedTurns(db: Db, xid: nat, v: Variant, retries: nat, trace: Trace)
    requires ScopeReady(db, xid, v)
    ensures var r := ExchangeDiarizationTask(db, xid, v, retries, trace);
      var x := db.exchanges[xid];
      r.ending == Finished && SubOf(r.db, xid, ExchangeDiarization) == Slot(Complete, None)
      && r.db.exchanges[xid].diarization == Some(ClipToExchange(Parent(db, xid).fullDiarization.value, x.start, x.end))
  {
    var x := db.exchanges[xid];
    PipelineFilterAgrees(Parent(db, xid).fullDiarization.value, x.start, x.end);
  }

  /** A failed check records Error with a message and clears the result,
      leaving the other sub-steps and the clip definitions alone; the task
      modules then have the queue drop the run. */
  lemma ScopingFailureClearsResult(db: Db, xid: nat, v: Variant, retries: nat, trace: Trace)
    requires xid in db.exchanges && !ScopeReady(db, xid, v)
    ensures var r := ExchangeDiarizationTask(db, xid, v, retries, trace);
      SubOf(r.db, xid, ExchangeDiarization).status == Error && SubOf(r.db, xid, ExchangeDiarization).error.Some?
      && r.db.exchanges[xid].diarization.None?
      && (v == Tasks ==> r.ending == Raising(Ignore))
  {
  }

  /** On the first attempt both variants leave the same store behind when the
      inputs are in place, and the same status otherwise. */
  lemma ExchangeDiarizationVariantsAgree(db: Db, xid: nat, trace: Trace)
    requires Valid(db)
    ensures var t := ExchangeDiarizationTask(db, xid, Tasks, 0, trace).db;
      var p := ExchangeDiarizationTask(db, xid, Pipeline, 0, trace).db;
      (ScopeReady(db, xid, Tasks) ==> t == p)
      && (xid in db.exchanges ==> SubOf(t, xid, ExchangeDiarization).status == SubOf(p, xid, ExchangeDiarization).status)
  {
    assert ScopeReady(db, xid, Tasks) == ScopeReady(db, xid, Pipeline);
    if ScopeReady(db, xid, Tasks) {
      var x := db.exchanges[xid];
      var ds := Parent(db, xid).fullDiarization.value;
      PipelineFilterAgrees(ds, x.start, x.end);
      var db1 := Begin(db, xid, ExchangeDiarization, Tasks, 0);
      assert db1 == Begin(db, xid, ExchangeDiarization, Pipeline, 0);
      FrameKeepsRow(db.exchanges, db1.exchanges, xid, ExchangeDiarization);
      assert ScopeInputs(db1, xid, Tasks, trace) == Go(ds);
      assert ScopeInputs(db1, xid, Pipeline, trace) == Go(ds);
    } else if xid in db.exchanges {
      ScopingFailureClearsResult(db, xid, Tasks, 0, trace);
      ScopingFailureClearsResult(db, xid, Pipeline, 0, trace);
    }
  }

  // ---------------------------------------------------------------------------
  // Clip definition
  // ---------------------------------------------------------------------------

  /** The exchange's own diarization sub-step is Complete with a stored result. */
  predicate DefineReady(db: Db, xid: nat) {
    xid in db.exchanges && SubOf(db, xid, ExchangeDiarization).status == Complete
    && db.exchanges[xid].diarization.Some?
  }

  function DefineInputs(db: Db, xid: nat, v: Variant, trace: Trace): (r: Checked<seq<DiarSeg>>)
    ensures r.Go? <==> DefineReady(db, xid)
    ensures r.Go? ==> r.value == db.exchanges[xid].diarization.value
    ensures r.Stop? ==> r.exc.cls == ValueError || r.exc.cls == PrerequisiteClass(v)
  {
    if xid !in db.exchanges then Stop(Raised(ValueError, "Exchange record not found.", trace))
    else
      var x := db.exchanges[xid];
      if x.subs.diarization.status != Complete then
        Stop(Raised(PrerequisiteClass(v), "Cannot define short clips: Exchange diarization processing is not 'Complete'.", trace))
      else if x.diarization.None? then Stop(Raised(ValueError, "Exchange diarization result is missing in DB.", trace))
      else Go(x.diarization.value)
  }

  /** `define_short_clips_task`: the clips chosen from the scoped turns are
      stored and the sub-step set Complete; any failed check records Error
      and clears the definitions. The pipeline module's inner helper is
      modelled with the configured bounds read as the analysis module reads
      them (see `PipelineDefineClips`). */
  function DefineClipsTask(db: Db, xid: nat, v: Variant, retries: nat, cfg: ClipConfig, trace: Trace): (r: Run)
    ensures OnlySubstep(db, r.db, xid, ClipDefinition)
    ensures Valid(db) ==> Valid(r.db)
    ensures xid in db.exchanges ==>
              (SubOf(r.db, xid, ClipDefinition).status == Complete <==> DefineReady(db, xid))
    ensures xid !in db.exchanges ==> r.db == db
    ensures v == Pipeline ==> r.ending == Finished
  {
    var db1 := Begin(db, xid, ClipDefinition, v, retries);
    FrameKeepsRow(db.exchanges, db1.exchanges, xid, ClipDefinition);
    assert DefineReady(db1, xid) == DefineReady(db, xid);
    var r := match DefineInputs(db1, xid, v, trace)
      case Stop(e) =>
        var h := Handle(v, e, retries);
        Run(FailSubstep(db1, xid, ClipDefinition, h.stored), h.ending)
      case Go(ds) =>
        var defs := if v == Tasks then DefineShortClips(List(ds), cfg) else PipelineDefineClips(ds, cfg).value;
        var db2 := StoreDefinitions(db1, xid, Some(defs));
        Run(SetSlot(db2, xid, ClipDefinition, Complete, None), Finished);
    FrameTrans(db.exchanges, db1.exchanges, r.db.exchanges, xid, ClipDefinition);
    FrameKeepsValid(db, r.db, xid, ClipDefinition);
    r
  }

  /** With its inputs in place the run stores the clips selected from the
      exchange's turns and sets Complete. */
  lemma DefinitionStoresSelection(db: Db, xid: nat, v: Variant, retries: nat, cfg: ClipConfig, trace: Trace)
    requires DefineReady(db, xid)
    ensures var r := DefineClipsTask(db, xid, v, retries, cfg, trace);
      r.ending == Finished && SubOf(r.db, xid, ClipDefinition) == Slot(Complete, None)
      && r.db.exchanges[xid].clipDefs == Some(DefineShortClips(List(db.exchanges[xid].diarization.value), cfg))
  {
    PipelineClipsAgree(db.exchanges[xid].diarization.value, cfg);
  }

  /** A failed check records Error with a message and clears the
      definitions; the task modules then have the queue drop the run. */
  lemma DefinitionFailureClearsResult(db: Db, xid: nat, v: Variant, retries: nat, cfg: ClipConfig, trace: Trace)
    requires xid in db.exchanges && !DefineReady(db, xid)
    ensures var r := DefineClipsTask(db, xid, v, retries, cfg, trace);
      SubOf(r.db, xid, ClipDefinition).status == Error && SubOf(r.db, xid, ClipDefinition).error.Some?
      && r.db.exchanges[xid].clipDefs.None?
      && (v == Tasks ==> r.ending == Raising(Ignore))
  {
  }

  /** Every stored definition is a clip of the configured length range cut
      from one of the exchange's scoped turns. */
  lemma StoredDefinitionsComeFromTurns(db: Db, xid: nat, v: Variant, retries: nat, cfg: ClipConfig, trace: Trace)
    requires DefineReady(db, xid)
    ensures var r := DefineClipsTask(db, xid, v, retries, cfg, trace).db;
      var ds := db.exchanges[xid].diarization.value;
      var lo := cfg.minDuration.GetOr(DefaultMinDuration);
      var hi := cfg.maxDuration.GetOr(DefaultMaxDuration);
      forall c :: c in r.exchanges[xid].clipDefs.value ==>
        lo <= c.duration <= hi && exists i :: 0 <= i < |ds| && Eligible(ds[i], lo, hi) && c == ClipOf(ds[i])
  {
    var ds := db.exchanges[xid].diarization.value;
    var lo := cfg.minDuration.GetOr(DefaultMinDuration);
    var hi := cfg.maxDuration.GetOr(DefaultMaxDuration);
    DefinitionStoresSelection(db, xid, v, retries, cfg, trace);
    SelectionFaithful(ds, lo, hi);
    assert DefineShortClips(List(ds), cfg) == SelectClips(ds, lo, hi).clips;
  }

  lemma DefineClipsVariantsAgree(db: Db, xid: nat, cfg: ClipConfig, trace: Trace)
    ensures var t := DefineClipsTask(db, xid, Tasks, 0, cfg, trace).db;
      var p := DefineClipsTask(db, xid, Pipeline, 0, cfg, trace).db;
      (DefineReady(db, xid) ==> t == p)
      && (xid in db.exchanges ==> SubOf(t, xid, ClipDefinition).status == SubOf(p, xid, ClipDefinition).status)
  {
  }

  // ---------------------------------------------------------------------------
  // Clip cutting
  // ---------------------------------------------------------------------------

  /** The parent is found and the clip definitions are Complete and stored. */
  predicate CutReady(db: Db, xid: nat, v: Variant) {
    ParentFound(db, xid, v) && SubOf(db, xid, ClipDefinition).status == Complete
    && db.exchanges[xid].clipDefs.Some?
  }

  function CutInputs(db: Db, xid: nat, v: Variant, trace: Trace): (r: Checked<seq<ClipDef>>)
    ensures r.Go? <==> CutReady(db, xid, v)
    ensures r.Go? ==> r.value == db.exchanges[xid].clipDefs.value
    ensures r.Stop? ==> r.exc.cls == ValueError || r.exc.cls == PrerequisiteClass(v)
  {
    match ParentCheck(db, xid, v, trace)
    case Some(e) => Stop(e)
    case None =>
      var x := db.exchanges[xid];
      if x.subs.clipDefinition.status != Complete then
        Stop(Raised(PrerequisiteClass(v), "Cannot cut clips: Clip definition step is not 'Complete'.", trace))
      else if x.clipDefs.None? then Stop(Raised(ValueError, "Short clip definitions missing in DB.", trace))
      else Go(x.clipDefs.value)
  }

  /** The cutter's verdict on each definition, numbered from 0 as the loop
      enumerates them. */
  function Attempts(defs: seq<ClipDef>, cut: (nat, ClipDef) -> ClipAttempt): (xs: seq<ClipAttempt>)
    ensures |xs| == |defs|
    ensures forall i :: 0 <= i < |defs| ==> xs[i] == cut(i, defs[i])
  {
    seq(|defs|, i requires 0 <= i < |defs| => cut(i, defs[i]))
  }

  /** `b` is `a` with at most the clip list of video `vid` changed. */
  predicate ClipsOnly(a: map<nat, Video>, b: map<nat, Video>, vid: nat) {
    b.Keys == a.Keys && (forall u :: u in a && u != vid ==> b[u] == a[u])
    && (vid in a ==> b[vid] == a[vid].(generatedClips := b[vid].generatedClips))
  }

  /** `add_generated_clip` for each path in turn: the list keeps what it
      had, in order, and gains exactly the new paths. */
  function AddClips(db: Db, vid: nat, ps: seq<string>): (r: Db)
    requires vid in db.videos
    ensures ClipsOnly(db.videos, r.videos, vid)
    ensures var before := ClipsOf(db.videos[vid]);
      var after := ClipsOf(r.videos[vid]);
      |before| <= |after| && after[..|before|] == before
      && (forall p :: p in ps ==> p in after)
      && (forall p :: p in after ==> p in before || p in ps)
    ensures r.exchanges == db.exchanges && r.nextVideo == db.nextVideo && r.nextExchange == db.nextExchange
    decreases |ps|
  {
    if |ps| == 0 then db
    else
      var db1 := AddGeneratedClip(db, vid, ps[0]).0;
      var r := AddClips(db1, vid, ps[1..]);
      assert forall p :: p in ps ==> p == ps[0] || p in ps[1..];
      assert ClipsOf(db1.videos[vid])[..|ClipsOf(db.videos[vid])|] == ClipsOf(db.videos[vid]);
      r
  }

  /** The end of a cutting run that had definitions and a usable video: the
      clips cut are appended to the video's list and the sub-step gets the
      roll-up status with the failure summary. */
  function FinishCutting(db: Db, xid: nat, vid: nat, xs: seq<ClipAttempt>): (r: Db)
    requires vid in db.videos
    ensures RowsFrame(db.exchanges, r.exchanges, xid, ClipCutting)
    ensures r.nextVideo == db.nextVideo && r.nextExchange == db.nextExchange
    ensures ClipsOnly(db.videos, r.videos, vid)
    ensures xid in db.exchanges ==>
              var status := RollupStatus(Successes(xs), Failures(xs));
              SubOf(r, xid, ClipCutting) == Slot(status, StoredError(status, Summary(Messages(xs, 1))))
    ensures var before := ClipsOf(db.videos[vid]);
      var after := ClipsOf(r.videos[vid]);
      |before| <= |after| && after[..|before|] == before
      && (forall i :: 0 <= i < |xs| && xs[i].Cut? ==> xs[i].path in after)
      && (forall p :: p in after ==> p in before || p in CutPaths(xs))
  {
    var ps := CutPaths(xs);
    assert forall i :: 0 <= i < |xs| && xs[i].Cut? ==> xs[i].path in ps by {
      CutPathsComplete(xs);
    }
    var db2 := AddClips(db, vid, ps);
    var status := RollupStatus(Successes(xs), Failures(xs));
    SetSlot(db2, xid, ClipCutting, status, Summary(Messages(xs, 1)))
  }

  /** Every clip cut is among the paths collected. */
  lemma {:induction false} CutPathsComplete(xs: seq<ClipAttempt>)
    ensures forall i :: 0 <= i < |xs| && xs[i].Cut? ==> xs[i].path in CutPaths(xs)
  {
    if |xs| > 0 {
      CutPathsComplete(xs[1..]);
      assert forall i :: 0 < i < |xs| ==> xs[i] == xs[1..][i - 1];
    }
  }

  /** `cut_short_clips_task`. With definitions in hand and the video file
      usable, each definition is cut, every clip cut is appended to the
      video's clip list, and the sub-step gets the roll-up status with the
      failure summary; an empty list is Skipped before the video file is
      looked at. A failed check records Error and keeps the definitions.
      Only the clip-cutting slot of the row and the parent's clip list
      change. */
  function CutClipsTask(db: Db, xid: nat, v: Variant, retries: nat, disk: FileState,
                        cut: (nat, ClipDef) -> ClipAttempt, trace: Trace): (r: Run)
    ensures RowsFrame(db.exchanges, r.db.exchanges, xid, ClipCutting)
    ensures r.db.nextVideo == db.nextVideo && r.db.nextExchange == db.nextExchange
    ensures xid in db.exchanges ==> ClipsOnly(db.videos, r.db.videos, db.exchanges[xid].videoId)
    ensures xid !in db.exchanges ==> r.db == db
    ensures Valid(db) ==> Valid(r.db)
    ensures v == Pipeline ==> r.ending == Finished
  {
    var db1 := Begin(db, xid, ClipCutting, v, retries);
    FrameKeepsRow(db.exchanges, db1.exchanges, xid, ClipCutting);
    assert CutReady(db1, xid, v) == CutReady(db, xid, v);
    var r := match CutInputs(db1, xid, v, trace)
      case Stop(e) =>
        var h := Handle(v, e, retries);
        Run(FailSubstep(db1, xid, ClipCutting, h.stored), h.ending)
      case Go(defs) =>
        var vid := db1.exchanges[xid].videoId;
        if defs == [] then Run(SetSlot(db1, xid, ClipCutting, Skipped, None), Finished)
        else match RequiredPath(db1, vid, false, disk)
          case Err(_) =>
            var h := Handle(v, PathError(db1, vid, false, disk, trace), retries);
            Run(FailSubstep(db1, xid, ClipCutting, h.stored), h.ending)
          case Ok(_) =>
            Run(FinishCutting(db1, xid, vid, Attempts(defs, cut)), Finished);
    FrameTrans(db.exchanges, db1.exchanges, r.db.exchanges, xid, ClipCutting);
    FrameKeepsValid(db, r.db, xid, ClipCutting);
    r
  }

  /** A failed check records Error with a message and leaves the videos
      alone; the task modules then have the queue drop the run. */
  lemma CutRefusedWhenNotReady(db: Db, xid: nat, v: Variant, retries: nat, disk: FileState,
                               cut: (nat, ClipDef) -> ClipAttempt, trace: Trace)
    requires xid in db.exchanges && !CutReady(db, xid, v)
    ensures var r := CutClipsTask(db, xid, v, retries, disk, cut, trace);
      SubOf(r.db, xid, ClipCutting).status == Error && SubOf(r.db, xid, ClipCutting).error.Some?
      && r.db.videos == db.videos
      && (v == Tasks ==> r.ending == Raising(Ignore))
  {
  }

  /** An empty definition list is Skipped with no error and no clip, whatever
      the state of the video file. */
  lemma CutSkipsEmptyList(db: Db, xid: nat, v: Variant, retries: nat, disk: FileState,
                          cut: (nat, ClipDef) -> ClipAttempt, trace: Trace)
    requires CutReady(db, xid, v) && db.exchanges[xid].clipDefs.value == []
    ensures var r := CutClipsTask(db, xid, v, retries, disk, cut, trace);
      r.ending == Finished && SubOf(r.db, xid, ClipCutting) == Slot(Skipped, None) && r.db.videos == db.videos
  {
  }

  /** Definitions with no usable video file record Error and cut nothing; in
      the task modules a missing row or path is dropped and a missing or
      empty file is retried. */
  lemma CutRefusedWithoutVideoFile(db: Db, xid: nat, v: Variant, retries: nat, disk: FileState,
                                   cut: (nat, ClipDef) -> ClipAttempt, trace: Trace)
    requires CutReady(db, xid, v) && db.exchanges[xid].clipDefs.value != []
    requires RequiredPath(db, db.exchanges[xid].videoId, false, disk).Err?
    ensures var r := CutClipsTask(db, xid, v, retries, disk, cut, trace);
      SubOf(r.db, xid, ClipCutting).status == Error && SubOf(r.db, xid, ClipCutting).error.Some?
      && r.db.videos == db.videos
      && (v == Tasks ==>
            var p := Parent(db, xid).filePath;
            r.ending == Raising(if p.None? || p.value == [] then Ignore else RuntimeError))
  {
    var vid := db.exchanges[xid].videoId;
    var db1 := Begin(db, xid, ClipCutting, v, retries);
    FrameKeepsRow(db.exchanges, db1.exchanges, xid, ClipCutting);
    assert CutInputs(db1, xid, v, trace) == Go(db.exchanges[xid].clipDefs.value);
    assert RequiredPath(db1, vid, false, disk) == RequiredPath(db, vid, false, disk);
    var e := PathError(db1, vid, false, disk, trace);
    var h := Handle(v, e, retries);
    assert CutClipsTask(db, xid, v, retries, disk, cut, trace) == Run(FailSubstep(db1, xid, ClipCutting, h.stored), h.ending);
    assert e.cls == PathFailure(db, vid, false, disk);
  }

  /** With definitions and a usable video, every definition is attempted:
      the status is the roll-up of the attempts, each clip cut is in the
      video's list afterwards, the list keeps its old entries in order, and
      nothing but cut clips is added. */
  lemma CutAppendsEveryClip(db: Db, xid: nat, v: Variant, retries: nat, disk: FileState,
                            cut: (nat, ClipDef) -> ClipAttempt, trace: Trace)
    requires CutReady(db, xid, v) && db.exchanges[xid].clipDefs.value != []
    requires RequiredPath(db, db.exchanges[xid].videoId, false, disk).Ok?
    ensures var r := CutClipsTask(db, xid, v, retries, disk, cut, trace);
      var vid := db.exchanges[xid].videoId;
      var xs := Attempts(db.exchanges[xid].clipDefs.value, cut);
      var before := ClipsOf(db.videos[vid]);
      var after := ClipsOf(r.db.videos[vid]);
      r.ending == Finished
      && SubOf(r.db, xid, ClipCutting).status == RollupStatus(Successes(xs), Failures(xs))
      && (forall i :: 0 <= i < |xs| && xs[i].Cut? ==> xs[i].path in after)
      && |before| <= |after| && after[..|before|] == before
      && (forall p :: p in after ==> p in before || p in CutPaths(xs))
  {
    CutSlot(db, xid, v, retries, disk, cut, trace);
  }

  /** The slot a cutting run with definitions and a usable video leaves. */
  lemma CutSlot(db: Db, xid: nat, v: Variant, retries: nat, disk: FileState,
                cut: (nat, ClipDef) -> ClipAttempt, trace: Trace)
    requires CutReady(db, xid, v) && db.exchanges[xid].clipDefs.value != []
    requires RequiredPath(db, db.exchanges[xid].videoId, false, disk).Ok?
    ensures var r := CutClipsTask(db, xid, v, retries, disk, cut, trace);
      var vid := db.exchanges[xid].videoId;
      var xs := Attempts(db.exchanges[xid].clipDefs.value, cut);
      var status := RollupStatus(Successes(xs), Failures(xs));
      r.ending == Finished
      && SubOf(r.db, xid, ClipCutting) == Slot(status, StoredError(status, Summary(Messages(xs, 1))))
      && r.db.videos == FinishCutting(Begin(db, xid, ClipCutting, v, retries), xid, vid, xs).videos
  {
    var vid := db.exchanges[xid].videoId;
    var db1 := Begin(db, xid, ClipCutting, v, retries);
    assert RequiredPath(db1, vid, false, disk) == RequiredPath(db, vid, false, disk);
  }

  /** The failure summary survives only when every clip failed: the store
      keeps an error text only with status Error, so a "Completed with
      Errors" run records its status without saying which clips failed. */
  lemma CutSummaryKeptOnlyOnError(db: Db, xid: nat, v: Variant, retries: nat, disk: FileState,
                                  cut: (nat, ClipDef) -> ClipAttempt, trace: Trace)
    requires CutReady(db, xid, v) && db.exchanges[xid].clipDefs.value != []
    requires RequiredPath(db, db.exchanges[xid].videoId, false, disk).Ok?
    ensures var xs := Attempts(db.exchanges[xid].clipDefs.value, cut);
      var slot := SubOf(CutClipsTask(db, xid, v, retries, disk, cut, trace).db, xid, ClipCutting);
      (slot.error.Some? <==> Successes(xs) == 0)
      && (Successes(xs) == 0 ==> var sum := Summary(Messages(xs, 1)).value;
            |slot.error.value| <= |sum| && slot.error.value == sum[..|slot.error.value|])
      && (slot.status == CompletedWithErrors ==> slot.error.None? && Failures(xs) > 0)
  {
    var xs := Attempts(db.exchanges[xid].clipDefs.value, cut);
    CutSlot(db, xid, v, retries, disk, cut, trace);
    CountsPartition(xs);
    var ms := Messages(xs, 1);
    if Successes(xs) == 0 {
      assert |ms| == |xs| > 0;
      SummaryNonEmpty(ms);
    }
  }

  /** A summary whose first message is not empty is not empty. */
  lemma SummaryNonEmpty(ms: seq<string>)
    requires |ms| > 0 && ms[0] != []
    ensures Summary(ms).value != []
  {
    var j := Join(if |ms| <= 3 then ms else ms[..3], "; ");
    assert |j| >= |ms[0]|;
  }
}

=== FILE: filenames.dfy ===
/** Filename sanitisation for clip and download folders: strip, replace
    characters that filesystems reject, collapse runs of spaces and
    replacement characters, cut to a UTF-8 byte budget at a character
    boundary, guard Windows reserved device names, and never return an
    empty name. */
module Filenames {
  import opened Base

  const DefaultMaxBytes: nat := 200
  const DefaultReplacement: char := '_'

  // ---------------------------------------------------------------------------
  // UTF-8
  // ---------------------------------------------------------------------------

  type Byte = x: int | 0 <= x < 256

  /** A continuation byte, 10xxxxxx (the source tests `b & 0xC0 == 0x80`). */
  predicate Continuation(b: Byte) {
    0x80 <= b < 0xC0
  }

  /** The UTF-8 encoding of one scalar value: a lead byte followed by
      continuation bytes. */
  function EncodeChar(c: char): (bs: seq<Byte>)
    ensures 1 <= |bs| <= 4
    ensures !Continuation(bs[0]) && forall i :: 1 <= i < |bs| ==> Continuation(bs[i])
  {
    var n := c as int;
    if n < 0x80 then [n]
    else if n < 0x800 then [0xC0 + n / 64, 0x80 + n % 64]
    else if n < 0x10000 then [0xE0 + n / 4096, 0x80 + (n / 64) % 64, 0x80 + n % 64]
    else [0xF0 + n / 262144 % 8, 0x80 + (n / 4096) % 64, 0x80 + (n / 64) % 64, 0x80 + n % 64]
  }

  function Encode(s: string): (bs: seq<Byte>)
    ensures |bs| >= |s|
  {
    if |s| == 0 then [] else EncodeChar(s[0]) + Encode(s[1..])
  }

  /** The length of a string in UTF-8 bytes. */
  function Size(s: string): nat {
    |Encode(s)|
  }

  lemma {:induction false} EncodeAppend(a: string, b: string)
    ensures Encode(a + b) == Encode(a) + Encode(b)
  {
    if |a| == 0 {
      assert a + b == b;
    } else {
      assert (a + b)[0] == a[0];
      assert (a + b)[1..] == a[1..] + b;
      EncodeAppend(a[1..], b);
    }
  }

  /** Character `k` of `s` occupies bytes [Size(s[..k]), Size(s[..k+1])) of
      the encoding: a lead byte, then only continuation bytes. */
  lemma CharBytes(s: string, k: nat)
    requires k < |s|
    ensures Size(s[..k + 1]) == Size(s[..k]) + |EncodeChar(s[k])| <= Size(s)
    ensures !Continuation(Encode(s)[Size(s[..k])])
    ensures forall j :: Size(s[..k]) < j < Size(s[..k + 1]) ==> Continuation(Encode(s)[j])
  {
    assert s[..k + 1] == s[..k] + [s[k]];
    assert s == s[..k + 1] + s[k + 1..];
    assert Encode([s[k]]) == EncodeChar(s[k]);
    EncodeAppend(s[..k], [s[k]]);
    EncodeAppend(s[..k + 1], s[k + 1..]);
  }

  /** The longest prefix of `s` whose encoding fits in `n` bytes. */
  function FitPrefix(s: string, n: nat): (r: string)
    ensures |r| <= |s| && r == s[..|r|]
    ensures Size(r) <= n
  {
    if |s| == 0 then []
    else if |EncodeChar(s[0])| <= n then
      var rest := FitPrefix(s[1..], n - |EncodeChar(s[0])|);
      var r := [s[0]] + rest;
      assert r[1..] == rest;
      r
    else []
  }

  /** `FitPrefix` is the longest fitting prefix: one more character would
      exceed the budget. */
  lemma {:induction false} FitPrefixMaximal(s: string, n: nat)
    ensures |FitPrefix(s, n)| < |s| ==> Size(s[..|FitPrefix(s, n)| + 1]) > n
  {
    if |s| > 0 {
      var r := FitPrefix(s, n);
      if |EncodeChar(s[0])| <= n {
        var rest := FitPrefix(s[1..], n - |EncodeChar(s[0])|);
        FitPrefixMaximal(s[1..], n - |EncodeChar(s[0])|);
        assert r == [s[0]] + rest;
        if |r| < |s| {
          assert s[..|r| + 1] == [s[0]] + s[1..][..|rest| + 1];
        }
      } else {
        assert s[..1] == [s[0]];
      }
    }
  }

  /** The byte-level cut of the source: start at the budget and step back
      over continuation bytes; if that reaches the very start, cut at the
      budget anyway. The cut is the byte size of the longest fitting prefix,
      or, when not even the first character fits, falls inside that
      character's encoding, whose partial bytes the lenient decode drops. */
  method CutPosition(s: string, maxLen: nat) returns (cut: nat)
    requires Size(s) > maxLen
    ensures var f := FitPrefix(s, maxLen);
      cut == (if |f| > 0 then Size(f) else maxLen)
    ensures FitPrefix(s, maxLen) == [] ==> cut < |EncodeChar(s[0])|
  {
    var bs := Encode(s);
    var f := FitPrefix(s, maxLen);
    var k := |f|;
    assert |f| == |s| ==> f == s;
    assert k < |s|;
    FitPrefixMaximal(s, maxLen);
    CharBytes(s, k);
    assert s[..k] == f;
    cut := maxLen;
    while cut > 0 && Continuation(bs[cut])
      invariant Size(f) <= cut <= maxLen
      decreases cut
    {
      cut := cut - 1;
    }
    assert cut == Size(f);
    if cut == 0 && maxLen > 0 {
      cut := maxLen;
    }
    if k == 0 {
      assert s[..1] == [s[0]];
      assert Encode([s[0]]) == EncodeChar(s[0]);
    }
  }

  // ---------------------------------------------------------------------------
  // Character classes
  // ---------------------------------------------------------------------------

  /** Characters replaced outright: `<>:"/\|?*%'` and the C0 controls. */
  predicate Bad(c: char) {
    c == '<' || c == '>' || c == ':' || c == '"' || c == '/' || c == '\\' || c == '|'
    || c == '?' || c == '*' || c == '%' || c == '\'' || (c as int) < 0x20
  }

  /** Characters whose runs collapse: whitespace and the replacement itself. */
  predicate InRun(c: char, rc: char) {
    IsSpace(c) || c == rc
  }

  // ---------------------------------------------------------------------------
  // The cleaning stages
  // ---------------------------------------------------------------------------

  predicate DotOr(c: char, rc: char) {
    c == '.' || c == rc
  }

  /** `s.strip('.' + rc)`: the leading, then the trailing dots and
      replacement characters removed. */
  function LStripDots(s: string, rc: char): (r: string)
    ensures |r| <= |s| && r == s[|s| - |r|..]
    ensures |r| > 0 ==> !DotOr(r[0], rc)
  {
    if |s| > 0 && DotOr(s[0], rc) then LStripDots(s[1..], rc) else s
  }

  function RStripDots(s: string, rc: char): (r: string)
    ensures |r| <= |s| && r == s[..|r|]
    ensures |r| > 0 ==> !DotOr(r[|r| - 1], rc)
  {
    if |s| > 0 && DotOr(s[|s| - 1], rc) then RStripDots(s[..|s| - 1], rc) else s
  }

  function StripDots(s: string, rc: char): (r: string)
    ensures |r| <= |s|
    ensures |r| > 0 ==> !DotOr(r[0], rc) && !DotOr(r[|r| - 1], rc)
  {
    RStripDots(LStripDots(s, rc), rc)
  }

  /** Every rejected character becomes the replacement character. */
  function ReplaceBad(s: string, rc: char): (r: string)
    ensures |r| == |s|
    ensures forall i :: 0 <= i < |s| ==> (Bad(s[i]) ==> r[i] == rc) && (!Bad(s[i]) ==> r[i] == s[i])
  {
    seq(|s|, i requires 0 <= i < |s| => if Bad(s[i]) then rc else s[i])
  }

  /** Drop a leading run of whitespace and replacement characters. */
  function DropRun(s: string, rc: char): (r: string)
    ensures |r| <= |s| && r == s[|s| - |r|..]
    ensures |r| > 0 ==> !InRun(r[0], rc)
  {
    if |s| > 0 && InRun(s[0], rc) then DropRun(s[1..], rc) else s
  }

  /** `re.sub('[\s' + rc + ']+', rc, s)`: every maximal run becomes one
      replacement character. The result is empty only for empty input, and
      its first character tells how `s` began. */
  function CollapseRuns(s: string, rc: char): (r: string)
    decreases |s|
    ensures |r| <= |s| && (|r| == 0 <==> |s| == 0)
    ensures |s| > 0 ==> (InRun(s[0], rc) ==> r[0] == rc) && (!InRun(s[0], rc) ==> r[0] == s[0])
  {
    if |s| == 0 then []
    else if InRun(s[0], rc) then [rc] + CollapseRuns(DropRun(s[1..], rc), rc)
    else [s[0]] + CollapseRuns(s[1..], rc)
  }

  /** The shape of collapsed text: the only run character is the
      replacement itself, and no two run characters are adjacent. */
  predicate RunShape(r: string, rc: char) {
    (forall i :: 0 <= i < |r| && InRun(r[i], rc) ==> r[i] == rc)
    && forall i :: 0 <= i < |r| - 1 ==> !(InRun(r[i], rc) && InRun(r[i + 1], rc))
  }

  lemma RunShapeCons(x: char, rest: string, rc: char)
    requires RunShape(rest, rc)
    requires InRun(x, rc) ==> x == rc && (|rest| == 0 || !InRun(rest[0], rc))
    ensures RunShape([x] + rest, rc)
  {
    var r := [x] + rest;
    assert forall i :: 1 <= i < |r| ==> r[i] == rest[i - 1];
  }

  /** Collapsed text has the collapsed shape. */
  lemma {:induction false} CollapseRunsShape(s: string, rc: char)
    decreases |s|
    ensures RunShape(CollapseRuns(s, rc), rc)
  {
    if |s| > 0 {
      var u := if InRun(s[0], rc) then DropRun(s[1..], rc) else s[1..];
      CollapseRunsShape(u, rc);
      RunShapeCons(CollapseRuns(s, rc)[0], CollapseRuns(u, rc), rc);
      assert CollapseRuns(s, rc) == [CollapseRuns(s, rc)[0]] + CollapseRuns(u, rc);
    }
  }

  /** The characters outside runs, in order. */
  function Solid(s: string, rc: char): string {
    if |s| == 0 then []
    else (if InRun(s[0], rc) then [] else [s[0]]) + Solid(s[1..], rc)
  }

  lemma {:induction false} SolidDropRun(s: string, rc: char)
    ensures Solid(DropRun(s, rc), rc) == Solid(s, rc)
  {
    if |s| > 0 && InRun(s[0], rc) {
      SolidDropRun(s[1..], rc);
    }
  }

  /** Collapsing touches only the runs: the other characters survive in order. */
  lemma {:induction false} CollapseKeepsSolid(s: string, rc: char)
    ensures Solid(CollapseRuns(s, rc), rc) == Solid(s, rc)
    decreases |s|
  {
    if |s| > 0 {
      var r := CollapseRuns(s, rc);
      if InRun(s[0], rc) {
        var t := DropRun(s[1..], rc);
        CollapseKeepsSolid(t, rc);
        SolidDropRun(s[1..], rc);
        assert r[1..] == CollapseRuns(t, rc);
      } else {
        CollapseKeepsSolid(s[1..], rc);
        assert r[1..] == CollapseRuns(s[1..], rc);
      }
    }
  }

  /** Collapsing is idempotent when the replacement is not whitespace. */
  lemma {:induction false} CollapseIdempotent(s: string, rc: char)
    requires !IsSpace(rc)
    ensures CollapseRuns(CollapseRuns(s, rc), rc) == CollapseRuns(s, rc)
    decreases |s|
  {
    if |s| > 0 {
      var r := CollapseRuns(s, rc);
      if InRun(s[0], rc) {
        var t := DropRun(s[1..], rc);
        var rest := CollapseRuns(t, rc);
        assert r == [rc] + rest;
        assert r[1..] == rest;
        assert DropRun(rest, rc) == rest;
        CollapseIdempotent(t, rc);
      } else {
        var rest := CollapseRuns(s[1..], rc);
        assert r == [s[0]] + rest;
        assert r[1..] == rest;
        CollapseIdempotent(s[1..], rc);
      }
    }
  }

  /** `s.rstrip(rc)`. */
  function RStripChar(s: string, rc: char): (r: string)
    ensures |r| <= |s| && r == s[..|r|]
    ensures |r| > 0 ==> r[|r| - 1] != rc
    ensures forall i :: |r| <= i < |s| ==> s[i] == rc
  {
    if |s| > 0 && s[|s| - 1] == rc then RStripChar(s[..|s| - 1], rc) else s
  }

  /** The length limit: names over budget are cut to the longest prefix that
      fits and trailing replacement characters are removed. */
  function Shorten(s: string, maxLen: nat, rc: char): (r: string)
    ensures |r| <= |s| && r == s[..|r|]
    ensures Size(s) <= maxLen ==> r == s
    ensures Size(s) > maxLen ==> r == RStripChar(FitPrefix(s, maxLen), rc) && Size(r) <= maxLen
  {
    if Size(s) > maxLen then
      var f := FitPrefix(s, maxLen);
      var r := RStripChar(f, rc);
      assert Encode(f) == Encode(r) + Encode(f[|r|..]) by {
        assert f == r + f[|r|..];
        EncodeAppend(r, f[|r|..]);
      }
      r
    else s
  }

  // ---------------------------------------------------------------------------
  // Reserved device names
  // ---------------------------------------------------------------------------

  const ReservedNames: set<string> :=
    {"CON", "PRN", "AUX", "NUL",
     "COM1", "COM2", "COM3", "COM4", "COM5", "COM6", "COM7", "COM8", "COM9",
     "LPT1", "LPT2", "LPT3", "LPT4", "LPT5", "LPT6", "LPT7", "LPT8", "LPT9"}

  /** The part `rpartition('.')` puts before the last dot, or the whole name. */
  function BaseName(s: string): string {
    match LastIndex(s, '.')
    case Some(k) => s[..k]
    case None => s
  }

  predicate Reserved(s: string) {
    Upper(BaseName(s)) in ReservedNames
  }

  // ---------------------------------------------------------------------------
  // The whole sanitiser
  // ---------------------------------------------------------------------------

  function EmptyFallback(seconds: nat): string {
    "sanitized_empty_filename_" + Show(seconds)
  }

  function FinalFallback(clock: nat): string {
    "sanitized_file_" + Show(clock)
  }

  /** A clean prefix followed by a number is clean. */
  lemma NumberedClean(p: string, n: nat)
    requires forall i :: 0 <= i < |p| ==> !Bad(p[i])
    ensures forall i :: 0 <= i < |p + Show(n)| ==> !Bad((p + Show(n))[i])
  {
    var d := Show(n);
    assert forall i :: 0 <= i < |d| ==> IsDigit(d[i]);
    assert forall i :: |p| <= i < |p + d| ==> (p + d)[i] == d[i - |p|];
  }

  lemma FallbacksClean(n: nat, rc: char)
    ensures forall i :: 0 <= i < |EmptyFallback(n)| ==> !Bad(EmptyFallback(n)[i])
    ensures forall i :: 0 <= i < |FinalFallback(n)| ==> !Bad(FinalFallback(n)[i])
  {
    NumberedClean("sanitized_empty_filename_", n);
    NumberedClean("sanitized_file_", n);
  }

  /** With an allowed replacement character, replacing leaves no rejected
      character. */
  lemma ReplacedClean(s: string, rc: char)
    ensures !Bad(rc) ==> forall x :: x in ReplaceBad(s, rc) ==> !Bad(x)
  {
  }

  /** The stages before the length limit; with a replacement character
      that is itself allowed, no rejected character survives them. */
  function Cleaned(s: string, rc: char): (c: string)
    ensures !Bad(rc) ==> forall i :: 0 <= i < |c| ==> !Bad(c[i])
  {
    var s1 := ReplaceBad(StripDots(Strip(s), rc), rc);
    ReplacedClean(StripDots(Strip(s), rc), rc);
    CollapseMembers(s1, rc);
    CollapseRuns(s1, rc)
  }

  /** The last two stages: append the replacement character to a reserved
      name, and fall back to a timestamped name when nothing meaningful is
      left. */
  function Guard(t: string, rc: char, clock: nat): (r: string)
    ensures r != [] && r != [rc]
    ensures Reserved(t) ==> r == t + [rc]
    ensures !Reserved(t) && t != [] && t != [rc] ==> r == t
    ensures (t == [] || t == [rc]) && !Reserved(t) ==> r == FinalFallback(clock)
    ensures !Bad(rc) && (forall i :: 0 <= i < |t| ==> !Bad(t[i])) ==> forall i :: 0 <= i < |r| ==> !Bad(r[i])
  {
    FallbacksClean(clock, rc);
    // A reserved name has at least three characters, so appending never
    // leaves a name the final fallback would replace.
    if Reserved(t) then
      ReservedLong(t);
      t + [rc]
    else if |t| == 0 || t == [rc] then FinalFallback(clock)
    else t
  }

  lemma ReservedLong(t: string)
    requires Reserved(t)
    ensures |t| >= 3
  {
    var b := BaseName(t);
    assert |Upper(b)| == |b|;
    assert forall n :: n in ReservedNames ==> |n| >= 3;
  }

  /** Shortening only drops characters, so it lets no rejected one in. */
  lemma ShortenClean(c: string, maxLen: nat, rc: char)
    ensures (forall i :: 0 <= i < |c| ==> !Bad(c[i])) ==>
      forall i :: 0 <= i < |Shorten(c, maxLen, rc)| ==> !Bad(Shorten(c, maxLen, rc)[i])
  {
    var t := Shorten(c, maxLen, rc);
    assert forall i :: 0 <= i < |t| ==> t[i] == c[i];
  }

  /** `sanitize_filename`: `name` is None when the argument is not a string;
      `seconds` and `clock` stand for the two timestamps the fallbacks use. */
  function SanitizeFilename(name: Option<string>, maxLen: nat, rc: char, seconds: nat, clock: nat): (r: string)
    ensures r != [] && r != [rc]
    ensures name.None? || name == Some("") ==> r == EmptyFallback(seconds)
    ensures !Bad(rc) ==> forall i :: 0 <= i < |r| ==> !Bad(r[i])
    ensures name.Some? && name.value != "" ==>
              var t := Shorten(Cleaned(name.value, rc), maxLen, rc);
              r == t || r == t + [rc] || r == FinalFallback(clock)
  {
    if name.None? || name.value == "" then
      FallbacksClean(seconds, rc);
      EmptyFallback(seconds)
    else
      var c := Cleaned(name.value, rc);
      var t := Shorten(c, maxLen, rc);
      ShortenClean(c, maxLen, rc);
      Guard(t, rc, clock)
  }

  /** Every character of a collapsed string is the replacement or comes
      from the input. */
  lemma {:induction false} CollapseMembers(s: string, rc: char)
    ensures forall i :: 0 <= i < |CollapseRuns(s, rc)| ==> CollapseRuns(s, rc)[i] == rc || CollapseRuns(s, rc)[i] in s
    decreases |s|
  {
    if |s| > 0 {
      var r := CollapseRuns(s, rc);
      if InRun(s[0], rc) {
        var t := DropRun(s[1..], rc);
        CollapseMembers(t, rc);
        assert r[1..] == CollapseRuns(t, rc);
        assert forall x :: x in t ==> x in s;
      } else {
        CollapseMembers(s[1..], rc);
        assert r[1..] == CollapseRuns(s[1..], rc);
      }
    }
  }

  /** Names that need no cleaning and are neither too long nor reserved pass
      through unchanged. */
  lemma CleanNameUnchanged(s: string, maxLen: nat, clock: nat, seconds: nat)
    requires s != [] && Cleaned(s, DefaultReplacement) == s
    requires Size(s) <= maxLen && !Reserved(s) && s != [DefaultReplacement]
    ensures SanitizeFilename(Some(s), maxLen, DefaultReplacement, seconds, clock) == s
  {
  }
}

=== FILE: gates.dfy ===
/** The web routes' gate logic: which requests to start a step are refused,
    with which status code, and what the store looks like afterwards. Task
    dispatch is a parameter: None when the broker accepted the job, or the
    text of the dispatch error. */
module Gates {
  import opened Base
  import opened Store

  /** A route's answer: the HTTP status code and the store after the request. */
  datatype Outcome = Outcome(db: Db, code: int)

  /** The statuses a video step needs from earlier steps before it may start. */
  function StepPrereqs(s: Step): (ps: seq<(Step, Status)>)
    ensures forall i :: 0 <= i < |ps| ==> Rank(ps[i].0) < Rank(s) && ps[i].1 == Complete
    ensures s != Download ==> |ps| == 1
  {
    match s
    case Download => []
    case Audio => [(Download, Complete)]
    case Transcript => [(Audio, Complete)]
    case Diarization => [(Audio, Complete)]
    case ExchangeId => [(Transcript, Complete)]
  }

  predicate StepsMeet(steps: StepSlots, ps: seq<(Step, Status)>) {
    forall i :: 0 <= i < |ps| ==> steps.Get(ps[i].0).status == ps[i].1
  }

  /** The error recorded when the queue refuses a job: the route's
      dispatch message for `what` (e.g. "audio job") behind the
      "Queueing error: " prefix. */
  function QueueingError(what: string, err: string): (m: string)
    ensures StartsWith(m, "Queueing error: ")
    ensures EndsWith(m, ": " + err)
  {
    var m := "Queueing error: Failed to dispatch " + what + ": " + err;
    assert m[|m| - |": " + err|..] == ": " + err;
    m
  }

  /** `_trigger_step`: 404 for an unknown video, 400 when a prerequisite is
      not met (the store untouched), otherwise the step is Queued with its
      error cleared; a dispatch failure then marks it Error with the reason
      and answers 500. */
  function TriggerStep(db: Db, vid: nat, s: Step, dispatch: Option<string>): (r: Outcome)
    ensures vid !in db.videos ==> r == Outcome(db, 404)
    ensures vid in db.videos && !StepsMeet(db.videos[vid].steps, StepPrereqs(s)) ==> r == Outcome(db, 400)
    ensures r.code == 200 <==> vid in db.videos && StepsMeet(db.videos[vid].steps, StepPrereqs(s)) && dispatch.None?
    ensures r.code == 200 ==> vid in r.db.videos && r.db.videos[vid].steps.Get(s) == Slot(Queued, None)
    ensures r.code == 500 ==> (dispatch.Some? && vid in r.db.videos
              && r.db.videos[vid].steps.Get(s).status == Error
              && r.db.videos[vid].steps.Get(s).error.Some?
              && StartsWith(r.db.videos[vid].steps.Get(s).error.value, "Queueing error: "))
    ensures vid in db.videos && StepsMeet(db.videos[vid].steps, StepPrereqs(s)) && dispatch.Some? ==>
              r.code == 500
              && r.db.videos[vid].steps.Get(s)
                 == Slot(Error, Some(PyPrefix(QueueingError(StepName(s) + " job", dispatch.value), MaxErrorLength)))
    ensures r.code in {200, 400, 404, 500}
    ensures r.db.exchanges == db.exchanges && r.db.videos.Keys == db.videos.Keys
    ensures forall t: Step :: t != s && vid in db.videos ==> r.db.videos[vid].steps.Get(t) == db.videos[vid].steps.Get(t)
    ensures Valid(db) ==> Valid(r.db)
  {
    if vid !in db.videos then Outcome(db, 404)
    else if !StepsMeet(db.videos[vid].steps, StepPrereqs(s)) then Outcome(db, 400)
    else
      var (queued, ok) := UpdateStepStatus(db, vid, StepName(s), Queued, None);
      if !ok then Outcome(queued, 500)
      else match dispatch
        case None => Outcome(queued, 200)
        case Some(err) =>
          var m := QueueingError(StepName(s) + " job", err);
          assert PyPrefix(m, MaxErrorLength) == m[..|PyPrefix(m, MaxErrorLength)|];
          Outcome(UpdateStepStatus(queued, vid, StepName(s), Error, Some(m)).0, 500)
  }

  /** The message a refused video job leaves, for the audio step and the
      queue error "boom". */
  lemma StepQueueingMessage(db: Db, vid: nat)
    requires vid in db.videos && StepsMeet(db.videos[vid].steps, StepPrereqs(Audio))
    ensures TriggerStep(db, vid, Audio, Some("boom")).db.videos[vid].steps.Get(Audio)
            == Slot(Error, Some("Queueing error: Failed to dispatch audio job: boom"))
  {
    var m := "Queueing error: Failed to dispatch audio job: boom";
    assert QueueingError(StepName(Audio) + " job", "boom") == m;
    assert PyPrefix(m, MaxErrorLength) == m;
  }

  /** A step that was started had every earlier step it depends on
      Complete, so the routes never run the pipeline out of order: audio,
      transcript and diarization each need their predecessor, exchange
      detection needs the transcript. */
  lemma StartedStepsFollowOrder(db: Db, vid: nat, s: Step, dispatch: Option<string>)
    requires TriggerStep(db, vid, s, dispatch).code == 200
    ensures s == Audio ==> db.videos[vid].steps.Get(Download).status == Complete
    ensures s == Transcript || s == Diarization ==> db.videos[vid].steps.Get(Audio).status == Complete
    ensures s == ExchangeId ==> db.videos[vid].steps.Get(Transcript).status == Complete
  {
    assert StepsMeet(db.videos[vid].steps, StepPrereqs(s));
    if s != Download {
      assert StepPrereqs(s)[0].0 in {Download, Audio, Transcript};
    }
  }

  /** The prerequisites of an exchange sub-step: on the parent video and on
      the exchange itself. */
  function ParentPrereqs(s: Substep): (ps: seq<(Step, Status)>)
    ensures forall i :: 0 <= i < |ps| ==> ps[i].1 == Complete
  {
    match s
    case ExchangeDiarization => [(Diarization, Complete)]
    case ClipDefinition => []
    case ClipCutting => []
  }

  function ExchangePrereqs(s: Substep): (ps: seq<(Substep, Status)>)
    ensures forall i :: 0 <= i < |ps| ==> ps[i].1 == Complete && ps[i].0 != s
  {
    match s
    case ExchangeDiarization => []
    case ClipDefinition => [(ExchangeDiarization, Complete)]
    case ClipCutting => [(ClipDefinition, Complete)]
  }

  predicate SubsMeet(subs: SubSlots, ps: seq<(Substep, Status)>) {
    forall i :: 0 <= i < |ps| ==> subs.Get(ps[i].0).status == ps[i].1
  }

  /** `_trigger_exchange_substep`: 404 for an unknown exchange, 500 when it
      names no parent video id, 404 when the parent row is gone, 400 when a
      parent or exchange prerequisite is not met; otherwise as for video
      steps, on the exchange's sub-step. */
  function TriggerSubstep(db: Db, xid: nat, s: Substep, dispatch: Option<string>): (r: Outcome)
    ensures xid !in db.exchanges ==> r == Outcome(db, 404)
    ensures r.code == 200 <==>
              xid in db.exchanges && db.exchanges[xid].videoId != 0 && db.exchanges[xid].videoId in db.videos
              && StepsMeet(db.videos[db.exchanges[xid].videoId].steps, ParentPrereqs(s))
              && SubsMeet(db.exchanges[xid].subs, ExchangePrereqs(s))
              && dispatch.None?
    ensures r.code == 200 ==> xid in r.db.exchanges && r.db.exchanges[xid].subs.Get(s) == Slot(Queued, None)
    ensures r.code == 500 && r.db != db ==> (dispatch.Some? && xid in r.db.exchanges
              && r.db.exchanges[xid].subs.Get(s).status == Error)
    ensures xid in db.exchanges && db.exchanges[xid].videoId != 0 && db.exchanges[xid].videoId in db.videos
            && StepsMeet(db.videos[db.exchanges[xid].videoId].steps, ParentPrereqs(s))
            && SubsMeet(db.exchanges[xid].subs, ExchangePrereqs(s)) && dispatch.Some? ==>
              r.code == 500
              && r.db.exchanges[xid].subs.Get(s)
                 == Slot(Error, Some(PyPrefix(QueueingError(SubstepName(s) + " job for exchange " + Show(xid), dispatch.value),
                                              MaxErrorLength)))
    ensures r.code in {200, 400, 404, 500}
    ensures r.db.videos == db.videos && r.db.exchanges.Keys == db.exchanges.Keys
    ensures forall x :: x in db.exchanges && x != xid ==> r.db.exchanges[x] == db.exchanges[x]
    ensures Valid(db) ==> Valid(r.db)
  {
    if xid !in db.exchanges then Outcome(db, 404)
    else
      var e := db.exchanges[xid];
      if e.videoId == 0 then Outcome(db, 500)
      else if e.videoId !in db.videos then Outcome(db, 404)
      else if !StepsMeet(db.videos[e.videoId].steps, ParentPrereqs(s)) then Outcome(db, 400)
      else if !SubsMeet(e.subs, ExchangePrereqs(s)) then Outcome(db, 400)
      else
        var (queued, ok) := UpdateSubstepStatus(db, xid, SubstepName(s), Queued, None);
        if !ok then Outcome(queued, 500)
        else match dispatch
          case None => Outcome(queued, 200)
          case Some(err) =>
            var m := QueueingError(SubstepName(s) + " job for exchange " + Show(xid), err);
            Outcome(UpdateSubstepStatus(queued, xid, SubstepName(s), Error, Some(m)).0, 500)
  }

  /** The message a refused exchange job leaves, for exchange 5 and the
      queue error "boom". */
  lemma SubstepQueueingMessage(db: Db)
    requires 5 in db.exchanges && db.exchanges[5].videoId != 0 && db.exchanges[5].videoId in db.videos
    requires StepsMeet(db.videos[db.exchanges[5].videoId].steps, ParentPrereqs(ExchangeDiarization))
    ensures TriggerSubstep(db, 5, ExchangeDiarization, Some("boom")).db.exchanges[5].subs.Get(ExchangeDiarization)
            == Slot(Error, Some("Queueing error: Failed to dispatch " + ("diarization job for exchange " + "5") + ": boom"))
  {
    assert Show(5) == [DigitChar(5)] == "5";
    assert SubstepName(ExchangeDiarization) + " job for exchange " == "diarization job for exchange ";
    assert PyPrefix(QueueingError(SubstepName(ExchangeDiarization) + " job for exchange " + Show(5), "boom"), MaxErrorLength)
           == "Queueing error: Failed to dispatch " + ("diarization job for exchange " + "5") + ": boom";
    assert SubsMeet(db.exchanges[5].subs, ExchangePrereqs(ExchangeDiarization));
  }

  /** In a consistent store every exchange has a live parent, so the
      missing-parent answers never occur: an unknown exchange is the only
      404 and every 500 comes from dispatch. */
  lemma ConsistentStoreHasNoOrphans(db: Db, xid: nat, s: Substep, dispatch: Option<string>)
    requires Valid(db) && xid in db.exchanges
    ensures TriggerSubstep(db, xid, s, dispatch).code != 404
    ensures TriggerSubstep(db, xid, s, dispatch).code == 500 ==> dispatch.Some?
  {
  }

  /** `mark_manual_exchange`: 404 for an unknown video; 400 for a missing or
      unparsable time or an end not after the start; 201 with the new row
      id when the insert succeeds, else 500. */
  function MarkManualExchange(db: Db, vid: nat, start: Option<real>, end: Option<real>, ts: nat, startText: string): (r: (Outcome, Option<nat>))
    requires Valid(db)
    ensures vid !in db.videos ==> r == (Outcome(db, 404), None)
    ensures vid in db.videos && (start.None? || end.None? || end.value <= start.value) ==> r == (Outcome(db, 400), None)
    ensures r.0.code == 201 ==> (r.1.Some? && r.1.value in r.0.db.exchanges && r.1.value !in db.exchanges
              && r.0.db.exchanges[r.1.value].kind == Manual && r.0.db.exchanges[r.1.value].videoId == vid
              && r.0.db.exchanges[r.1.value].start == start.value && r.0.db.exchanges[r.1.value].end == end.value
              && r.0.db.exchanges[r.1.value].start < r.0.db.exchanges[r.1.value].end)
    ensures r.0.code != 201 ==> r.0.db == db && r.1.None?
    ensures r.0.code in {201, 400, 404, 500}
    ensures Valid(r.0.db)
  {
    if vid !in db.videos then (Outcome(db, 404), None)
    else if start.None? || end.None? || end.value <= start.value then (Outcome(db, 400), None)
    else
      var (db', ok, id) := AddManualExchange(db, vid, start.value, end.value, ts, startText);
      if ok then (Outcome(db', 201), id) else (Outcome(db, 500), None)
  }

  /** A 500 from marking happens only when the label generated from the
      clock and the start time is already taken in that video. */
  lemma ManualMarkFailsOnlyOnCollision(db: Db, vid: nat, start: Option<real>, end: Option<real>, ts: nat, startText: string)
    requires Valid(db)
    requires MarkManualExchange(db, vid, start, end, ts, startText).0.code == 500
    ensures FindExchange(db, vid, ManualLabel(ts, startText)).Some?
  {
  }

  /** `serve_clip`'s decision: 404 without a clips directory, 400 for a name
      containing ".." or starting with a slash or backslash, 403 when the
      resolved path is outside the directory, 404 when no such file, else
      200. Path resolution is given: `resolved` and `base` are the absolute
      forms of the joined path and of the directory. */
  function ServeClip(dirExists: bool, filename: string, resolved: string, base: string, isFile: bool): (code: int)
    ensures code == 200 <==> dirExists && !Contains(filename, "..") && !StartsWith(filename, "/")
                             && !StartsWith(filename, "\\") && StartsWith(resolved, base) && isFile
    ensures code in {200, 400, 403, 404}
  {
    if !dirExists then 404
    else if Contains(filename, "..") || StartsWith(filename, "/") || StartsWith(filename, "\\") then 400
    else if !StartsWith(resolved, base) then 403
    else if !isFile then 404
    else 200
  }

  /** Whatever the file system says, a name with a parent-directory step is
      never served. */
  lemma TraversalRefused(dirExists: bool, pre: string, post: string, resolved: string, base: string, isFile: bool)
    ensures ServeClip(dirExists, pre + ".." + post, resolved, base, isFile) != 200
  {
    var f := pre + ".." + post;
    assert f[|pre|..][..2] == "..";
    ContainsAt(f, "..", |pre|);
  }
}

=== FILE: markers.dfy ===
/** Marker-based ("auto") exchange identification: a transcript segment whose
    stripped text begins with one of the start-marker patterns opens an
    exchange; the matched text is recorded with its whitespace normalised. */
module Markers {
  import opened Base
  import opened Segments
  import opened Tiling

  // ---------------------------------------------------------------------------
  // " ".join(s.split())
  // ---------------------------------------------------------------------------

  predicate NoSpace(w: string) {
    forall i :: 0 <= i < |w| ==> !IsSpace(w[i])
  }

  /** The longest whitespace-free prefix. */
  function TakeWord(t: string): (w: string)
    ensures |w| <= |t| && w == t[..|w|]
    ensures |t| > 0 && !IsSpace(t[0]) ==> |w| > 0
  {
    if |t| == 0 || IsSpace(t[0]) then [] else [t[0]] + TakeWord(t[1..])
  }

  /** `TakeWord` takes no whitespace and stops only at whitespace or at the
      end of the text. */
  lemma {:induction false} TakeWordSpan(t: string)
    ensures NoSpace(TakeWord(t))
    ensures |TakeWord(t)| < |t| ==> IsSpace(t[|TakeWord(t)|])
  {
    if |t| > 0 && !IsSpace(t[0]) {
      TakeWordSpan(t[1..]);
      var w := TakeWord(t);
      assert w == [t[0]] + TakeWord(t[1..]);
      forall i | 1 <= i < |w|
        ensures !IsSpace(w[i])
      {
        assert w[i] == TakeWord(t[1..])[i - 1];
      }
    }
  }

  /** `s.split()`: the maximal runs of non-whitespace, in order. */
  function Split(s: string): seq<string>
    decreases |s|
  {
    var t := LStrip(s);
    if |t| == 0 then []
    else
      var w := TakeWord(t);
      [w] + Split(t[|w|..])
  }

  /** A list of non-empty, whitespace-free words. */
  predicate Words(ws: seq<string>) {
    forall k :: 0 <= k < |ws| ==> |ws[k]| > 0 && NoSpace(ws[k])
  }

  /** A word in front of a word list gives a word list. */
  lemma WordsCons(w: string, rest: seq<string>)
    requires |w| > 0 && NoSpace(w) && Words(rest)
    ensures Words([w] + rest)
  {
    forall k | 0 < k < |[w] + rest|
      ensures |([w] + rest)[k]| > 0 && NoSpace(([w] + rest)[k])
    {
      assert ([w] + rest)[k] == rest[k - 1];
    }
  }

  /** Every piece `Split` returns is a non-empty run without whitespace. */
  lemma {:induction false} SplitWords(s: string)
    decreases |s|
    ensures Words(Split(s))
  {
    var t := LStrip(s);
    if |t| > 0 {
      var w := TakeWord(t);
      var rest := Split(t[|w|..]);
      TakeWordSpan(t);
      SplitWords(t[|w|..]);
      assert Split(s) == [w] + rest;
      WordsCons(w, rest);
    }
  }

  /** The text with every whitespace character removed. */
  function Squeeze(s: string): string {
    if |s| == 0 then [] else (if IsSpace(s[0]) then [] else [s[0]]) + Squeeze(s[1..])
  }

  function Flatten(ws: seq<string>): string {
    if |ws| == 0 then [] else ws[0] + Flatten(ws[1..])
  }

  /** `" ".join(s.split())`: runs of whitespace collapsed to one space, none
      at either end. */
  function CollapseWs(s: string): string {
    Join(Split(s), " ")
  }

  /** Text in the normal form `CollapseWs` produces: the only whitespace is
      single spaces strictly between two non-whitespace characters. */
  predicate Collapsed(r: string) {
    forall i :: 0 <= i < |r| && IsSpace(r[i]) ==>
      r[i] == ' ' && 0 < i < |r| - 1 && !IsSpace(r[i - 1]) && !IsSpace(r[i + 1])
  }

  lemma {:induction false} SqueezeAppend(a: string, b: string)
    ensures Squeeze(a + b) == Squeeze(a) + Squeeze(b)
  {
    if |a| > 0 {
      assert (a + b)[0] == a[0];
      assert (a + b)[1..] == a[1..] + b;
      SqueezeAppend(a[1..], b);
    } else {
      assert a + b == b;
    }
  }

  lemma {:induction false} SqueezeSpaces(a: string)
    requires forall i :: 0 <= i < |a| ==> IsSpace(a[i])
    ensures Squeeze(a) == []
  {
    if |a| > 0 {
      SqueezeSpaces(a[1..]);
    }
  }

  lemma {:induction false} SqueezeWord(a: string)
    requires NoSpace(a)
    ensures Squeeze(a) == a
  {
    if |a| > 0 {
      SqueezeWord(a[1..]);
    }
  }

  lemma SqueezeLStrip(s: string)
    ensures Squeeze(s) == Squeeze(LStrip(s))
  {
    var t := LStrip(s);
    var pre := s[..|s| - |t|];
    LStripDropsSpace(s);
    assert s == pre + t;
    SqueezeAppend(pre, t);
    SqueezeSpaces(pre);
  }

  lemma SqueezeTakeWord(t: string)
    ensures Squeeze(t) == TakeWord(t) + Squeeze(t[|TakeWord(t)|..])
  {
    var w := TakeWord(t);
    TakeWordSpan(t);
    assert t == w + t[|w|..];
    SqueezeAppend(w, t[|w|..]);
    SqueezeWord(w);
  }

  /** Splitting loses only whitespace. */
  lemma {:induction false} SplitKeepsText(s: string)
    decreases |s|
    ensures Flatten(Split(s)) == Squeeze(s)
  {
    var t := LStrip(s);
    SqueezeLStrip(s);
    if |t| > 0 {
      var w := TakeWord(t);
      var u := t[|w|..];
      SqueezeTakeWord(t);
      SplitKeepsText(u);
      assert Split(s) == [w] + Split(u);
      assert ([w] + Split(u))[1..] == Split(u);
    }
  }

  /** Joining non-empty whitespace-free words with single spaces yields a
      text that is empty exactly when there are no words, and otherwise
      starts and ends with a word character. */
  lemma {:induction false} JoinEnds(ws: seq<string>)
    requires Words(ws)
    ensures var r := Join(ws, " ");
      (|ws| > 0 <==> |r| > 0) && (|r| > 0 ==> !IsSpace(r[0]) && !IsSpace(r[|r| - 1]))
  {
    if |ws| > 1 {
      var rest := Join(ws[1..], " ");
      JoinEnds(ws[1..]);
      assert Join(ws, " ") == ws[0] + " " + rest;
    }
  }

  /** A word, a space and a collapsed text that starts with a word character
      form a collapsed text. */
  lemma {:induction false} CollapsedCons(w: string, rest: string)
    requires |w| > 0 && NoSpace(w)
    requires Collapsed(rest) && |rest| > 0 && !IsSpace(rest[0])
    ensures Collapsed(w + " " + rest)
  {
    var r := w + " " + rest;
    var n := |w|;
    forall i | 0 <= i < |r| && IsSpace(r[i])
      ensures r[i] == ' ' && 0 < i < |r| - 1 && !IsSpace(r[i - 1]) && !IsSpace(r[i + 1])
    {
      if i == n {
        assert r[i - 1] == w[n - 1];
        assert r[i + 1] == rest[0];
      } else if i > n {
        assert r[i] == rest[i - n - 1];
        assert r[i - 1] == if i - 1 == n then ' ' else rest[i - n - 2];
      }
    }
  }

  /** Squeezing a word, a space and a text keeps the word and squeezes the text. */
  lemma {:induction false} SqueezeCons(w: string, rest: string)
    requires NoSpace(w)
    ensures Squeeze(w + " " + rest) == w + Squeeze(rest)
  {
    SqueezeAppend(w + " ", rest);
    SqueezeAppend(w, " ");
    SqueezeWord(w);
    SqueezeSpaces(" ");
  }

  /** Joining non-empty whitespace-free words with single spaces yields
      collapsed text that loses nothing but the separators. */
  lemma {:induction false} JoinCollapsed(ws: seq<string>)
    requires Words(ws)
    ensures Collapsed(Join(ws, " ")) && Squeeze(Join(ws, " ")) == Flatten(ws)
  {
    if |ws| == 1 {
      SqueezeWord(ws[0]);
      assert Flatten(ws) == ws[0] + Flatten([]);
    } else if |ws| > 1 {
      var rest := Join(ws[1..], " ");
      JoinCollapsed(ws[1..]);
      JoinEnds(ws[1..]);
      assert Join(ws, " ") == ws[0] + " " + rest;
      CollapsedCons(ws[0], rest);
      SqueezeCons(ws[0], rest);
    }
  }

  /** `CollapseWs` returns the normal form of the text: collapsed, with the
      same non-whitespace characters in the same order. */
  lemma CollapseWsNormalises(s: string)
    ensures Collapsed(CollapseWs(s))
    ensures Squeeze(CollapseWs(s)) == Squeeze(s)
  {
    SplitWords(s);
    JoinCollapsed(Split(s));
    SplitKeepsText(s);
  }

  lemma {:induction false} TakeWordOfJoin(w: string, rest: string)
    requires NoSpace(w)
    requires |rest| > 0 ==> IsSpace(rest[0])
    ensures TakeWord(w + rest) == w
  {
    if |w| > 0 {
      assert (w + rest)[1..] == w[1..] + rest;
      TakeWordOfJoin(w[1..], rest);
    }
  }

  /** Text that starts with a word character splits into its first word
      and the split of what follows it. */
  lemma SplitAtWord(s: string)
    requires |s| > 0 && !IsSpace(s[0])
    ensures Split(s) == [TakeWord(s)] + Split(s[|TakeWord(s)|..])
  {
    assert LStrip(s) == s;
  }

  /** A leading space does not change the split of text that starts with a
      word character. */
  lemma SplitAfterSpace(x: string)
    requires |x| > 0 && !IsSpace(x[0])
    ensures Split(" " + x) == Split(x)
  {
    assert (" " + x)[1..] == x;
    assert LStrip(" " + x) == LStrip(x) == x;
  }

  /** A single word splits into itself. */
  lemma {:induction false} SplitWord(w: string)
    requires |w| > 0 && NoSpace(w)
    ensures Split(w) == [w]
  {
    SplitAtWord(w);
    TakeWordOfJoin(w, []);
    assert w + [] == w;
    assert w[|w|..] == [];
    assert Split([]) == [];
  }

  /** A word, a space and a text that starts with a word character split
      into the word followed by the split of the text. */
  lemma {:induction false} SplitCons(w: string, rest: string)
    requires |w| > 0 && NoSpace(w)
    requires |rest| > 0 && !IsSpace(rest[0])
    ensures Split(w + (" " + rest)) == [w] + Split(rest)
  {
    var r := w + (" " + rest);
    TakeWordOfJoin(w, " " + rest);
    SplitAtWord(r);
    assert r[|w|..] == " " + rest;
    SplitAfterSpace(rest);
  }

  /** One joining step: a word followed by a joined tail that splits back
      into itself splits back into the whole list. */
  lemma {:induction false} SplitJoinCons(ws: seq<string>)
    requires |ws| > 1 && |ws[0]| > 0 && NoSpace(ws[0])
    requires |Join(ws[1..], " ")| > 0 && !IsSpace(Join(ws[1..], " ")[0])
    requires Split(Join(ws[1..], " ")) == ws[1..]
    ensures Split(Join(ws, " ")) == ws
  {
    var w, tail := ws[0], ws[1..];
    var rest := Join(tail, " ");
    assert Join(ws, " ") == w + (" " + rest);
    SplitCons(w, rest);
    assert [w] + tail == ws;
  }

  /** Splitting undoes joining with single spaces. */
  lemma {:induction false} SplitJoin(ws: seq<string>)
    requires Words(ws)
    ensures Split(Join(ws, " ")) == ws
  {
    if |ws| == 1 {
      SplitWord(ws[0]);
    } else if |ws| > 1 {
      SplitJoin(ws[1..]);
      JoinEnds(ws[1..]);
      SplitJoinCons(ws);
    }
  }

  /** Normalising twice changes nothing. */
  lemma CollapseWsIdempotent(s: string)
    ensures CollapseWs(CollapseWs(s)) == CollapseWs(s)
  {
    SplitWords(s);
    SplitJoin(Split(s));
  }

  // ---------------------------------------------------------------------------
  // Marker search
  // ---------------------------------------------------------------------------

  /** A start-marker pattern, anchored at the beginning of the text: the
      length of the text it matches there, or `None`. A length beyond the
      text counts as no match. */
  type Pattern = string -> Option<nat>

  function MatchOf(p: Pattern, c: string): (m: Option<string>)
    ensures m.Some? ==> StartsWith(c, m.value)
  {
    match p(c)
    case Some(n) => if n <= |c| then Some(c[..n]) else None
    case None => None
  }

  /** The first pattern, in list order, that matches `c`. */
  function FirstMatching(ps: seq<Pattern>, c: string): (k: Option<nat>)
    ensures k.Some? ==> k.value < |ps| && MatchOf(ps[k.value], c).Some?
    ensures forall j :: 0 <= j < |ps| && (k.None? || j < k.value) ==> MatchOf(ps[j], c).None?
  {
    if |ps| == 0 then None
    else if MatchOf(ps[0], c).Some? then Some(0)
    else
      var k := FirstMatching(ps[1..], c);
      if k.Some? then Some(k.value + 1) else None
  }

  /** `_find_marker_match`: nothing for empty text; otherwise the normalised
      text matched by the first pattern that matches the stripped text. */
  function FindMarker(ps: seq<Pattern>, text: string): (m: Option<string>)
    ensures m.Some? <==> |text| > 0 && exists j :: 0 <= j < |ps| && MatchOf(ps[j], Strip(text)).Some?
    ensures m.Some? ==> Collapsed(m.value)
    ensures m.Some? ==>
              exists k :: (0 <= k < |ps| && MatchOf(ps[k], Strip(text)).Some?
                           && (forall j :: 0 <= j < k ==> MatchOf(ps[j], Strip(text)).None?)
                           && m.value == CollapseWs(MatchOf(ps[k], Strip(text)).value))
  {
    if |text| == 0 then None
    else
      var c := Strip(text);
      match FirstMatching(ps, c)
      case None => None
      case Some(k) =>
        var t := MatchOf(ps[k], c).value;
        CollapseWsNormalises(t);
        assert MatchOf(ps[k], c).Some? && (forall j :: 0 <= j < k ==> MatchOf(ps[j], c).None?)
          && CollapseWs(t) == CollapseWs(MatchOf(ps[k], c).value);
        Some(CollapseWs(t))
  }

  /** The marker a segment contributes: the segment needs text, a start and
      an end, and the normalised match must be non-empty. */
  function MarkerAt(ps: seq<Pattern>, seg: TranscriptSeg): Option<string> {
    if seg.text.None? || seg.start.None? || seg.end.None? then None
    else
      var m := FindMarker(ps, seg.text.value);
      if m.Some? && |m.value| > 0 then m else None
  }

  /** The marker of every segment, in order. */
  function MarksOf(ps: seq<Pattern>, segs: seq<TranscriptSeg>): (ms: seq<Option<string>>)
    ensures |ms| == |segs|
    ensures forall i :: 0 <= i < |segs| ==> ms[i] == MarkerAt(ps, segs[i])
    ensures forall i :: 0 <= i < |segs| && ms[i].Some? ==> segs[i].start.Some?
  {
    seq(|segs|, i requires 0 <= i < |segs| => MarkerAt(ps, segs[i]))
  }

  /** The positions from `k` on that carry a marker, in order. */
  function MarkedFrom(ms: seq<Option<string>>, k: nat): (ks: seq<nat>)
    requires k <= |ms|
    decreases |ms| - k
    ensures |ks| <= |ms| - k
    ensures forall j :: 0 <= j < |ks| ==> k <= ks[j] < |ms| && ms[ks[j]].Some?
    ensures forall i, j :: 0 <= i < j < |ks| ==> ks[i] < ks[j]
    ensures forall i :: k <= i < |ms| && ms[i].Some? ==> i in ks
  {
    if k == |ms| then []
    else
      var rest := MarkedFrom(ms, k + 1);
      if ms[k].Some? then [k] + rest else rest
  }

  /** The first pass, given each segment's marker: one start point per
      marked segment, in transcript order. */
  function MarkerBoundaries(segs: seq<TranscriptSeg>, ms: seq<Option<string>>): (bs: seq<Boundary>)
    requires |ms| == |segs|
    requires forall i :: 0 <= i < |segs| && ms[i].Some? ==> segs[i].start.Some?
    ensures |bs| <= |segs|
    ensures forall j :: 0 <= j < |bs| ==>
              bs[j].index < |segs| && ms[bs[j].index].Some?
              && bs[j].start == segs[bs[j].index].start.value && bs[j].marker == ms[bs[j].index]
    ensures forall i, j :: 0 <= i < j < |bs| ==> bs[i].index < bs[j].index
    ensures forall i :: 0 <= i < |segs| && ms[i].Some? ==> exists j :: 0 <= j < |bs| && bs[j].index == i
  {
    var ks := MarkedFrom(ms, 0);
    var bs := seq(|ks|, j requires 0 <= j < |ks| => Boundary(ks[j], segs[ks[j]].start.value, ms[ks[j]]));
    assert forall j :: 0 <= j < |ks| ==> bs[j].index == ks[j];
    assert forall i :: 0 <= i < |segs| && ms[i].Some? ==> exists j :: 0 <= j < |ks| && ks[j] == i;
    bs
  }

  /** The windows between successive marked segments, labelled `lex_k`. */
  function ExchangesFromMarks(segs: seq<TranscriptSeg>, ms: seq<Option<string>>): (defs: seq<ExchangeDef>)
    requires |ms| == |segs|
    requires forall i :: 0 <= i < |segs| && ms[i].Some? ==> segs[i].start.Some?
    ensures forall i, j :: 0 <= i < j < |defs| ==> defs[i].id != defs[j].id
    ensures forall d :: d in defs ==>
              StartsWith(d.id, "lex_") && d.end > d.start
              && exists i :: (0 <= i < |segs| && ms[i].Some?
                              && d.start == segs[i].start.value && d.marker == ms[i])
  {
    var bs := MarkerBoundaries(segs, ms);
    if |bs| == 0 then []
    else
      var lastEnd := segs[|segs| - 1].end;
      WindowsFaithful("lex_", bs, lastEnd);
      DefineWindows("lex_", bs, lastEnd)
  }

  /** `identify_long_exchanges`: no exchanges without segments or patterns;
      otherwise the windows between successive marker segments. Every window
      is non-empty, starts at a marker segment and carries that segment's
      marker; labels are distinct and begin with `lex_`. */
  function IdentifyLongExchanges(ps: seq<Pattern>, segs: seq<TranscriptSeg>): (defs: seq<ExchangeDef>)
    ensures |ps| == 0 || |segs| == 0 ==> defs == []
    ensures forall i, j :: 0 <= i < j < |defs| ==> defs[i].id != defs[j].id
    ensures forall d :: d in defs ==>
              StartsWith(d.id, "lex_") && d.end > d.start
              && exists i :: (0 <= i < |segs| && MarkerAt(ps, segs[i]).Some?
                              && d.start == segs[i].start.value && d.marker == MarkerAt(ps, segs[i]))
  {
    if |segs| == 0 || |ps| == 0 then []
    else ExchangesFromMarks(segs, MarksOf(ps, segs))
  }

  /** When marker start times increase and the final segment ends after the
      last marker, there is one exchange per marker segment and consecutive
      exchanges meet. */
  lemma MarkerExchangesTile(segs: seq<TranscriptSeg>, ms: seq<Option<string>>)
    requires |ms| == |segs|
    requires forall i :: 0 <= i < |segs| && ms[i].Some? ==> segs[i].start.Some?
    requires var bs := MarkerBoundaries(segs, ms);
      |bs| > 0 && Increasing(bs) && segs[|segs| - 1].end.Some?
      && segs[|segs| - 1].end.value > bs[|bs| - 1].start
    ensures var bs := MarkerBoundaries(segs, ms);
      var defs := ExchangesFromMarks(segs, ms);
      |defs| == |bs| && (forall k :: 0 <= k < |bs| - 1 ==> defs[k].end == defs[k + 1].start)
      && defs[|defs| - 1].end == segs[|segs| - 1].end.value
  {
    var bs := MarkerBoundaries(segs, ms);
    Tiles("lex_", bs, segs[|segs| - 1].end.value);
  }
}

=== FILE: media.dfy ===
/** The media helpers' pure decisions: where ffprobe probably lives given
    the configured ffmpeg path, and which clip window is handed to FFmpeg
    after the duration checks and clamping. Paths follow POSIX rules. */
module Media {
  import opened Base

  // ---------------------------------------------------------------------------
  // POSIX path helpers
  // ---------------------------------------------------------------------------

  predicate AllSlashes(s: string) {
    forall i :: 0 <= i < |s| ==> s[i] == '/'
  }

  /** Trailing slashes removed. */
  function RStripSlashes(s: string): (r: string)
    ensures |r| <= |s| && r == s[..|r|]
    ensures |r| > 0 ==> r[|r| - 1] != '/'
    ensures forall i :: |r| <= i < |s| ==> s[i] == '/'
  {
    if |s| > 0 && s[|s| - 1] == '/' then RStripSlashes(s[..|s| - 1]) else s
  }

  /** `os.path.dirname`: everything up to the last slash, with trailing
      slashes removed unless the head is nothing but slashes. */
  function Dirname(p: string): (d: string)
    ensures d == [] || AllSlashes(d) || d[|d| - 1] != '/'
    ensures |d| <= |p| && d == p[..|d|]
  {
    var head := match LastIndex(p, '/') case Some(k) => p[..k + 1] case None => [];
    if head != [] && !AllSlashes(head) then RStripSlashes(head) else head
  }

  /** `os.path.join(d, name)` for a relative `name`. */
  function PathJoin(d: string, name: string): string {
    if d == [] then name
    else if d[|d| - 1] == '/' then d + name
    else d + "/" + name
  }

  /** Joining a slash-free name onto a directory and taking the directory
      back returns it, for every directory `Dirname` can produce. */
  lemma DirnameOfJoin(d: string, name: string)
    requires d == [] || AllSlashes(d) || d[|d| - 1] != '/'
    requires forall i :: 0 <= i < |name| ==> name[i] != '/'
    ensures Dirname(PathJoin(d, name)) == d
  {
    var j := PathJoin(d, name);
    if d == [] {
      assert LastIndex(j, '/') == None;
    } else if d[|d| - 1] == '/' {
      assert AllSlashes(d);
      assert j[|d| - 1] == '/';
      assert forall i :: |d| <= i < |j| ==> j[i] == name[i - |d|];
      assert LastIndex(j, '/') == Some(|d| - 1);
      assert j[..|d|] == d;
    } else {
      assert j[|d|] == '/';
      assert forall i :: |d| < i < |j| ==> j[i] == name[i - |d| - 1];
      assert LastIndex(j, '/') == Some(|d|);
      var head := j[..|d| + 1];
      assert head == d + "/";
      assert !AllSlashes(head) by {
        assert head[|d| - 1] != '/';
      }
      assert head[..|d|] == d;
    }
  }

  // ---------------------------------------------------------------------------
  // The ffprobe path guess
  // ---------------------------------------------------------------------------

  function ProbeName(ffmpegPath: string): (n: string)
    ensures forall i :: 0 <= i < |n| ==> n[i] != '/'
  {
    if EndsWith(Lower(ffmpegPath), ".exe") then "ffprobe.exe" else "ffprobe"
  }

  /** The guess made at import time; `ffmpegPath` is None when the setting
      is not a string. No guess for an empty setting or one that does not
      mention ffmpeg. */
  function FfprobeGuess(ffmpegPath: Option<string>): (g: Option<string>)
    ensures g.Some? <==> ffmpegPath.Some? && ffmpegPath.value != [] && Contains(Lower(ffmpegPath.value), "ffmpeg")
    ensures g.Some? && Lower(ffmpegPath.value) == "ffmpeg" ==> g.value == "ffprobe"
    ensures g.Some? && Lower(ffmpegPath.value) != "ffmpeg" ==>
              g.value == PathJoin(Dirname(ffmpegPath.value), ProbeName(ffmpegPath.value))
  {
    match ffmpegPath
    case None => None
    case Some(p) =>
      if p == [] then None
      else if Lower(p) == "ffmpeg" then
        assert StartsWith(Lower(p), "ffmpeg");
        Some("ffprobe")
      else if Contains(Lower(p), "ffmpeg") then Some(PathJoin(Dirname(p), ProbeName(p)))
      else None
  }

  /** The guess is a sibling of ffmpeg: it lives in the same directory, and
      keeps the `.exe` suffix exactly when the ffmpeg path has one. */
  lemma GuessIsSibling(p: string)
    requires FfprobeGuess(Some(p)).Some?
    ensures Dirname(FfprobeGuess(Some(p)).value) == Dirname(p)
    ensures FfprobeGuess(Some(p)).value == PathJoin(Dirname(p), ProbeName(p))
  {
    if Lower(p) == "ffmpeg" {
      assert forall i :: 0 <= i < |p| ==> p[i] != '/' by {
        forall i | 0 <= i < |p| ensures p[i] != '/' {
          assert Lower(p)[i] == LowerChar(p[i]);
        }
      }
      assert LastIndex(p, '/') == None;
      assert !EndsWith(Lower(p), ".exe");
    }
    DirnameOfJoin(Dirname(p), ProbeName(p));
  }

  // ---------------------------------------------------------------------------
  // Clip window checks of `create_clip`
  // ---------------------------------------------------------------------------

  /** Slack allowed past the probed source duration before the end is clamped. */
  const OverrunSlack: real := 0.5

  /** The window FFmpeg is asked to cut, or why it is refused: the input must
      exist and the requested duration be positive; when the source duration
      is known, a negative start becomes 0, an end more than half a second
      past the source becomes the source duration, and the clamped window
      must still be non-empty. */
  function ClipWindow(inputExists: bool, start: real, end: real, sourceDuration: Option<real>): (r: Result<(real, real)>)
    ensures !inputExists || end - start <= 0.0 ==> r.Err?
    ensures r.Ok? ==> r.value.1 > r.value.0
    ensures r.Ok? ==> start <= r.value.0 && r.value.1 <= end
    ensures r.Ok? && sourceDuration.Some? ==> r.value.0 >= 0.0 && r.value.1 <= sourceDuration.value + OverrunSlack
    ensures r.Ok? && sourceDuration.None? ==> r.value == (start, end)
    ensures r.Ok? && start >= 0.0 ==> r.value.0 == start
  {
    if !inputExists then Err("Input video file not found for clipping")
    else if end - start <= 0.0 then Err("Invalid clip duration")
    else match sourceDuration
      case None => Ok((start, end))
      case Some(d) =>
        var s := if start < 0.0 then 0.0 else start;
        var e := if end > d + OverrunSlack then d else end;
        if e - s <= 0.0 then Err("Invalid clip duration after clamping start/end times to video boundaries")
        else Ok((s, e))
  }

  /** Clamping is idempotent: an accepted window is accepted unchanged. */
  lemma ClipWindowStable(start: real, end: real, sourceDuration: Option<real>)
    requires ClipWindow(true, start, end, sourceDuration).Ok?
    ensures var w := ClipWindow(true, start, end, sourceDuration).value;
      ClipWindow(true, w.0, w.1, sourceDuration) == Ok(w)
  {
  }
}

=== FILE: scoped_filter.dfy ===
/** Restricting the full-video diarization to one exchange window. The
    question/answer helper keeps overlapping turns unchanged; the exchange
    diarization task (in both task variants) also clips them to the window. */
module ScopedFilter {
  import opened Base
  import opened Segments

  /** Slack, in seconds, allowed at the window boundaries. */
  const Tolerance: real := 0.01

  /** A well-timed turn [s, e) overlaps the window [xs, xe] within `tol`. */
  predicate Overlaps(d: DiarSeg, xs: real, xe: real, tol: real) {
    WellTimed(d.start, d.end) && d.start.value < xe + tol && d.end.value > xs - tol
  }

  // ---------------------------------------------------------------------------
  // Unclipped filter
  // ---------------------------------------------------------------------------

  function KeepOverlapping(ds: seq<DiarSeg>, xs: real, xe: real, tol: real): (r: seq<DiarSeg>)
    ensures forall d :: d in r ==> Overlaps(d, xs, xe, tol)
    ensures IsSubsequence(r, ds)
    ensures forall d :: multiset(r)[d] == if Overlaps(d, xs, xe, tol) then multiset(ds)[d] else 0
  {
    if |ds| == 0 then []
    else
      var rest := KeepOverlapping(ds[1..], xs, xe, tol);
      assert ds == [ds[0]] + ds[1..];
      if Overlaps(ds[0], xs, xe, tol) then
        assert ([ds[0]] + rest)[1..] == rest;
        [ds[0]] + rest
      else
        assert |rest| > 0 ==> rest[0] != ds[0];
        rest
  }

  /** `filter_diarization_by_exchange`: nothing for a non-list input or a
      missing or empty window; otherwise exactly the turns that overlap the
      window within the tolerance, unchanged and in their original order. */
  function FilterByExchange(input: Payload<DiarSeg>, xs: Option<real>, xe: Option<real>, tol: real): (r: seq<DiarSeg>)
    ensures input.NotAList? || !WellTimed(xs, xe) ==> r == []
    ensures input.List? ==> IsSubsequence(r, input.items)
    ensures r != [] ==> input.List? && WellTimed(xs, xe)
    ensures input.List? && WellTimed(xs, xe) ==> forall d ::
              multiset(r)[d] == if Overlaps(d, xs.value, xe.value, tol) then multiset(input.items)[d] else 0
  {
    match input
    case NotAList => []
    case List(ds) => if !WellTimed(xs, xe) then [] else KeepOverlapping(ds, xs.value, xe.value, tol)
  }

  // ---------------------------------------------------------------------------
  // Clipped filter
  // ---------------------------------------------------------------------------

  /** One turn restricted to [xs, xe]: dropped unless it overlaps the window
      within the tolerance and keeps a positive duration after clipping. */
  function ClipTurn(d: DiarSeg, xs: real, xe: real): (c: Option<DiarSeg>)
    ensures c.Some? ==> Overlaps(d, xs, xe, Tolerance)
    ensures c.Some? ==> (c.value.speakerLabel == d.speakerLabel
                         && WellTimed(c.value.start, c.value.end)
                         && xs <= c.value.start.value && c.value.end.value <= xe
                         && d.start.value <= c.value.start.value && c.value.end.value <= d.end.value)
  {
    if !Overlaps(d, xs, xe, Tolerance) then None
    else
      var cs := Max(d.start.value, xs);
      var ce := Min(d.end.value, xe);
      if ce > cs then Some(d.(start := Some(cs), end := Some(ce))) else None
  }

  /** The exchange diarization filter of the task module: each turn clipped
      to the window, in order, turns that vanish dropped. Every output lies
      inside the window and is a non-empty piece of an input turn with the
      same speaker. */
  function ClipToExchange(ds: seq<DiarSeg>, xs: real, xe: real): (r: seq<DiarSeg>)
    ensures |r| <= |ds|
    ensures forall d :: d in r ==> WellTimed(d.start, d.end) && xs <= d.start.value && d.end.value <= xe
    ensures forall d :: d in r ==> exists i :: 0 <= i < |ds| && ClipTurn(ds[i], xs, xe) == Some(d)
  {
    if |ds| == 0 then []
    else
      var rest := ClipToExchange(ds[1..], xs, xe);
      assert forall i :: 0 <= i < |ds| - 1 ==> ds[1..][i] == ds[i + 1];
      match ClipTurn(ds[0], xs, xe)
      case None => rest
      case Some(c) => [c] + rest
  }

  /** The same loop in the pipeline variant: only missing bounds are skipped
      up front; an empty or inverted turn falls out at the clipping test. */
  function ClipTurnPipeline(d: DiarSeg, xs: real, xe: real): Option<DiarSeg> {
    if d.start.None? || d.end.None? then None
    else if d.start.value < xe + Tolerance && d.end.value > xs - Tolerance then
      var cs := Max(d.start.value, xs);
      var ce := Min(d.end.value, xe);
      if ce > cs then Some(d.(start := Some(cs), end := Some(ce))) else None
    else None
  }

  function ClipToExchangePipeline(ds: seq<DiarSeg>, xs: real, xe: real): seq<DiarSeg> {
    if |ds| == 0 then []
    else
      var rest := ClipToExchangePipeline(ds[1..], xs, xe);
      match ClipTurnPipeline(ds[0], xs, xe)
      case None => rest
      case Some(c) => [c] + rest
  }

  /** The two variants' filters agree on every input, although only the task
      variant tests for empty turns explicitly. */
  lemma {:induction false} PipelineFilterAgrees(ds: seq<DiarSeg>, xs: real, xe: real)
    ensures ClipToExchangePipeline(ds, xs, xe) == ClipToExchange(ds, xs, xe)
  {
    if |ds| > 0 {
      assert ClipTurnPipeline(ds[0], xs, xe) == ClipTurn(ds[0], xs, xe);
      PipelineFilterAgrees(ds[1..], xs, xe);
    }
  }

  /** Filtering distributes over concatenation: each turn is handled on its own. */
  lemma {:induction false} ClipAppend(a: seq<DiarSeg>, b: seq<DiarSeg>, xs: real, xe: real)
    ensures ClipToExchange(a + b, xs, xe) == ClipToExchange(a, xs, xe) + ClipToExchange(b, xs, xe)
  {
    if |a| == 0 {
      assert a + b == b;
    } else {
      assert (a + b)[0] == a[0];
      assert (a + b)[1..] == a[1..] + b;
      ClipAppend(a[1..], b, xs, xe);
    }
  }

  /** Clipping restricted to the turns the unclipped filter keeps. */
  function ClipKept(ds: seq<DiarSeg>, xs: real, xe: real): seq<DiarSeg> {
    if |ds| == 0 then []
    else
      var rest := ClipKept(ds[1..], xs, xe);
      var cs := Max(ds[0].start.GetOr(0.0), xs);
      var ce := Min(ds[0].end.GetOr(0.0), xe);
      if ce > cs then [ds[0].(start := Some(cs), end := Some(ce))] + rest else rest
  }

  /** The clipped filter is the unclipped filter (same tolerance) followed by
      clipping each kept turn and dropping those left empty. */
  lemma {:induction false} ClipIsFilterThenClip(ds: seq<DiarSeg>, xs: real, xe: real)
    ensures ClipToExchange(ds, xs, xe) == ClipKept(KeepOverlapping(ds, xs, xe, Tolerance), xs, xe)
  {
    if |ds| > 0 {
      ClipIsFilterThenClip(ds[1..], xs, xe);
      var rest := KeepOverlapping(ds[1..], xs, xe, Tolerance);
      if Overlaps(ds[0], xs, xe, Tolerance) {
        assert ([ds[0]] + rest)[1..] == rest;
      }
    }
  }

  /** An empty or inverted window keeps nothing. */
  lemma {:induction false} EmptyWindowKeepsNothing(ds: seq<DiarSeg>, xs: real, xe: real)
    requires xe <= xs
    ensures ClipToExchange(ds, xs, xe) == []
  {
    if |ds| > 0 {
      EmptyWindowKeepsNothing(ds[1..], xs, xe);
    }
  }

  /** Clipping an already clipped list changes nothing. */
  lemma {:induction false} ClipIdempotent(ds: seq<DiarSeg>, xs: real, xe: real)
    ensures ClipToExchange(ClipToExchange(ds, xs, xe), xs, xe) == ClipToExchange(ds, xs, xe)
  {
    if |ds| > 0 {
      var rest := ClipToExchange(ds[1..], xs, xe);
      ClipIdempotent(ds[1..], xs, xe);
      match ClipTurn(ds[0], xs, xe)
      case None =>
      case Some(c) =>
        assert ClipTurn(c, xs, xe) == Some(c);
        assert ([c] + rest)[1..] == rest;
    }
  }
}

=== FILE: segments.dfy ===
/** The records the pipeline passes between its stages. Times are absolute
    seconds from the start of the video; every field the source reads with
    `dict.get` is optional, `None` standing for a missing key or a null. */
module Segments {
  import opened Base

  /** A transcript segment as the speech-to-text engine produced it. */
  datatype TranscriptSeg = TranscriptSeg(start: Option<real>, end: Option<real>, text: Option<string>)

  /** A speaker turn as the diarization engine produced it. */
  datatype DiarSeg = DiarSeg(start: Option<real>, end: Option<real>, speakerLabel: Option<string>)

  /** A transcript segment copied with the speaker label alignment chose for it. */
  datatype AlignedSeg = AlignedSeg(seg: TranscriptSeg, speaker: string)

  /** A short-clip candidate: absolute bounds, speaker and duration. */
  datatype ClipDef = ClipDef(absoluteStart: real, absoluteEnd: real, speaker: string, duration: real)

  /** An automatically detected exchange window (`id`, `start`, `end`,
      `marker`, `duration` in the source's dictionaries). */
  datatype ExchangeDef = ExchangeDef(id: string, start: real, end: real, marker: Option<string>, duration: real)

  /** A decoded JSON payload that the caller expects to be a list. */
  datatype Payload<T> = List(items: seq<T>) | NotAList

  /** The label used whenever no speaker can be determined. */
  const Unknown: string := "UNKNOWN"

  /** True when both bounds are present and the interval is non-empty. */
  predicate WellTimed(start: Option<real>, end: Option<real>) {
    start.Some? && end.Some? && end.value > start.value
  }

  function Min(a: real, b: real): real {
    if a <= b then a else b
  }

  function Max(a: real, b: real): real {
    if a >= b then a else b
  }

  /** `a` is an order-preserving subsequence of `b`. */
  predicate IsSubsequence<T(==)>(a: seq<T>, b: seq<T>)
    decreases |b|
  {
    |a| == 0 || (|b| > 0 && (if a[0] == b[0] then IsSubsequence(a[1..], b[1..]) else IsSubsequence(a, b[1..])))
  }
}

=== FILE: speaker_change.dfy ===
/** Speaker-change exchange identification: after alignment, an exchange
    opens at a timed segment whose speaker differs from the current speaker
    and whose text looks like a question. The current speaker starts as the
    first segment's speaker and follows every timed segment. */
module SpeakerChange {
  import opened Base
  import opened Segments
  import opened Alignment
  import opened Tiling

  /** The current speaker when segment `i` is reached: the speaker of the
      latest earlier segment that has a start time, or the first segment's
      speaker when there is none. */
  function CurrentSpeaker(a: seq<AlignedSeg>, i: nat): string
    requires 0 < |a| && i <= |a|
  {
    if i == 0 then a[0].speaker
    else if a[i - 1].seg.start.Some? then a[i - 1].speaker
    else CurrentSpeaker(a, i - 1)
  }

  /** Segment `i` opens an exchange (given whether its text is a question). */
  predicate Opens(a: seq<AlignedSeg>, question: seq<bool>, i: nat)
    requires 0 < |a| && i < |a| && |question| == |a|
  {
    a[i].seg.start.Some? && a[i].speaker != CurrentSpeaker(a, i) && question[i]
  }

  /** The scan from segment `i` on with current speaker `cur`, as the source
      loops: on a timed segment by a new speaker, record it if it is a
      question, and make its speaker current either way. */
  function ScanFrom(a: seq<AlignedSeg>, question: seq<bool>, i: nat, cur: string): (ks: seq<nat>)
    requires 0 < |a| && i <= |a| && |question| == |a|
    requires cur == CurrentSpeaker(a, i)
    decreases |a| - i
    ensures forall j :: 0 <= j < |ks| ==> i <= ks[j] < |a| && Opens(a, question, ks[j])
    ensures forall j, k :: 0 <= j < k < |ks| ==> ks[j] < ks[k]
    ensures forall m :: i <= m < |a| && Opens(a, question, m) ==> m in ks
  {
    if i == |a| then []
    else
      var s := a[i];
      var change := s.speaker != cur && s.seg.start.Some?;
      var rest := ScanFrom(a, question, i + 1, if change then s.speaker else cur);
      if change && question[i] then [i] + rest else rest
  }

  function QuestionFlags(a: seq<AlignedSeg>, isWord: WordClass): (q: seq<bool>)
    ensures |q| == |a| && forall i :: 0 <= i < |a| ==> q[i] == IsLikelyQuestion(a[i].seg.text, isWord)
  {
    seq(|a|, i requires 0 <= i < |a| => IsLikelyQuestion(a[i].seg.text, isWord))
  }

  /** The exchange start points of an aligned transcript, given its question
      flags: exactly the opening segments, in order, without markers. */
  function ChangeBoundaries(a: seq<AlignedSeg>, question: seq<bool>): (bs: seq<Boundary>)
    requires 0 < |a| && |question| == |a|
    ensures forall j :: 0 <= j < |bs| ==>
              bs[j].index < |a| && Opens(a, question, bs[j].index)
              && bs[j].start == a[bs[j].index].seg.start.value && bs[j].marker.None?
    ensures forall j, k :: 0 <= j < k < |bs| ==> bs[j].index < bs[k].index
    ensures forall m :: 0 <= m < |a| && Opens(a, question, m) ==> exists j :: 0 <= j < |bs| && bs[j].index == m
  {
    var ks := ScanFrom(a, question, 0, a[0].speaker);
    var bs := seq(|ks|, j requires 0 <= j < |ks| => Boundary(ks[j], a[ks[j]].seg.start.value, None));
    assert forall j :: 0 <= j < |ks| ==> bs[j].index == ks[j];
    assert forall m :: 0 <= m < |a| && Opens(a, question, m) ==> exists j :: 0 <= j < |ks| && ks[j] == m;
    bs
  }

  /** The windows between successive start points, labelled `spkchg_k`,
      the last ending with the final segment. */
  function ChangeExchanges(a: seq<AlignedSeg>, question: seq<bool>): (defs: seq<ExchangeDef>)
    requires |question| == |a|
    ensures |a| == 0 ==> defs == []
    ensures forall i, j :: 0 <= i < j < |defs| ==> defs[i].id != defs[j].id
    ensures forall d :: d in defs ==>
              StartsWith(d.id, "spkchg_") && d.end > d.start && d.marker.None?
              && exists i :: (0 <= i < |a| && Opens(a, question, i) && d.start == a[i].seg.start.value)
  {
    if |a| == 0 then []
    else
      var bs := ChangeBoundaries(a, question);
      var lastEnd := a[|a| - 1].seg.end;
      WindowsFaithful("spkchg_", bs, lastEnd);
      DefineWindows("spkchg_", bs, lastEnd)
  }

  /** The speaker-change detection of the exchange-identification task on an
      aligned transcript. */
  function SpeakerChangeExchanges(a: seq<AlignedSeg>, isWord: WordClass): (defs: seq<ExchangeDef>)
    ensures |a| == 0 ==> defs == []
    ensures forall i, j :: 0 <= i < j < |defs| ==> defs[i].id != defs[j].id
    ensures forall d :: d in defs ==>
              StartsWith(d.id, "spkchg_") && d.end > d.start && d.marker.None?
              && exists i :: (0 <= i < |a| && a[i].seg.start.Some? && d.start == a[i].seg.start.value
                              && a[i].speaker != CurrentSpeaker(a, i) && IsLikelyQuestion(a[i].seg.text, isWord))
  {
    ChangeExchanges(a, QuestionFlags(a, isWord))
  }

  /** A transcript spoken by one speaker throughout has no exchange starts. */
  lemma {:induction false} OneSpeakerNoChange(a: seq<AlignedSeg>, question: seq<bool>, i: nat)
    requires 0 < |a| && i <= |a| && |question| == |a|
    requires forall j :: 0 <= j < |a| ==> a[j].speaker == a[0].speaker
    ensures CurrentSpeaker(a, i) == a[0].speaker
    ensures ScanFrom(a, question, i, a[0].speaker) == []
    decreases |a| - i
  {
    if i > 0 {
      OneSpeakerChain(a, i);
    }
    if i < |a| {
      OneSpeakerNoChange(a, question, i + 1);
    }
  }

  lemma {:induction false} OneSpeakerChain(a: seq<AlignedSeg>, i: nat)
    requires 0 < |a| && i <= |a|
    requires forall j :: 0 <= j < |a| ==> a[j].speaker == a[0].speaker
    ensures CurrentSpeaker(a, i) == a[0].speaker
  {
    if i > 0 && a[i - 1].seg.start.None? {
      OneSpeakerChain(a, i - 1);
    }
  }

  /** Nothing opens an exchange when everyone is the same speaker. */
  lemma OneSpeakerNoExchanges(a: seq<AlignedSeg>, isWord: WordClass)
    requires forall j :: 0 <= j < |a| ==> a[j].speaker == a[0].speaker
    ensures SpeakerChangeExchanges(a, isWord) == []
  {
    if |a| > 0 {
      var q := QuestionFlags(a, isWord);
      OneSpeakerNoChange(a, q, 0);
      assert ChangeBoundaries(a, q) == [];
      assert EmittedFrom([], a[|a| - 1].seg.end, 0) == [];
    }
  }
}

=== FILE: store.dfy ===
/** The job store: one record per video with five pipeline steps, and the
    long exchanges found in each video with three sub-steps each. Tables are
    maps from row id to record; every write is a function from the old
    store to the new one together with the value the source returns. */
module Store {
  import opened Base
  import opened Segments

  // ---------------------------------------------------------------------------
  // Steps, statuses and slots
  // ---------------------------------------------------------------------------

  datatype Status = Pending | Queued | Running | Complete | Error | Skipped | CompletedWithErrors

  /** The video-level steps, in pipeline order. */
  datatype Step = Download | Audio | Transcript | Diarization | ExchangeId

  function Rank(s: Step): (k: nat)
    ensures k < 5
  {
    match s
    case Download => 0
    case Audio => 1
    case Transcript => 2
    case Diarization => 3
    case ExchangeId => 4
  }

  function StepName(s: Step): string {
    match s
    case Download => "download"
    case Audio => "audio"
    case Transcript => "transcript"
    case Diarization => "diarization"
    case ExchangeId => "exchange_id"
  }

  /** The step a name designates; any other name is rejected. */
  function StepNamed(name: string): (r: Option<Step>)
    ensures r.Some? ==> StepName(r.value) == name
    ensures r.None? ==> forall s: Step :: StepName(s) != name
  {
    if name == "download" then Some(Download)
    else if name == "audio" then Some(Audio)
    else if name == "transcript" then Some(Transcript)
    else if name == "diarization" then Some(Diarization)
    else if name == "exchange_id" then Some(ExchangeId)
    else None
  }

  lemma StepNameRoundTrip(s: Step)
    ensures StepNamed(StepName(s)) == Some(s)
  {
  }

  /** The exchange-level sub-steps. */
  datatype Substep = ExchangeDiarization | ClipDefinition | ClipCutting

  function SubstepName(s: Substep): string {
    match s
    case ExchangeDiarization => "diarization"
    case ClipDefinition => "clip_definition"
    case ClipCutting => "clip_cutting"
  }

  function SubstepNamed(name: string): (r: Option<Substep>)
    ensures r.Some? ==> SubstepName(r.value) == name
    ensures r.None? ==> forall s: Substep :: SubstepName(s) != name
  {
    if name == "diarization" then Some(ExchangeDiarization)
    else if name == "clip_definition" then Some(ClipDefinition)
    else if name == "clip_cutting" then Some(ClipCutting)
    else None
  }

  /** A step's status column and its error-message column. */
  datatype Slot = Slot(status: Status, error: Option<string>)

  const Fresh: Slot := Slot(Pending, None)

  datatype StepSlots = StepSlots(download: Slot, audio: Slot, transcript: Slot, diarization: Slot, exchangeId: Slot)
  {
    function Get(s: Step): Slot {
      match s
      case Download => download
      case Audio => audio
      case Transcript => transcript
      case Diarization => diarization
      case ExchangeId => exchangeId
    }

    function Set(s: Step, v: Slot): (r: StepSlots)
      ensures r.Get(s) == v && forall t: Step :: t != s ==> r.Get(t) == Get(t)
    {
      match s
      case Download => this.(download := v)
      case Audio => this.(audio := v)
      case Transcript => this.(transcript := v)
      case Diarization => this.(diarization := v)
      case ExchangeId => this.(exchangeId := v)
    }
  }

  datatype SubSlots = SubSlots(diarization: Slot, clipDefinition: Slot, clipCutting: Slot)
  {
    function Get(s: Substep): Slot {
      match s
      case ExchangeDiarization => diarization
      case ClipDefinition => clipDefinition
      case ClipCutting => clipCutting
    }

    function Set(s: Substep, v: Slot): (r: SubSlots)
      ensures r.Get(s) == v && forall t: Substep :: t != s ==> r.Get(t) == Get(t)
    {
      match s
      case ExchangeDiarization => this.(diarization := v)
      case ClipDefinition => this.(clipDefinition := v)
      case ClipCutting => this.(clipCutting := v)
    }
  }

  const FreshSteps: StepSlots := StepSlots(Fresh, Fresh, Fresh, Fresh, Fresh)
  const FreshSubs: SubSlots := SubSlots(Fresh, Fresh, Fresh)

  // ---------------------------------------------------------------------------
  // Records and the store
  // ---------------------------------------------------------------------------

  /** A video row. Results are kept as the segment lists the tasks store;
      `generatedClips` is NotAList when the stored text is not a JSON list. */
  datatype Video = Video(
    url: string, title: string, resolution: string,
    steps: StepSlots,
    filePath: Option<string>, audioPath: Option<string>,
    transcript: Option<seq<TranscriptSeg>>, fullDiarization: Option<seq<DiarSeg>>,
    generatedClips: Payload<string>)

  datatype Kind = Auto | Manual

  /** A long-exchange row. */
  datatype Exchange = Exchange(
    videoId: nat, exchangeLabel: string, kind: Kind, start: real, end: real, marker: Option<string>,
    subs: SubSlots, diarization: Option<seq<DiarSeg>>, clipDefs: Option<seq<ClipDef>>)

  datatype Db = Db(videos: map<nat, Video>, exchanges: map<nat, Exchange>, nextVideo: nat, nextExchange: nat)

  /** Rows with the same video and label collide on the unique key. */
  predicate SameKey(a: Exchange, b: Exchange) {
    a.videoId == b.videoId && a.exchangeLabel == b.exchangeLabel
  }

  /** The schema's guarantees: row ids are positive and below the next id
      to hand out, every exchange belongs to an existing video, and no two
      exchanges share a (video, label) pair. */
  predicate Valid(db: Db) {
    (forall v :: v in db.videos ==> 0 < v < db.nextVideo)
    && (forall x :: x in db.exchanges ==> 0 < x < db.nextExchange && db.exchanges[x].videoId in db.videos)
    && (forall x, y :: x in db.exchanges && y in db.exchanges && x != y ==> !SameKey(db.exchanges[x], db.exchanges[y]))
  }

  const EmptyDb: Db := Db(map[], map[], 1, 1)

  /** The exchanges of one video, optionally only those of one kind. */
  predicate Selected(e: Exchange, vid: nat, kind: Option<Kind>) {
    e.videoId == vid && (kind.None? || e.kind == kind.value)
  }

  /** Delete the selected exchanges. */
  function DropExchanges(ex: map<nat, Exchange>, vid: nat, kind: Option<Kind>): (r: map<nat, Exchange>)
    ensures forall x :: x in r <==> x in ex && !Selected(ex[x], vid, kind)
    ensures forall x :: x in r ==> r[x] == ex[x]
  {
    map x | x in ex && !Selected(ex[x], vid, kind) :: ex[x]
  }

  lemma DropKeepsValid(db: Db, vid: nat, kind: Option<Kind>)
    requires Valid(db)
    ensures Valid(db.(exchanges := DropExchanges(db.exchanges, vid, kind)))
  {
  }

  // ---------------------------------------------------------------------------
  // Video rows
  // ---------------------------------------------------------------------------

  /** `add_video_job`: a new row holding the given URL, title and
      resolution, every step Pending, no file, audio, transcript or turns,
      and no clips; the id is fresh and the next id moves past it. */
  function AddVideoJob(db: Db, url: string, title: string, resolution: string): (r: (Db, nat))
    requires Valid(db)
    ensures Valid(r.0) && r.1 !in db.videos && r.1 in r.0.videos
    ensures r.0.videos == db.videos[r.1 := r.0.videos[r.1]] && r.0.exchanges == db.exchanges
    ensures forall s: Step :: r.0.videos[r.1].steps.Get(s) == Fresh
    ensures r.0.videos[r.1].generatedClips == List([])
    ensures var v := r.0.videos[r.1];
      v.url == url && v.title == title && v.resolution == resolution
      && v.filePath.None? && v.audioPath.None? && v.transcript.None? && v.fullDiarization.None?
    ensures r.0.nextVideo > r.1 && r.0.nextExchange == db.nextExchange
  {
    var id := if db.nextVideo == 0 then 1 else db.nextVideo;
    var v := Video(url, title, resolution, FreshSteps, None, None, None, None, List([]));
    (db.(videos := db.videos[id := v], nextVideo := id + 1), id)
  }

  /** The error column written with a status: the message cut to 3000
      characters when the status is Error and a non-empty message is given,
      otherwise cleared. */
  const MaxErrorLength: int := 3000

  function StoredError(status: Status, msg: Option<string>): (e: Option<string>)
    ensures e.Some? <==> status == Error && msg.Some? && msg.value != []
    ensures e.Some? ==> |e.value| <= MaxErrorLength && |e.value| <= |msg.value| && e.value == msg.value[..|e.value|]
    ensures e.Some? && |msg.value| <= MaxErrorLength ==> e.value == msg.value
  {
    if status == Error && msg.Some? && msg.value != [] then Some(PyPrefix(msg.value, MaxErrorLength)) else None
  }

  /** `update_video_step_status`: an unknown step name is rejected; otherwise
      that step's status and error columns are written and nothing else. An
      id with no row matches nothing and still reports success. */
  function UpdateStepStatus(db: Db, vid: nat, name: string, status: Status, msg: Option<string>): (r: (Db, bool))
    ensures StepNamed(name).None? ==> r == (db, false)
    ensures StepNamed(name).Some? ==> r.1 && r.0.exchanges == db.exchanges && r.0.videos.Keys == db.videos.Keys
    ensures StepNamed(name).Some? && vid in db.videos ==>
              var s := StepNamed(name).value;
              var old_ := db.videos[vid];
              var new_ := r.0.videos[vid];
              new_.steps.Get(s) == Slot(status, StoredError(status, msg))
              && (forall t: Step :: t != s ==> new_.steps.Get(t) == old_.steps.Get(t))
              && new_.(steps := old_.steps) == old_
    ensures forall v :: v in db.videos && v != vid ==> r.0.videos[v] == db.videos[v]
    ensures vid !in db.videos ==> r.0 == db
    ensures Valid(db) ==> Valid(r.0)
  {
    match StepNamed(name)
    case None => (db, false)
    case Some(s) =>
      if vid !in db.videos then (db, true)
      else
        var v := db.videos[vid];
        (db.(videos := db.videos[vid := v.(steps := v.steps.Set(s, Slot(status, StoredError(status, msg))))]), true)
  }

  /** The steps whose result column can be written: transcript and diarization. */
  function ResultStep(name: string): (r: Option<Step>)
    ensures r.Some? <==> name == "transcript" || name == "diarization"
    ensures r.Some? ==> StepName(r.value) == name
  {
    if name == "transcript" then Some(Transcript)
    else if name == "diarization" then Some(Diarization)
    else None
  }

  /** Write one video's row with `f`, leaving every other row alone. */
  function SetTranscript(db: Db, vid: nat, t: Option<seq<TranscriptSeg>>): (r: Db)
    ensures vid in db.videos ==> r.videos == db.videos[vid := db.videos[vid].(transcript := t)]
    ensures vid !in db.videos ==> r == db
    ensures r.exchanges == db.exchanges && (Valid(db) ==> Valid(r))
  {
    if vid in db.videos then db.(videos := db.videos[vid := db.videos[vid].(transcript := t)]) else db
  }

  function SetFullDiarization(db: Db, vid: nat, d: Option<seq<DiarSeg>>): (r: Db)
    ensures vid in db.videos ==> r.videos == db.videos[vid := db.videos[vid].(fullDiarization := d)]
    ensures vid !in db.videos ==> r == db
    ensures r.exchanges == db.exchanges && (Valid(db) ==> Valid(r))
  {
    if vid in db.videos then db.(videos := db.videos[vid := db.videos[vid].(fullDiarization := d)]) else db
  }

  /** `update_video_audio_path`. */
  function SetAudioPath(db: Db, vid: nat, p: Option<string>): (r: Db)
    ensures vid in db.videos ==> r.videos == db.videos[vid := db.videos[vid].(audioPath := p)]
    ensures vid !in db.videos ==> r == db
    ensures r.exchanges == db.exchanges && (Valid(db) ==> Valid(r))
  {
    if vid in db.videos then db.(videos := db.videos[vid := db.videos[vid].(audioPath := p)]) else db
  }

  /** The stored clip list as read back: anything that is not a list reads as empty. */
  function ClipsOf(v: Video): seq<string> {
    match v.generatedClips
    case List(ps) => ps
    case NotAList => []
  }

  /** `add_generated_clip`: append the path unless it is already listed; a
      missing row fails. */
  function AddGeneratedClip(db: Db, vid: nat, path: string): (r: (Db, bool))
    ensures vid !in db.videos ==> r == (db, false)
    ensures vid in db.videos ==> r.1 && vid in r.0.videos && path in ClipsOf(r.0.videos[vid])
    ensures vid in db.videos && path in ClipsOf(db.videos[vid]) ==> r.0 == db
    ensures vid in db.videos && path !in ClipsOf(db.videos[vid]) ==>
              r.0.videos == db.videos[vid := db.videos[vid].(generatedClips := List(ClipsOf(db.videos[vid]) + [path]))]
    ensures r.0.exchanges == db.exchanges && (Valid(db) ==> Valid(r.0))
  {
    if vid !in db.videos then (db, false)
    else
      var v := db.videos[vid];
      var existing := ClipsOf(v);
      if path in existing then (db, true)
      else (db.(videos := db.videos[vid := v.(generatedClips := List(existing + [path]))]), true)
  }

  /** Adding the same path twice is the same as adding it once. */
  lemma AddGeneratedClipIdempotent(db: Db, vid: nat, path: string)
    ensures var once := AddGeneratedClip(db, vid, path).0;
      AddGeneratedClip(once, vid, path) == (once, vid in db.videos)
  {
  }

  // ---------------------------------------------------------------------------
  // Error log
  // ---------------------------------------------------------------------------

  const StepOrder: seq<Step> := [Download, Audio, Transcript, Diarization, ExchangeId]

  /** The first step, in pipeline order, whose status is Error. */
  function FirstError(steps: StepSlots): (r: Option<Step>)
    ensures r.Some? ==> steps.Get(r.value).status == Error
                        && forall t: Step :: Rank(t) < Rank(r.value) ==> steps.Get(t).status != Error
    ensures r.None? ==> forall t: Step :: steps.Get(t).status != Error
  {
    if steps.download.status == Error then Some(Download)
    else if steps.audio.status == Error then Some(Audio)
    else if steps.transcript.status == Error then Some(Transcript)
    else if steps.diarization.status == Error then Some(Diarization)
    else if steps.exchangeId.status == Error then Some(ExchangeId)
    else None
  }

  /** How the error log names a step: capitalised, underscores as spaces. */
  function DisplayName(s: Step): string {
    match s
    case Download => "Download"
    case Audio => "Audio"
    case Transcript => "Transcript"
    case Diarization => "Diarization"
    case ExchangeId => "Exchange id"
  }

  datatype ErrorSummary = ErrorSummary(step: string, message: Option<string>)

  /** `get_videos_with_errors`: every video with a failed step, summarised by
      its first failed step and that step's message. */
  function VideosWithErrors(db: Db): (r: map<nat, ErrorSummary>)
    ensures forall v :: v in r <==> v in db.videos && exists s: Step :: db.videos[v].steps.Get(s).status == Error
    ensures forall v :: v in r ==>
              exists s: Step :: db.videos[v].steps.Get(s).status == Error
                && (forall t: Step :: Rank(t) < Rank(s) ==> db.videos[v].steps.Get(t).status != Error)
                && r[v] == ErrorSummary(DisplayName(s), db.videos[v].steps.Get(s).error)
  {
    map v | v in db.videos && FirstError(db.videos[v].steps).Some? ::
      var s := FirstError(db.videos[v].steps).value;
      ErrorSummary(DisplayName(s), db.videos[v].steps.Get(s).error)
  }

  /** `delete_video_records`: remove the rows and, by cascade, their
      exchanges; report how many video rows went. */
  function DeleteVideos(db: Db, ids: seq<nat>): (r: (Db, nat))
    ensures forall v :: v in r.0.videos <==> v in db.videos && v !in ids
    ensures forall v :: v in r.0.videos ==> r.0.videos[v] == db.videos[v]
    ensures forall x :: x in r.0.exchanges <==> x in db.exchanges && db.exchanges[x].videoId !in ids
    ensures forall x :: x in r.0.exchanges ==> r.0.exchanges[x] == db.exchanges[x]
    ensures r.1 == |db.videos.Keys * set v | v in ids|
    ensures Valid(db) ==> Valid(r.0)
  {
    if |ids| == 0 then (db, 0)
    else
      var videos := map v | v in db.videos && v !in ids :: db.videos[v];
      var exchanges := map x | x in db.exchanges && db.exchanges[x].videoId !in ids :: db.exchanges[x];
      (db.(videos := videos, exchanges := exchanges), |db.videos.Keys * set v | v in ids|)
  }

  // ---------------------------------------------------------------------------
  // Exchange rows
  // ---------------------------------------------------------------------------

  /** Search ids [i, n) for the exchange with this video and label. */
  function SearchFrom(ex: map<nat, Exchange>, vid: nat, exchangeLabel: string, i: nat, n: nat): (r: Option<nat>)
    decreases n - i
    ensures r.Some? ==> i <= r.value < n && r.value in ex && ex[r.value].videoId == vid && ex[r.value].exchangeLabel == exchangeLabel
    ensures r.None? ==> forall x :: i <= x < n && x in ex ==> !(ex[x].videoId == vid && ex[x].exchangeLabel == exchangeLabel)
  {
    if i >= n then None
    else if i in ex && ex[i].videoId == vid && ex[i].exchangeLabel == exchangeLabel then Some(i)
    else SearchFrom(ex, vid, exchangeLabel, i + 1, n)
  }

  /** The exchange row holding (video, label), if any. */
  function FindExchange(db: Db, vid: nat, exchangeLabel: string): (r: Option<nat>)
    ensures r.Some? ==> r.value in db.exchanges && db.exchanges[r.value].videoId == vid && db.exchanges[r.value].exchangeLabel == exchangeLabel
    ensures r.None? && Valid(db) ==> forall x :: x in db.exchanges ==> !(db.exchanges[x].videoId == vid && db.exchanges[x].exchangeLabel == exchangeLabel)
  {
    SearchFrom(db.exchanges, vid, exchangeLabel, 0, db.nextExchange)
  }

  /** A detected exchange handed to `add_long_exchanges`; a None field is a
      missing key. */
  datatype Candidate = Candidate(id: Option<string>, start: Option<real>, end: Option<real>, marker: Option<string>)

  predicate Usable(c: Candidate) {
    c.id.Some? && c.start.Some? && c.end.Some?
  }

  /** The row a usable candidate produces: auto, fresh sub-steps, no results. */
  function AutoRow(vid: nat, c: Candidate): Exchange
    requires Usable(c)
  {
    Exchange(vid, c.id.value, Auto, c.start.value, c.end.value, c.marker, FreshSubs, None, None)
  }

  /** Some row of the table is exactly `e`. */
  predicate HasRow(ex: map<nat, Exchange>, e: Exchange) {
    exists x :: x in ex && ex[x] == e
  }

  /** Insert one usable candidate, or on a (video, label) collision overwrite
      the window and marker, make it auto, and reset its sub-steps and
      results. */
  function Upsert(db: Db, vid: nat, c: Candidate): (r: Db)
    requires Valid(db) && vid in db.videos && Usable(c)
    ensures Valid(r) && r.videos == db.videos
    ensures db.exchanges.Keys <= r.exchanges.Keys
    ensures HasRow(r.exchanges, AutoRow(vid, c))
    ensures forall x :: x in r.exchanges && !(r.exchanges[x].videoId == vid && r.exchanges[x].exchangeLabel == c.id.value) ==>
              x in db.exchanges && r.exchanges[x] == db.exchanges[x]
    ensures forall x :: x in r.exchanges && r.exchanges[x].videoId == vid && r.exchanges[x].exchangeLabel == c.id.value ==>
              r.exchanges[x] == AutoRow(vid, c)
  {
    match FindExchange(db, vid, c.id.value)
    case Some(x) =>
      db.(exchanges := db.exchanges[x := AutoRow(vid, c)])
    case None =>
      var x := if db.nextExchange == 0 then 1 else db.nextExchange;
      var r := db.(exchanges := db.exchanges[x := AutoRow(vid, c)], nextExchange := x + 1);
      assert x in r.exchanges && r.exchanges[x] == AutoRow(vid, c);
      r
  }

  /** Upsert the usable candidates in order, skipping the others. */
  function UpsertAll(db: Db, vid: nat, cs: seq<Candidate>): (r: Db)
    requires Valid(db) && vid in db.videos
    ensures Valid(r) && r.videos == db.videos
    ensures db.exchanges.Keys <= r.exchanges.Keys
    decreases |cs|
  {
    if |cs| == 0 then db
    else UpsertAll(if Usable(cs[0]) then Upsert(db, vid, cs[0]) else db, vid, cs[1..])
  }

  /** The label is among the usable candidates. */
  predicate Mentioned(cs: seq<Candidate>, name: string) {
    exists i :: 0 <= i < |cs| && Usable(cs[i]) && cs[i].id.value == name
  }

  /** Rows the batch does not name keep their content. */
  lemma {:induction false} UpsertAllFrames(db: Db, vid: nat, cs: seq<Candidate>)
    requires Valid(db) && vid in db.videos
    decreases |cs|
    ensures var r := UpsertAll(db, vid, cs);
      forall x :: x in r.exchanges && !(r.exchanges[x].videoId == vid && Mentioned(cs, r.exchanges[x].exchangeLabel)) ==>
        x in db.exchanges && r.exchanges[x] == db.exchanges[x]
  {
    if |cs| > 0 {
      var mid := if Usable(cs[0]) then Upsert(db, vid, cs[0]) else db;
      UpsertAllFrames(mid, vid, cs[1..]);
    }
  }

  /** The last usable candidate for a label decides that label's row. */
  lemma {:induction false} UpsertAllLastWins(db: Db, vid: nat, cs: seq<Candidate>, i: nat)
    requires Valid(db) && vid in db.videos
    requires i < |cs| && Usable(cs[i])
    requires forall j :: i < j < |cs| && Usable(cs[j]) ==> cs[j].id != cs[i].id
    decreases |cs|
    ensures var r := UpsertAll(db, vid, cs);
      HasRow(r.exchanges, AutoRow(vid, cs[i]))
      && forall x :: x in r.exchanges && r.exchanges[x].videoId == vid && r.exchanges[x].exchangeLabel == cs[i].id.value ==>
           r.exchanges[x] == AutoRow(vid, cs[i])
  {
    var mid := if Usable(cs[0]) then Upsert(db, vid, cs[0]) else db;
    var r := UpsertAll(db, vid, cs);
    assert r == UpsertAll(mid, vid, cs[1..]);
    if i == 0 {
      var rest := cs[1..];
      UpsertAllFrames(mid, vid, rest);
      assert !Mentioned(rest, cs[0].id.value);
      var x0 :| x0 in mid.exchanges && mid.exchanges[x0] == AutoRow(vid, cs[0]);
      UpsertAllKeys(mid, vid, rest);
      assert x0 in r.exchanges && SameKey(r.exchanges[x0], mid.exchanges[x0]);
      assert r.exchanges[x0] == AutoRow(vid, cs[0]);
      forall x | x in r.exchanges && r.exchanges[x].videoId == vid && r.exchanges[x].exchangeLabel == cs[0].id.value
        ensures r.exchanges[x] == AutoRow(vid, cs[0])
      {
        assert x in mid.exchanges && r.exchanges[x] == mid.exchanges[x];
      }
    } else {
      assert cs[1..][i - 1] == cs[i];
      UpsertAllLastWins(mid, vid, cs[1..], i - 1);
    }
  }

  /** Existing rows keep their (video, label) key through a batch. */
  lemma {:induction false} UpsertAllKeys(db: Db, vid: nat, cs: seq<Candidate>)
    requires Valid(db) && vid in db.videos
    decreases |cs|
    ensures var r := UpsertAll(db, vid, cs);
      forall x :: x in db.exchanges ==> x in r.exchanges && SameKey(r.exchanges[x], db.exchanges[x])
  {
    if |cs| > 0 {
      var mid := if Usable(cs[0]) then Upsert(db, vid, cs[0]) else db;
      UpsertAllKeys(mid, vid, cs[1..]);
    }
  }

  /** `add_long_exchanges`: an empty batch succeeds without writing; a batch
      with no usable candidate, or for a video with no row, fails without
      writing; otherwise every usable candidate is upserted as an auto
      exchange, the last one for a label deciding its row, and rows of other
      videos or other labels are untouched. */
  function AddLongExchanges(db: Db, vid: nat, cs: seq<Candidate>): (r: (Db, bool))
    requires Valid(db)
    ensures Valid(r.0) && r.0.videos == db.videos
    ensures |cs| == 0 ==> r == (db, true)
    ensures (forall i :: 0 <= i < |cs| ==> !Usable(cs[i])) && |cs| > 0 ==> r == (db, false)
    ensures vid !in db.videos ==> r.0 == db && (r.1 <==> |cs| == 0)
    ensures !r.1 ==> r.0 == db
    ensures forall x :: x in r.0.exchanges && !(r.0.exchanges[x].videoId == vid && Mentioned(cs, r.0.exchanges[x].exchangeLabel)) ==>
              x in db.exchanges && r.0.exchanges[x] == db.exchanges[x]
    ensures forall x :: x in db.exchanges ==> x in r.0.exchanges && SameKey(r.0.exchanges[x], db.exchanges[x])
  {
    if |cs| == 0 then (db, true)
    else if forall i :: 0 <= i < |cs| ==> !Usable(cs[i]) then (db, false)
    else if vid !in db.videos then (db, false)
    else
      UpsertAllFrames(db, vid, cs);
      UpsertAllKeys(db, vid, cs);
      (UpsertAll(db, vid, cs), true)
  }

  /** A successful batch stores every usable candidate that is the last
      one for its label: its row is auto, holds its window and marker, and
      has fresh sub-steps and no results. */
  lemma AddLongExchangesStores(db: Db, vid: nat, cs: seq<Candidate>, i: nat)
    requires Valid(db) && vid in db.videos
    requires i < |cs| && Usable(cs[i])
    requires forall j :: i < j < |cs| && Usable(cs[j]) ==> cs[j].id != cs[i].id
    ensures AddLongExchanges(db, vid, cs).1
    ensures var r := AddLongExchanges(db, vid, cs).0;
      HasRow(r.exchanges, AutoRow(vid, cs[i]))
      && forall x :: x in r.exchanges && r.exchanges[x].videoId == vid && r.exchanges[x].exchangeLabel == cs[i].id.value ==>
           r.exchanges[x] == AutoRow(vid, cs[i])
  {
    UpsertAllLastWins(db, vid, cs, i);
  }

  /** The manual label: "man_", the timestamp, and the start time's text
      with its decimal point written as 'p'. */
  function ManualLabel(ts: nat, startText: string): (l: string)
    ensures StartsWith(l, "man_")
  {
    "man_" + Show(ts) + "_" + seq(|startText|, i requires 0 <= i < |startText| => if startText[i] == '.' then 'p' else startText[i])
  }

  /** A manual label never collides with an automatically detected one,
      whose ids start with "lex_" or "spkchg_". */
  lemma ManualLabelsAreNotAuto(ts: nat, startText: string, id: string)
    requires StartsWith(id, "lex_") || StartsWith(id, "spkchg_")
    ensures ManualLabel(ts, startText) != id
  {
    var l := ManualLabel(ts, startText);
    assert l[0] == 'm';
  }

  /** `add_manual_exchange`: insert a manual row labelled from the clock
      reading and the start time's text, with fresh sub-steps and no marker;
      the insert fails (nothing written) for a video with no row or a label
      already used in that video. */
  function AddManualExchange(db: Db, vid: nat, start: real, end: real, ts: nat, startText: string): (r: (Db, bool, Option<nat>))
    requires Valid(db)
    ensures Valid(r.0) && r.0.videos == db.videos
    ensures !r.1 <==> vid !in db.videos || FindExchange(db, vid, ManualLabel(ts, startText)).Some?
    ensures !r.1 ==> r.0 == db && r.2.None?
    ensures r.1 ==> (r.2.Some? && r.2.value !in db.exchanges
              && r.0.exchanges == db.exchanges[r.2.value := Exchange(vid, ManualLabel(ts, startText), Manual, start, end, None, FreshSubs, None, None)])
  {
    var name := ManualLabel(ts, startText);
    if vid !in db.videos || FindExchange(db, vid, name).Some? then (db, false, None)
    else
      var x := if db.nextExchange == 0 then 1 else db.nextExchange;
      (db.(exchanges := db.exchanges[x := Exchange(vid, name, Manual, start, end, None, FreshSubs, None, None)], nextExchange := x + 1),
       true, Some(x))
  }

  /** The kind a clearing filter names: 'auto' or 'manual'; anything else
      clears all kinds. */
  function KindFilter(filter: Option<string>): (k: Option<Kind>)
    ensures k == Some(Auto) <==> filter == Some("auto")
    ensures k == Some(Manual) <==> filter == Some("manual")
  {
    if filter == Some("auto") then Some(Auto)
    else if filter == Some("manual") then Some(Manual)
    else None
  }

  /** `clear_long_exchanges_for_video`. */
  function ClearExchanges(db: Db, vid: nat, filter: Option<string>): (r: Db)
    ensures r.videos == db.videos
    ensures forall x :: x in r.exchanges <==> x in db.exchanges && !Selected(db.exchanges[x], vid, KindFilter(filter))
    ensures forall x :: x in r.exchanges ==> r.exchanges[x] == db.exchanges[x]
    ensures Valid(db) ==> Valid(r)
  {
    db.(exchanges := DropExchanges(db.exchanges, vid, KindFilter(filter)))
  }

  /** Clearing auto then manual exchanges is clearing all of them. */
  lemma ClearBothKinds(db: Db, vid: nat)
    ensures ClearExchanges(ClearExchanges(db, vid, Some("auto")), vid, Some("manual")) == ClearExchanges(db, vid, None)
  {
    var a := ClearExchanges(ClearExchanges(db, vid, Some("auto")), vid, Some("manual"));
    var b := ClearExchanges(db, vid, None);
    assert a.exchanges.Keys == b.exchanges.Keys;
  }

  /** `update_exchange_substep_status`, as for video steps. */
  function UpdateSubstepStatus(db: Db, xid: nat, name: string, status: Status, msg: Option<string>): (r: (Db, bool))
    ensures SubstepNamed(name).None? ==> r == (db, false)
    ensures SubstepNamed(name).Some? ==> r.1 && r.0.videos == db.videos && r.0.exchanges.Keys == db.exchanges.Keys
    ensures SubstepNamed(name).Some? && xid in db.exchanges ==>
              var s := SubstepNamed(name).value;
              var old_ := db.exchanges[xid];
              var new_ := r.0.exchanges[xid];
              new_.subs.Get(s) == Slot(status, StoredError(status, msg))
              && (forall t: Substep :: t != s ==> new_.subs.Get(t) == old_.subs.Get(t))
              && new_.(subs := old_.subs) == old_
    ensures forall x :: x in db.exchanges && x != xid ==> r.0.exchanges[x] == db.exchanges[x]
    ensures xid !in db.exchanges ==> r.0 == db
    ensures Valid(db) ==> Valid(r.0)
  {
    match SubstepNamed(name)
    case None => (db, false)
    case Some(s) =>
      if xid !in db.exchanges then (db, true)
      else
        var e := db.exchanges[xid];
        (db.(exchanges := db.exchanges[xid := e.(subs := e.subs.Set(s, Slot(status, StoredError(status, msg))))]), true)
  }

  /** The sub-steps whose result column can be written. */
  function SubstepResult(name: string): (r: Option<Substep>)
    ensures r.Some? <==> name == "diarization" || name == "clip_definition"
    ensures r.Some? ==> SubstepName(r.value) == name
  {
    if name == "diarization" then Some(ExchangeDiarization)
    else if name == "clip_definition" then Some(ClipDefinition)
    else None
  }

  function SetExchangeDiarization(db: Db, xid: nat, d: Option<seq<DiarSeg>>): (r: Db)
    ensures xid in db.exchanges ==> r.exchanges == db.exchanges[xid := db.exchanges[xid].(diarization := d)]
    ensures xid !in db.exchanges ==> r == db
    ensures r.videos == db.videos && (Valid(db) ==> Valid(r))
  {
    if xid in db.exchanges then db.(exchanges := db.exchanges[xid := db.exchanges[xid].(diarization := d)]) else db
  }

  function SetClipDefinitions(db: Db, xid: nat, c: Option<seq<ClipDef>>): (r: Db)
    ensures xid in db.exchanges ==> r.exchanges == db.exchanges[xid := db.exchanges[xid].(clipDefs := c)]
    ensures xid !in db.exchanges ==> r == db
    ensures r.videos == db.videos && (Valid(db) ==> Valid(r))
  {
    if xid in db.exchanges then db.(exchanges := db.exchanges[xid := db.exchanges[xid].(clipDefs := c)]) else db
  }

  // ---------------------------------------------------------------------------
  // Resets
  // ---------------------------------------------------------------------------

  /** `reset_video_full`: download Queued, every other step Pending, all
      errors, results, the audio path and the clip list cleared, and every
      exchange of the video deleted; False for a missing row. */
  function ResetVideoFull(db: Db, vid: nat): (r: (Db, bool))
    ensures vid !in db.videos ==> r == (db, false)
    ensures vid in db.videos ==> r.1 && r.0.videos.Keys == db.videos.Keys
    ensures vid in db.videos ==>
              var v := r.0.videos[vid];
              v.steps.Get(Download) == Slot(Queued, None)
              && (forall s: Step :: s != Download ==> v.steps.Get(s) == Fresh)
              && v.audioPath.None? && v.transcript.None? && v.fullDiarization.None? && v.generatedClips == List([])
              && v.url == db.videos[vid].url && v.filePath == db.videos[vid].filePath
    ensures forall v :: v in db.videos && v != vid ==> r.0.videos[v] == db.videos[v]
    ensures vid in db.videos ==> r.0.exchanges == DropExchanges(db.exchanges, vid, None)
    ensures Valid(db) ==> Valid(r.0)
  {
    if vid !in db.videos then (db, false)
    else
      var v := db.videos[vid];
      var v' := v.(steps := FreshSteps.Set(Download, Slot(Queued, None)),
                   audioPath := None, transcript := None, fullDiarization := None, generatedClips := List([]));
      (Db(db.videos[vid := v'], DropExchanges(db.exchanges, vid, None), db.nextVideo, db.nextExchange), true)
  }

  /** The slot a step gets when the pipeline is reset from step `from`. */
  function ResetSlot(from: Step, s: Step, current: Slot): Slot {
    if Rank(s) < Rank(from) then current
    else if s == from then Slot(Queued, None)
    else Fresh
  }

  function ResetSteps(steps: StepSlots, from: Step): (r: StepSlots)
    ensures forall s: Step :: r.Get(s) == ResetSlot(from, s, steps.Get(s))
  {
    StepSlots(ResetSlot(from, Download, steps.download), ResetSlot(from, Audio, steps.audio),
              ResetSlot(from, Transcript, steps.transcript), ResetSlot(from, Diarization, steps.diarization),
              ResetSlot(from, ExchangeId, steps.exchangeId))
  }

  /** `reset_video_step`: an unknown name fails without writing. Otherwise
      the named step becomes Queued and every later step Pending, their
      errors cleared; the result columns and the audio path of the reset
      steps are cleared; earlier steps are untouched. Resetting transcript
      or an earlier step also empties the clip list and deletes every
      exchange of the video (before the row is even looked up); resetting
      diarization or exchange detection deletes only the auto exchanges. */
  function ResetVideoStep(db: Db, vid: nat, name: string): (r: (Db, bool))
    ensures StepNamed(name).None? ==> r == (db, false)
    ensures StepNamed(name).Some? && vid !in db.videos ==> !r.1 && r.0.videos == db.videos
    ensures r.0.videos.Keys == db.videos.Keys
    ensures forall v :: v in db.videos && v != vid ==> r.0.videos[v] == db.videos[v]
    ensures StepNamed(name).Some? && vid in db.videos ==>
              var from := StepNamed(name).value;
              var old_ := db.videos[vid];
              var v := r.0.videos[vid];
              r.1
              && (forall s: Step :: Rank(s) < Rank(from) ==> v.steps.Get(s) == old_.steps.Get(s))
              && v.steps.Get(from) == Slot(Queued, None)
              && (forall s: Step :: Rank(s) > Rank(from) ==> v.steps.Get(s) == Fresh)
              && (v.audioPath == if Rank(from) <= Rank(Audio) then None else old_.audioPath)
              && (v.transcript == if Rank(from) <= Rank(Transcript) then None else old_.transcript)
              && (v.fullDiarization == if Rank(from) <= Rank(Diarization) then None else old_.fullDiarization)
              && (v.generatedClips == if Rank(from) <= Rank(Transcript) then List([]) else old_.generatedClips)
              && v.url == old_.url && v.filePath == old_.filePath
    ensures StepNamed(name).Some? && Rank(StepNamed(name).value) <= Rank(Transcript) ==>
              r.0.exchanges == DropExchanges(db.exchanges, vid, None)
    ensures StepNamed(name).Some? && Rank(StepNamed(name).value) > Rank(Transcript) ==>
              r.0.exchanges == if vid in db.videos then DropExchanges(db.exchanges, vid, Some(Auto)) else db.exchanges
    ensures Valid(db) ==> Valid(r.0)
  {
    match StepNamed(name)
    case None => (db, false)
    case Some(from) =>
      var early := Rank(from) <= Rank(Transcript);
      var db1 := if early then db.(exchanges := DropExchanges(db.exchanges, vid, None)) else db;
      if vid !in db1.videos then (db1, false)
      else
        var v := db1.videos[vid];
        var v' := v.(steps := ResetSteps(v.steps, from),
                     audioPath := if Rank(from) <= Rank(Audio) then None else v.audioPath,
                     transcript := if Rank(from) <= Rank(Transcript) then None else v.transcript,
                     fullDiarization := if Rank(from) <= Rank(Diarization) then None else v.fullDiarization,
                     generatedClips := if early then List([]) else v.generatedClips);
        var ex := if early then db1.exchanges else DropExchanges(db1.exchanges, vid, Some(Auto));
        (db1.(videos := db1.videos[vid := v'], exchanges := ex), true)
  }

  /** On a consistent store a full reset is a reset from the download step. */
  lemma FullResetIsDownloadReset(db: Db, vid: nat)
    requires Valid(db)
    ensures ResetVideoFull(db, vid) == ResetVideoStep(db, vid, "download")
  {
    if vid in db.videos {
      var a := ResetVideoFull(db, vid).0.videos[vid];
      var b := ResetVideoStep(db, vid, "download").0.videos[vid];
      assert a.steps == b.steps;
    } else {
      assert DropExchanges(db.exchanges, vid, None) == db.exchanges;
    }
  }

  // As written, `reset_video_full` and the late branch of `reset_video_step`
  // clear the exchanges through `clear_long_exchanges_for_video`, which opens
  // a second connection while the first still holds its uncommitted UPDATE.
  // Under write-ahead logging the second writer cannot take the write lock,
  // waits out the busy timeout and reports failure, which the caller ignores.
  // The members below model that; `ResetVideoFull` and `ResetVideoStep` are
  // the evidently intended resets the rest of the model uses.

  /** `reset_video_full` as written: the row is reset, every exchange stays. */
  function ResetVideoFullAsWritten(db: Db, vid: nat): (r: (Db, bool))
    ensures r.0.exchanges == db.exchanges
    ensures r.1 == ResetVideoFull(db, vid).1 && r.0.videos == ResetVideoFull(db, vid).0.videos
  {
    if vid !in db.videos then (db, false)
    else
      var v := db.videos[vid];
      var v' := v.(steps := FreshSteps.Set(Download, Slot(Queued, None)),
                   audioPath := None, transcript := None, fullDiarization := None, generatedClips := List([]));
      (db.(videos := db.videos[vid := v']), true)
  }

  /** `reset_video_step` as written: resetting transcript or an earlier step
      clears the exchanges before the connection opens, so that clear takes
      effect; resetting diarization or exchange detection leaves the auto
      exchanges in place. */
  function ResetVideoStepAsWritten(db: Db, vid: nat, name: string): (r: (Db, bool))
    ensures r.1 == ResetVideoStep(db, vid, name).1 && r.0.videos == ResetVideoStep(db, vid, name).0.videos
    ensures StepNamed(name).Some? && Rank(StepNamed(name).value) <= Rank(Transcript) ==>
              r.0.exchanges == DropExchanges(db.exchanges, vid, None)
    ensures StepNamed(name).None? || Rank(StepNamed(name).value) > Rank(Transcript) ==> r.0.exchanges == db.exchanges
  {
    match StepNamed(name)
    case None => (db, false)
    case Some(from) =>
      var early := Rank(from) <= Rank(Transcript);
      var db1 := if early then db.(exchanges := DropExchanges(db.exchanges, vid, None)) else db;
      if vid !in db1.videos then (db1, false)
      else
        var v := db1.videos[vid];
        var v' := v.(steps := ResetSteps(v.steps, from),
                     audioPath := if Rank(from) <= Rank(Audio) then None else v.audioPath,
                     transcript := if Rank(from) <= Rank(Transcript) then None else v.transcript,
                     fullDiarization := if Rank(from) <= Rank(Diarization) then None else v.fullDiarization,
                     generatedClips := if early then List([]) else v.generatedClips);
        (db1.(videos := db1.videos[vid := v']), true)
  }

  /** As written, a full reset is not a reset from download: an exchange of
      the video survives the first and is deleted by the second, while the
      intended full reset deletes it too. */
  lemma FullResetAsWrittenKeepsExchanges(db: Db, vid: nat, x: nat)
    requires vid in db.videos && x in db.exchanges && db.exchanges[x].videoId == vid
    ensures x in ResetVideoFullAsWritten(db, vid).0.exchanges
    ensures x !in ResetVideoStepAsWritten(db, vid, "download").0.exchanges
    ensures ResetVideoFullAsWritten(db, vid) != ResetVideoStepAsWritten(db, vid, "download")
    ensures x !in ResetVideoFull(db, vid).0.exchanges
  {
    assert StepNamed("download") == Some(Download);
  }

  /** As written, resetting diarization or exchange detection keeps the
      video's auto exchanges, which the intended reset deletes. */
  lemma LateResetAsWrittenKeepsAuto(db: Db, vid: nat, name: string, x: nat)
    requires name == "diarization" || name == "exchange_id"
    requires vid in db.videos && x in db.exchanges && db.exchanges[x].videoId == vid && db.exchanges[x].kind == Auto
    ensures x in ResetVideoStepAsWritten(db, vid, name).0.exchanges
    ensures x !in ResetVideoStep(db, vid, name).0.exchanges
  {
    assert StepNamed(name) == Some(if name == "diarization" then Diarization else ExchangeId);
  }

  /** Resetting from the same step twice changes nothing the second time. */
  lemma ResetVideoStepIdempotent(db: Db, vid: nat, name: string)
    requires StepNamed(name).Some?
    ensures var once := ResetVideoStep(db, vid, name).0;
      ResetVideoStep(once, vid, name).0 == once
  {
    var once := ResetVideoStep(db, vid, name).0;
    var twice := ResetVideoStep(once, vid, name).0;
    if vid in db.videos {
      assert twice.videos[vid].steps == once.videos[vid].steps;
      assert twice.videos[vid] == once.videos[vid];
    }
    assert twice.exchanges == once.exchanges;
  }

  /** `reset_exchange_substeps`: all three sub-steps Pending with errors and
      results cleared; False for a missing row. */
  function ResetExchangeSubsteps(db: Db, xid: nat): (r: (Db, bool))
    ensures xid !in db.exchanges ==> r == (db, false)
    ensures xid in db.exchanges ==>
              r.1 && r.0.videos == db.videos && r.0.exchanges.Keys == db.exchanges.Keys
              && (forall s: Substep :: r.0.exchanges[xid].subs.Get(s) == Fresh)
              && r.0.exchanges[xid].diarization.None? && r.0.exchanges[xid].clipDefs.None?
              && SameKey(r.0.exchanges[xid], db.exchanges[xid])
              && r.0.exchanges[xid].start == db.exchanges[xid].start && r.0.exchanges[xid].end == db.exchanges[xid].end
              && r.0.exchanges[xid].kind == db.exchanges[xid].kind && r.0.exchanges[xid].marker == db.exchanges[xid].marker
              && r.0.nextVideo == db.nextVideo && r.0.nextExchange == db.nextExchange
              && forall x :: x in db.exchanges && x != xid ==> r.0.exchanges[x] == db.exchanges[x]
    ensures Valid(db) ==> Valid(r.0)
  {
    if xid !in db.exchanges then (db, false)
    else
      var e := db.exchanges[xid];
      (db.(exchanges := db.exchanges[xid := e.(subs := FreshSubs, diarization := None, clipDefs := None)]), true)
  }
}

=== FILE: task_common.dfy ===
/** What the background tasks share: how a failure is classified and
    recorded, what the task queue then does with it, and how the outcomes of
    cutting several clips are rolled up into one status and message. */
module TaskCommon {
  import opened Base
  import opened ErrorText
  import opened Store

  // ---------------------------------------------------------------------------
  // Exceptions and their classification
  // ---------------------------------------------------------------------------

  /** The exception classes the tasks raise or name. `Ignore` is the task
      queue's signal to drop a task without retrying it. */
  datatype ExcClass =
    | ValueError | TypeError | KeyError | JsonDecodeError
    | RuntimeError | ConnectionError | TimeoutError | OSError | ImportError
    | AttributeError | Ignore
    | OtherError(name: string)

  function ClassName(c: ExcClass): string {
    match c
    case ValueError => "ValueError"
    case TypeError => "TypeError"
    case KeyError => "KeyError"
    case JsonDecodeError => "JSONDecodeError"
    case RuntimeError => "RuntimeError"
    case ConnectionError => "ConnectionError"
    case TimeoutError => "TimeoutError"
    case OSError => "OSError"
    case ImportError => "ImportError"
    case AttributeError => "AttributeError"
    case Ignore => "Ignore"
    case OtherError(n) => n
  }

  /** Membership in the non-retryable tuple; a JSON decoding error is a
      ValueError. */
  predicate NonRetryable(c: ExcClass) {
    c.ValueError? || c.TypeError? || c.KeyError? || c.JsonDecodeError?
  }

  /** Which exceptions a task asks the queue to retry automatically. */
  datatype AutoRetry =
    | Standard            // RuntimeError, ConnectionError, TimeoutError, OSError
    | StandardAndImport   // the same plus ImportError
    | RuntimeOnly         // RuntimeError alone
    | NoRetry             // the pipeline variant declares no retries

  /** Membership in a task's retry tuple; connection and timeout errors are
      OSErrors. */
  predicate RetriedFor(c: ExcClass, a: AutoRetry) {
    match a
    case Standard => c.RuntimeError? || c.ConnectionError? || c.TimeoutError? || c.OSError?
    case StandardAndImport => c.RuntimeError? || c.ConnectionError? || c.TimeoutError? || c.OSError? || c.ImportError?
    case RuntimeOnly => c.RuntimeError?
    case NoRetry => false
  }

  /** An exception as it reaches a handler: its class, `str()` and the
      traceback formatting it yields. */
  datatype Raised = Raised(cls: ExcClass, message: string, trace: Trace)

  /** `format_error(e)` with its defaults: traceback included, 3000 characters. */
  function Describe(e: Raised): (s: string)
    ensures |s| <= DefaultMaxLength
    ensures |s| > 0
  {
    var full := BasicInfo(ErrorValue(ClassName(e.cls), e.message)) + TracePart(e.trace);
    var s := FormatError(ErrorValue(ClassName(e.cls), e.message), e.trace, DefaultMaxLength);
    assert |full| > 0;
    s
  }

  /** How a task run ends: normally, or by raising an exception to the queue. */
  datatype Ending = Finished | Raising(cls: ExcClass)

  /** What a handler does with a failure: the message stored with status
      Error, and how the run ends. */
  datatype Handling = Handling(stored: string, ending: Ending)

  function AttemptPrefix(retries: nat): (p: string)
    ensures StartsWith(p, "[Attempt ")
  {
    "[Attempt " + Show(retries + 1) + "] "
  }

  /** The handler pair of the task modules: a non-retryable exception is
      recorded as is and turned into Ignore; any other exception, the Ignore
      raised for an unmet prerequisite included, is recorded under the
      attempt number and re-raised. */
  function HandleTaskFailure(e: Raised, retries: nat): (h: Handling)
    ensures h.ending.Raising?
    ensures NonRetryable(e.cls) <==> h.ending == Raising(Ignore) && !StartsWith(h.stored, "[Attempt ")
    ensures !NonRetryable(e.cls) ==> h.ending == Raising(e.cls) && h.stored == AttemptPrefix(retries) + Describe(e)
    ensures NonRetryable(e.cls) ==> h.stored == Describe(e)
  {
    if NonRetryable(e.cls) then
      var s := Describe(e);
      assert !StartsWith(s, "[Attempt ") by {
        assert s[..|ClassName(e.cls)|] == ClassName(e.cls);
        assert s[0] != '[';
      }
      Handling(s, Raising(Ignore))
    else
      Handling(AttemptPrefix(retries) + Describe(e), Raising(e.cls))
  }

  /** The pipeline variant's handler: every exception is recorded as is and
      swallowed. */
  function HandlePipelineFailure(e: Raised): (h: Handling)
    ensures h.ending == Finished && h.stored == Describe(e)
  {
    Handling(Describe(e), Finished)
  }

  /** The two implementations of every task: the task modules, and the
      older single pipeline module. */
  datatype Variant = Tasks | Pipeline

  /** The task modules mark a step Running only on the first attempt; the
      pipeline module on every run. */
  predicate MarksRunning(v: Variant, retries: nat) {
    v == Pipeline || retries == 0
  }

  /** The handler of a variant. */
  function Handle(v: Variant, e: Raised, retries: nat): (h: Handling)
    ensures |h.stored| > 0
    ensures v == Pipeline ==> h.ending == Finished
    ensures v == Tasks && (NonRetryable(e.cls) || e.cls == Ignore) ==> h.ending == Raising(Ignore)
    ensures v == Tasks && !NonRetryable(e.cls) ==> h.ending == Raising(e.cls)
  {
    if v == Tasks then HandleTaskFailure(e, retries) else HandlePipelineFailure(e)
  }

  /** A task run: the store afterwards and how the run ended. */
  datatype Run = Run(db: Db, ending: Ending)

  /** The outcome of a task's checks before its work: the inputs, or the
      exception the first failing check raises. */
  datatype Checked<T> = Go(value: T) | Stop(exc: Raised)

  /** The exception class of an unmet prerequisite: the task modules raise
      Ignore, the pipeline module a RuntimeError. */
  function PrerequisiteClass(v: Variant): ExcClass {
    if v == Tasks then Ignore else RuntimeError
  }

  /** In the task modules, a run that stops on bad data or an unmet
      prerequisite is always dropped by the queue, never retried. */
  lemma StopsAreDropped(e: Raised, retries: nat, a: AutoRetry, maxRetries: nat)
    requires NonRetryable(e.cls) || e.cls == Ignore
    ensures QueueFate(HandleTaskFailure(e, retries).ending, a, retries, maxRetries) == Dropped
  {
  }

  /** What the queue does after a run. */
  datatype Fate = Done | Dropped | Retried | Failed

  function QueueFate(end: Ending, a: AutoRetry, retries: nat, maxRetries: nat): (f: Fate)
    ensures f == Retried <==> end.Raising? && end.cls != Ignore && RetriedFor(end.cls, a) && retries < maxRetries
    ensures f == Done <==> end.Finished?
    ensures f == Dropped <==> end == Raising(Ignore)
  {
    match end
    case Finished => Done
    case Raising(c) =>
      if c == Ignore then Dropped
      else if RetriedFor(c, a) && retries < maxRetries then Retried
      else Failed
  }

  /** Bad data is never retried, whatever the task's retry tuple: it is
      dropped with its message stored without an attempt number. Only a
      retried run's message carries the attempt number. */
  lemma NonRetryableNeverRetried(e: Raised, retries: nat, a: AutoRetry, maxRetries: nat)
    ensures var h := HandleTaskFailure(e, retries);
      var f := QueueFate(h.ending, a, retries, maxRetries);
      (NonRetryable(e.cls) ==> f == Dropped && h.stored == Describe(e))
      && (f == Retried ==> !NonRetryable(e.cls) && RetriedFor(e.cls, a) && StartsWith(h.stored, "[Attempt "))
  {
    var h := HandleTaskFailure(e, retries);
    if !NonRetryable(e.cls) {
      assert h.stored[..|AttemptPrefix(retries)|] == AttemptPrefix(retries);
    }
  }

  /** An unmet prerequisite raises Ignore inside the task; the generic
      handler records it under the attempt number, and the queue drops the
      task rather than retrying it. */
  lemma PrerequisiteIgnoreDropsTask(message: string, trace: Trace, retries: nat, a: AutoRetry, maxRetries: nat)
    ensures var h := HandleTaskFailure(Raised(Ignore, message, trace), retries);
      QueueFate(h.ending, a, retries, maxRetries) == Dropped
      && StartsWith(h.stored, "[Attempt ")
  {
    var h := HandleTaskFailure(Raised(Ignore, message, trace), retries);
    assert h.stored[..|AttemptPrefix(retries)|] == AttemptPrefix(retries);
  }

  /** The three video-file checks before a file is used. */
  datatype FileState = OnDisk | Missing | EmptyFile

  /** The column `_get_required_path` reads: the audio or the video path. */
  function RecordedPath(v: Video, audio: bool): Option<string> {
    if audio then v.audioPath else v.filePath
  }

  /** `_get_required_path`: the recorded video or audio path, or the
      message of the exception raised when there is no row, no recorded
      path, or no usable file behind it. */
  function RequiredPath(db: Db, vid: nat, audio: bool, disk: FileState): (r: Result<string>)
    ensures r.Ok? <==> (vid in db.videos && disk == OnDisk
              && RecordedPath(db.videos[vid], audio).Some? && RecordedPath(db.videos[vid], audio).value != [])
    ensures r.Ok? ==> r.value == RecordedPath(db.videos[vid], audio).value
  {
    var kind := if audio then "audio" else "video";
    if vid !in db.videos then Err("Video record " + Show(vid) + " not found.")
    else
      var p := RecordedPath(db.videos[vid], audio);
      if p.None? || p.value == [] then Err("Required " + kind + " path is missing in DB for video " + Show(vid) + ".")
      else if disk == Missing then Err("Required " + kind + " file not found on disk at '" + p.value + "' for video " + Show(vid) + ".")
      else if disk == EmptyFile then Err("Required " + kind + " file is empty (0 bytes) at '" + p.value + "' for video " + Show(vid) + ".")
      else assert disk == OnDisk; Ok(p.value)
  }

  /** The class of that exception: no row or no path is a ValueError, a
      missing or empty file a RuntimeError. */
  function PathFailure(db: Db, vid: nat, audio: bool, disk: FileState): (c: ExcClass)
    requires RequiredPath(db, vid, audio, disk).Err?
    ensures c == ValueError || c == RuntimeError
    ensures NonRetryable(c) <==> (vid !in db.videos
              || RecordedPath(db.videos[vid], audio).None? || RecordedPath(db.videos[vid], audio).value == [])
  {
    if vid !in db.videos then ValueError
    else
      var p := RecordedPath(db.videos[vid], audio);
      if p.None? || p.value == [] then ValueError else RuntimeError
  }

  /** The exception `_get_required_path` raises. */
  function PathError(db: Db, vid: nat, audio: bool, disk: FileState, trace: Trace): (e: Raised)
    requires RequiredPath(db, vid, audio, disk).Err?
    ensures e.cls == PathFailure(db, vid, audio, disk)
  {
    Raised(PathFailure(db, vid, audio, disk), RequiredPath(db, vid, audio, disk).error, trace)
  }

  // ---------------------------------------------------------------------------
  // Clip-cutting roll-up
  // ---------------------------------------------------------------------------

  /** What happened to one clip definition: cut to a path, refused by the
      cutter with a reason, or unusable as a definition. */
  datatype ClipAttempt = Cut(path: string) | CutFailed(reason: string) | BadDefinition(reason: string)

  function Successes(xs: seq<ClipAttempt>): (n: nat)
    ensures n <= |xs|
  {
    if |xs| == 0 then 0 else (if xs[0].Cut? then 1 else 0) + Successes(xs[1..])
  }

  function Failures(xs: seq<ClipAttempt>): (n: nat)
    ensures n <= |xs|
  {
    if |xs| == 0 then 0 else (if xs[0].Cut? then 0 else 1) + Failures(xs[1..])
  }

  /** Each attempt counts exactly once, as a success or as a failure. */
  lemma {:induction false} CountsPartition(xs: seq<ClipAttempt>)
    ensures Successes(xs) + Failures(xs) == |xs|
    ensures Failures(xs) == 0 <==> forall i :: 0 <= i < |xs| ==> xs[i].Cut?
  {
    if |xs| > 0 {
      CountsPartition(xs[1..]);
      assert forall i :: 0 < i < |xs| ==> xs[i] == xs[1..][i - 1];
    }
  }

  /** The message a failed attempt contributes, numbered from 1. */
  function FailureMessage(n: nat, a: ClipAttempt): (m: string)
    requires !a.Cut?
    ensures |m| > 0
  {
    match a
    case CutFailed(reason) => "Failed clip " + Show(n) + ": " + reason
    case BadDefinition(reason) => "Invalid definition for clip " + Show(n) + ": " + reason
  }

  /** The failure messages in attempt order; `first` numbers `xs[0]`. */
  function Messages(xs: seq<ClipAttempt>, first: nat): (ms: seq<string>)
    ensures |ms| == Failures(xs)
    ensures forall i :: 0 <= i < |ms| ==> |ms[i]| > 0
  {
    if |xs| == 0 then []
    else if xs[0].Cut? then Messages(xs[1..], first + 1)
    else [FailureMessage(first, xs[0])] + Messages(xs[1..], first + 1)
  }

  /** The paths of the clips cut, in attempt order. */
  function CutPaths(xs: seq<ClipAttempt>): (ps: seq<string>)
    ensures |ps| == Successes(xs)
    ensures forall p :: p in ps ==> exists i :: 0 <= i < |xs| && xs[i] == Cut(p)
  {
    if |xs| == 0 then []
    else
      var rest := CutPaths(xs[1..]);
      assert forall i :: 0 < i < |xs| ==> xs[i] == xs[1..][i - 1];
      if xs[0].Cut? then [xs[0].path] + rest else rest
  }

  /** The final status from the counts: no failure is Complete (also when
      nothing was attempted), failures beside successes are "Completed with
      Errors", failures alone are Error. */
  function RollupStatus(successes: nat, failures: nat): (s: Status)
    ensures s == Complete <==> failures == 0
    ensures s == CompletedWithErrors <==> failures > 0 && successes > 0
    ensures s == Error <==> failures > 0 && successes == 0
  {
    if failures == 0 then Complete
    else if successes > 0 then CompletedWithErrors
    else Error
  }

  /** The error summary: the first three messages joined by "; ", with "..."
      appended when there were more; nothing when there were none. */
  function Summary(ms: seq<string>): (r: Option<string>)
    ensures r.None? <==> |ms| == 0
    ensures 0 < |ms| <= 3 ==> r == Some(Join(ms, "; "))
    ensures |ms| > 3 ==> r == Some(Join(ms[..3], "; ") + "...")
  {
    if |ms| == 0 then None
    else if |ms| <= 3 then Some(Join(ms, "; "))
    else Some(Join(ms[..3], "; ") + "...")
  }

  /** Only the first three messages and whether there are more matter. */
  lemma SummaryDependsOnFirstThree(a: seq<string>, b: seq<string>)
    requires |a| > 3 && |b| > 3 && a[..3] == b[..3]
    ensures Summary(a) == Summary(b)
  {
  }

  /** Appending a marker of truncation only when messages were dropped: a
      summary of at most three messages names them all. */
  lemma {:induction false} SummaryNamesEveryShortList(ms: seq<string>, i: nat)
    requires 0 < |ms| <= 3 && i < |ms|
    ensures Contains(Summary(ms).value, ms[i])
  {
    JoinContains(ms, "; ", i);
  }

  /** Every item of a join occurs in it. */
  lemma {:induction false} JoinContains(items: seq<string>, sep: string, i: nat)
    requires i < |items|
    ensures Contains(Join(items, sep), items[i])
  {
    var j := Join(items, sep);
    if |items| == 1 {
      assert j == items[0];
      ContainsAt(j, items[0], 0);
    } else if i == 0 {
      assert j == items[0] + sep + Join(items[1..], sep);
      assert j[0..][..|items[0]|] == items[0];
      ContainsAt(j, items[0], 0);
    } else {
      var head := items[0] + sep;
      assert j == head + Join(items[1..], sep);
      assert items[1..][i - 1] == items[i];
      JoinContains(items[1..], sep, i - 1);
      ContainsShift(head, Join(items[1..], sep), items[i]);
    }
  }

  /** An occurrence in a suffix is an occurrence in the whole. */
  lemma {:induction false} ContainsShift(a: string, b: string, sub: string)
    requires Contains(b, sub)
    ensures Contains(a + b, sub)
  {
    if |a| > 0 {
      assert (a + b)[1..] == a[1..] + b;
      ContainsShift(a[1..], b, sub);
    } else {
      assert a + b == b;
    }
  }
}

=== FILE: tiling.dfy ===
/** Turning an ordered list of exchange start points into exchange windows,
    the second pass shared by marker-based and speaker-change detection:
    window k runs from start point k to start point k+1, the last one to the
    end of the final transcript segment, and only non-empty windows are
    kept, labelled with a prefix and k. */
module Tiling {
  import opened Base
  import opened Segments

  /** A detected start point: the transcript index it came from, its start
      time and the marker text that triggered it (if any). */
  datatype Boundary = Boundary(index: nat, start: real, marker: Option<string>)

  /** Where window `k` ends: the next start point, or for the last window the
      end of the final transcript segment (which may be missing). */
  function WindowEnd(bs: seq<Boundary>, lastEnd: Option<real>, k: nat): Option<real>
    requires k < |bs|
  {
    if k + 1 < |bs| then Some(bs[k + 1].start) else lastEnd
  }

  /** Window `k` is emitted: its end is known and lies after its start. */
  predicate Emits(bs: seq<Boundary>, lastEnd: Option<real>, k: nat)
    requires k < |bs|
  {
    var e := WindowEnd(bs, lastEnd, k);
    e.Some? && e.value > bs[k].start
  }

  /** The exchange definition for window `k`, labelled `prefix` + k. */
  function WindowDef(prefix: string, bs: seq<Boundary>, lastEnd: Option<real>, k: nat): ExchangeDef
    requires k < |bs| && Emits(bs, lastEnd, k)
  {
    var e := WindowEnd(bs, lastEnd, k).value;
    ExchangeDef(prefix + Show(k), bs[k].start, e, bs[k].marker, e - bs[k].start)
  }

  /** The start points from `k` on whose windows are emitted, in order;
      `EmittedExactly` states which they are. */
  function EmittedFrom(bs: seq<Boundary>, lastEnd: Option<real>, k: nat): (ks: seq<nat>)
    requires k <= |bs|
    decreases |bs| - k
    ensures |ks| <= |bs| - k
  {
    if k == |bs| then []
    else
      var rest := EmittedFrom(bs, lastEnd, k + 1);
      if Emits(bs, lastEnd, k) then [k] + rest else rest
  }

  /** The positions collected from `k` on are exactly those at or after `k`
      whose window is emitted, in strictly increasing order. */
  lemma {:induction false} EmittedExactly(bs: seq<Boundary>, lastEnd: Option<real>, k: nat)
    requires k <= |bs|
    decreases |bs| - k
    ensures forall j :: 0 <= j < |EmittedFrom(bs, lastEnd, k)| ==>
              k <= EmittedFrom(bs, lastEnd, k)[j] < |bs| && Emits(bs, lastEnd, EmittedFrom(bs, lastEnd, k)[j])
    ensures forall i, j :: 0 <= i < j < |EmittedFrom(bs, lastEnd, k)| ==>
              EmittedFrom(bs, lastEnd, k)[i] < EmittedFrom(bs, lastEnd, k)[j]
    ensures forall m :: k <= m < |bs| && Emits(bs, lastEnd, m) ==> m in EmittedFrom(bs, lastEnd, k)
  {
    if k < |bs| {
      EmittedExactly(bs, lastEnd, k + 1);
      var rest := EmittedFrom(bs, lastEnd, k + 1);
      if Emits(bs, lastEnd, k) {
        var ks := [k] + rest;
        assert EmittedFrom(bs, lastEnd, k) == ks;
        assert forall j :: 0 < j < |ks| ==> ks[j] == rest[j - 1];
        forall m | k < m < |bs| && Emits(bs, lastEnd, m)
          ensures m in ks
        {
          assert m in rest;
        }
      }
    }
  }

  lemma LabelsDiffer(prefix: string, a: nat, b: nat)
    requires a != b
    ensures prefix + Show(a) != prefix + Show(b)
  {
    if prefix + Show(a) == prefix + Show(b) {
      assert Show(a) == (prefix + Show(a))[|prefix|..];
      ShowInjective(a, b);
    }
  }

  lemma LabelsDistinct(prefix: string, ks: seq<nat>)
    requires forall i, j :: 0 <= i < j < |ks| ==> ks[i] < ks[j]
    ensures forall i, j :: 0 <= i < j < |ks| ==> prefix + Show(ks[i]) != prefix + Show(ks[j])
  {
    forall i, j | 0 <= i < j < |ks|
      ensures prefix + Show(ks[i]) != prefix + Show(ks[j])
    {
      LabelsDiffer(prefix, ks[i], ks[j]);
    }
  }

  /** The second detection pass: one definition per emitted window, in
      start-point order: never more windows than start points, every window
      non-empty with duration end - start, and the labels distinct. */
  function DefineWindows(prefix: string, bs: seq<Boundary>, lastEnd: Option<real>): (defs: seq<ExchangeDef>)
    ensures |defs| <= |bs|
    ensures forall i :: 0 <= i < |defs| ==>
              defs[i].end > defs[i].start && defs[i].duration == defs[i].end - defs[i].start
    ensures forall i, j :: 0 <= i < j < |defs| ==> defs[i].id != defs[j].id
  {
    var ks := EmittedFrom(bs, lastEnd, 0);
    EmittedExactly(bs, lastEnd, 0);
    LabelsDistinct(prefix, ks);
    seq(|ks|, i requires 0 <= i < |ks| => WindowDef(prefix, bs, lastEnd, ks[i]))
  }

  /** Each definition is the window of some start point; conversely every
      start point whose end is known and later yields its window. */
  lemma {:induction false} WindowsFaithful(prefix: string, bs: seq<Boundary>, lastEnd: Option<real>)
    ensures forall i :: 0 <= i < |DefineWindows(prefix, bs, lastEnd)| ==>
              exists k :: 0 <= k < |bs| && Emits(bs, lastEnd, k)
                && DefineWindows(prefix, bs, lastEnd)[i] == WindowDef(prefix, bs, lastEnd, k)
    ensures forall k :: 0 <= k < |bs| && Emits(bs, lastEnd, k) ==>
              WindowDef(prefix, bs, lastEnd, k) in DefineWindows(prefix, bs, lastEnd)
  {
    var ks := EmittedFrom(bs, lastEnd, 0);
    EmittedExactly(bs, lastEnd, 0);
    var defs := DefineWindows(prefix, bs, lastEnd);
    forall i | 0 <= i < |defs|
      ensures exists k :: 0 <= k < |bs| && Emits(bs, lastEnd, k) && defs[i] == WindowDef(prefix, bs, lastEnd, k)
    {
      assert defs[i] == WindowDef(prefix, bs, lastEnd, ks[i]);
    }
    assert forall i :: 0 <= i < |defs| ==>
      exists k :: 0 <= k < |bs| && Emits(bs, lastEnd, k) && defs[i] == WindowDef(prefix, bs, lastEnd, k);
    forall k | 0 <= k < |bs| && Emits(bs, lastEnd, k)
      ensures WindowDef(prefix, bs, lastEnd, k) in defs
    {
      var j :| 0 <= j < |ks| && ks[j] == k;
      assert defs[j] == WindowDef(prefix, bs, lastEnd, k);
    }
  }

  /** Start points strictly increasing in time. */
  predicate Increasing(bs: seq<Boundary>) {
    forall i :: 0 <= i < |bs| - 1 ==> bs[i].start < bs[i + 1].start
  }

  lemma {:induction false} AllEmitted(bs: seq<Boundary>, lastEnd: Option<real>, k: nat)
    requires k <= |bs|
    requires forall m :: k <= m < |bs| ==> Emits(bs, lastEnd, m)
    decreases |bs| - k
    ensures |EmittedFrom(bs, lastEnd, k)| == |bs| - k
    ensures forall j :: 0 <= j < |bs| - k ==> EmittedFrom(bs, lastEnd, k)[j] == k + j
  {
    if k < |bs| {
      AllEmitted(bs, lastEnd, k + 1);
      var rest := EmittedFrom(bs, lastEnd, k + 1);
      assert Emits(bs, lastEnd, k);
      assert EmittedFrom(bs, lastEnd, k) == [k] + rest;
    }
  }

  /** When the start points increase and the transcript ends after the last
      one, the windows tile the span from the first start point to the end
      of the transcript: one window per start point, labelled by its
      position, each ending where the next begins. */
  lemma {:induction false} Tiles(prefix: string, bs: seq<Boundary>, e: real)
    requires |bs| > 0 && Increasing(bs) && e > bs[|bs| - 1].start
    ensures var defs := DefineWindows(prefix, bs, Some(e));
      |defs| == |bs| && defs[|bs| - 1].end == e
      && (forall k :: 0 <= k < |bs| ==> defs[k].id == prefix + Show(k) && defs[k].start == bs[k].start)
      && (forall k :: 0 <= k < |bs| - 1 ==> defs[k].end == defs[k + 1].start)
  {
    forall m | 0 <= m < |bs|
      ensures Emits(bs, Some(e), m)
    {
      if m + 1 < |bs| {
        assert bs[m].start < bs[m + 1].start;
      }
    }
    AllEmitted(bs, Some(e), 0);
    var ks := EmittedFrom(bs, Some(e), 0);
    var defs := DefineWindows(prefix, bs, Some(e));
    assert forall k :: 0 <= k < |bs| ==> defs[k] == WindowDef(prefix, bs, Some(e), k);
  }
}

=== FILE: video_steps.dfy ===
/** The video-level tasks after the download: extracting the audio track,
    transcribing it, diarizing it, and identifying the long exchanges. The
    audio, transcript and diarization tasks exist in both the task modules
    and the pipeline module; exchange identification differs between them
    (speaker changes in the task modules, transcript markers in the
    pipeline module). The engines are parameters: their outcome is given,
    not computed. */
module VideoSteps {
  import opened Base
  import opened Segments
  import opened ErrorText
  import opened Store
  import opened TaskCommon
  import opened Media
  import opened Alignment
  import opened SpeakerChange
  import opened Markers

  function StepOf(db: Db, vid: nat, s: Step): Slot
    requires vid in db.videos
  {
    db.videos[vid].steps.Get(s)
  }

  // ---------------------------------------------------------------------------
  // What a step task may write
  // ---------------------------------------------------------------------------

  /** The row with the slot and the result column of `s` blanked: what a
      task working on step `s` leaves as it was. */
  function RestOf(x: Video, s: Step): Video {
    x.(steps := x.steps.Set(s, Fresh),
       audioPath := if s == Audio then None else x.audioPath,
       transcript := if s == Transcript then None else x.transcript,
       fullDiarization := if s == Diarization then None else x.fullDiarization)
  }

  /** `b` is `a` with at most row `vid` changed, and there only in the slot
      and result column of `s`. */
  predicate VideosFrame(a: map<nat, Video>, b: map<nat, Video>, vid: nat, s: Step) {
    b.Keys == a.Keys
    && (forall v :: v in a && v != vid ==> b[v] == a[v])
    && (vid in a ==> RestOf(b[vid], s) == RestOf(a[vid], s))
  }

  /** Only step `s` of video `vid` changed; the exchanges are untouched. */
  predicate OnlyStep(db: Db, r: Db, vid: nat, s: Step) {
    r.exchanges == db.exchanges && r.nextVideo == db.nextVideo && r.nextExchange == db.nextExchange
    && VideosFrame(db.videos, r.videos, vid, s)
  }

  lemma StepsSetTwice(steps: StepSlots, s: Step, a: Slot, b: Slot)
    ensures steps.Set(s, a).Set(s, b) == steps.Set(s, b)
  {
  }

  /** The other columns read the same after a write to step `s`. */
  lemma RestOfKeepsOthers(x: Video, y: Video, s: Step)
    requires RestOf(x, s) == RestOf(y, s)
    ensures x.filePath == y.filePath && x.generatedClips == y.generatedClips
    ensures forall t :: t != s ==> x.steps.Get(t) == y.steps.Get(t)
    ensures s != Audio ==> x.audioPath == y.audioPath
    ensures s != Transcript ==> x.transcript == y.transcript
    ensures s != Diarization ==> x.fullDiarization == y.fullDiarization
  {
    assert forall t :: t != s ==> x.steps.Get(t) == x.steps.Set(s, Fresh).Get(t) == RestOf(x, s).steps.Get(t);
    assert forall t :: t != s ==> y.steps.Get(t) == y.steps.Set(s, Fresh).Get(t) == RestOf(y, s).steps.Get(t);
  }

  /** The same, for the row a frame allows to change. */
  lemma FrameKeepsVideo(a: map<nat, Video>, b: map<nat, Video>, vid: nat, s: Step)
    requires VideosFrame(a, b, vid, s)
    ensures vid in a ==>
              (b[vid].filePath == a[vid].filePath
               && (forall t :: t != s ==> b[vid].steps.Get(t) == a[vid].steps.Get(t))
               && (s != Audio ==> b[vid].audioPath == a[vid].audioPath)
               && (s != Transcript ==> b[vid].transcript == a[vid].transcript)
               && (s != Diarization ==> b[vid].fullDiarization == a[vid].fullDiarization))
  {
    if vid in a {
      RestOfKeepsOthers(b[vid], a[vid], s);
    }
  }

  lemma {:induction false} VideosFrameTrans(a: map<nat, Video>, b: map<nat, Video>, c: map<nat, Video>, vid: nat, s: Step)
    requires VideosFrame(a, b, vid, s) && VideosFrame(b, c, vid, s)
    ensures VideosFrame(a, c, vid, s)
  {
  }

  /** `update_video_step_status` on step `s`. */
  function SetStep(db: Db, vid: nat, s: Step, status: Status, msg: Option<string>): (r: Db)
    ensures OnlyStep(db, r, vid, s)
    ensures vid in db.videos ==> r.videos[vid] == db.videos[vid].(steps := db.videos[vid].steps.Set(s, Slot(status, StoredError(status, msg))))
    ensures vid !in db.videos ==> r == db
    ensures Valid(db) ==> Valid(r)
  {
    StepNameRoundTrip(s);
    var steps := if vid in db.videos then db.videos[vid].steps else FreshSteps;
    StepsSetTwice(steps, s, Slot(status, StoredError(status, msg)), Fresh);
    UpdateStepStatus(db, vid, StepName(s), status, msg).0
  }

  /** `update_video_audio_path`. */
  function StoreAudioPath(db: Db, vid: nat, p: Option<string>): (r: Db)
    ensures OnlyStep(db, r, vid, Audio)
    ensures vid in db.videos ==> r.videos[vid] == db.videos[vid].(audioPath := p)
    ensures vid !in db.videos ==> r == db
    ensures Valid(db) ==> Valid(r)
  {
    SetAudioPath(db, vid, p)
  }

  /** `update_video_step_result` for the transcript. */
  function StoreTranscript(db: Db, vid: nat, t: Option<seq<TranscriptSeg>>): (r: Db)
    ensures OnlyStep(db, r, vid, Transcript)
    ensures vid in db.videos ==> r.videos[vid] == db.videos[vid].(transcript := t)
    ensures vid !in db.videos ==> r == db
    ensures Valid(db) ==> Valid(r)
  {
    SetTranscript(db, vid, t)
  }

  /** `update_video_step_result` for the full diarization. */
  function StoreDiarization(db: Db, vid: nat, d: Option<seq<DiarSeg>>): (r: Db)
    ensures OnlyStep(db, r, vid, Diarization)
    ensures vid in db.videos ==> r.videos[vid] == db.videos[vid].(fullDiarization := d)
    ensures vid !in db.videos ==> r == db
    ensures Valid(db) ==> Valid(r)
  {
    SetFullDiarization(db, vid, d)
  }

  /** The Running mark of a variant's attempt. */
  function BeginStep(db: Db, vid: nat, s: Step, v: Variant, retries: nat): (r: Db)
    ensures OnlyStep(db, r, vid, s)
    ensures vid in db.videos ==>
              (r.videos[vid].audioPath == db.videos[vid].audioPath
               && r.videos[vid].transcript == db.videos[vid].transcript
               && r.videos[vid].fullDiarization == db.videos[vid].fullDiarization)
    ensures Valid(db) ==> Valid(r)
  {
    if MarksRunning(v, retries) then SetStep(db, vid, s, Running, None) else db
  }

  /** The failure path of every step task: Error with the handler's message
      and, when `clear` is set, the step's result column cleared. */
  function FailStep(db: Db, vid: nat, s: Step, msg: string, clear: bool): (r: Db)
    requires |msg| > 0
    ensures OnlyStep(db, r, vid, s)
    ensures vid in db.videos ==>
              (StepOf(r, vid, s).status == Error && StepOf(r, vid, s).error.Some?
               && (clear && s == Transcript ==> r.videos[vid].transcript.None?)
               && (clear && s == Diarization ==> r.videos[vid].fullDiarization.None?)
               && (!clear || s == Audio ==> r.videos[vid] == db.videos[vid].(steps := r.videos[vid].steps)))
    ensures vid !in db.videos ==> r == db
    ensures Valid(db) ==> Valid(r)
  {
    var db1 := SetStep(db, vid, s, Error, Some(msg));
    var r := if !clear then db1
      else match s
        case Transcript => StoreTranscript(db1, vid, None)
        case Diarization => StoreDiarization(db1, vid, None)
        case _ => db1;
    VideosFrameTrans(db.videos, db1.videos, r.videos, vid, s);
    r
  }

  /** `_get_required_path` fails with a ValueError: there is no row or no
      recorded path. Otherwise it fails with a RuntimeError. */
  predicate PathMissing(db: Db, vid: nat, audio: bool) {
    vid !in db.videos || RecordedPath(db.videos[vid], audio).None? || RecordedPath(db.videos[vid], audio).value == []
  }

  /** How a task-module run ends when `_get_required_path` fails: dropped
      for a missing path, handed back for retrying otherwise. */
  function PathEnding(db: Db, vid: nat, audio: bool): Ending {
    Raising(if PathMissing(db, vid, audio) then Ignore else RuntimeError)
  }

  // ---------------------------------------------------------------------------
  // Audio extraction
  // ---------------------------------------------------------------------------

  /** The cached audio's file name. */
  const AudioCacheName: string := "audio_16khz_mono.wav"

  /** Where the audio is cached: next to the video file. */
  function AudioCachePath(videoPath: string): (p: string)
    ensures Dirname(p) == Dirname(videoPath)
  {
    DirnameOfJoin(Dirname(videoPath), AudioCacheName);
    PathJoin(Dirname(videoPath), AudioCacheName)
  }

  /** The audio step ends Complete: the video file is usable, and either a
      non-empty cached audio file exists or the extraction succeeds
      (`extractionError` is None). */
  predicate AudioSucceeds(db: Db, vid: nat, disk: FileState, cacheHit: bool, extractionError: Option<string>) {
    RequiredPath(db, vid, false, disk).Ok? && (cacheHit || extractionError.None?)
  }

  /** `extract_audio_task`: `disk` is the state of the video file, `cacheHit`
      whether a non-empty cached audio file exists, and `extractionError`
      the extractor's error when it fails. */
  function AudioTask(db: Db, vid: nat, v: Variant, retries: nat, disk: FileState, cacheHit: bool,
                     extractionError: Option<string>, trace: Trace): (r: Run)
    ensures OnlyStep(db, r.db, vid, Audio)
    ensures Valid(db) ==> Valid(r.db)
    ensures vid in db.videos ==>
              (StepOf(r.db, vid, Audio).status == Complete <==> AudioSucceeds(db, vid, disk, cacheHit, extractionError))
    ensures vid !in db.videos ==> r.db == db
    ensures v == Pipeline ==> r.ending == Finished
  {
    var db1 := BeginStep(db, vid, Audio, v, retries);
    FrameKeepsVideo(db.videos, db1.videos, vid, Audio);
    assert RequiredPath(db1, vid, false, disk) == RequiredPath(db, vid, false, disk);
    var r := match RequiredPath(db1, vid, false, disk)
      case Err(_) =>
        var h := Handle(v, PathError(db1, vid, false, disk, trace), retries);
        Run(FailStep(db1, vid, Audio, h.stored, false), h.ending)
      case Ok(videoPath) =>
        var cache := AudioCachePath(videoPath);
        if cacheHit then
          var db2 := if db1.videos[vid].audioPath != Some(cache) then StoreAudioPath(db1, vid, Some(cache)) else db1;
          Run(SetStep(db2, vid, Audio, Complete, None), Finished)
        else if extractionError.Some? then
          var h := Handle(v, Raised(RuntimeError, "Audio Extraction Failed: " + extractionError.value, trace), retries);
          Run(FailStep(db1, vid, Audio, h.stored, false), h.ending)
        else
          Run(SetStep(StoreAudioPath(db1, vid, Some(cache)), vid, Audio, Complete, None), Finished);
    VideosFrameTrans(db.videos, db1.videos, r.db.videos, vid, Audio);
    r
  }

  /** A successful run records the cache path, which lies in the video
      file's directory. */
  lemma AudioRecordsCachePath(db: Db, vid: nat, v: Variant, retries: nat, disk: FileState, cacheHit: bool,
                              extractionError: Option<string>, trace: Trace)
    requires AudioSucceeds(db, vid, disk, cacheHit, extractionError)
    ensures var r := AudioTask(db, vid, v, retries, disk, cacheHit, extractionError, trace);
      var videoPath := db.videos[vid].filePath.value;
      r.ending == Finished && StepOf(r.db, vid, Audio) == Slot(Complete, None)
      && r.db.videos[vid].audioPath == Some(AudioCachePath(videoPath))
      && Dirname(r.db.videos[vid].audioPath.value) == Dirname(videoPath)
  {
  }

  /** A failed run sets Error with a message and leaves the recorded audio
      path as it was; in the task modules a missing video path drops the
      task and every other failure is handed back for retrying. */
  lemma AudioFailureKeepsPath(db: Db, vid: nat, v: Variant, retries: nat, disk: FileState, cacheHit: bool,
                              extractionError: Option<string>, trace: Trace)
    requires vid in db.videos && !AudioSucceeds(db, vid, disk, cacheHit, extractionError)
    ensures var r := AudioTask(db, vid, v, retries, disk, cacheHit, extractionError, trace);
      StepOf(r.db, vid, Audio).status == Error && StepOf(r.db, vid, Audio).error.Some?
      && r.db.videos[vid].audioPath == db.videos[vid].audioPath
      && (v == Tasks ==> r.ending == PathEnding(db, vid, false))
  {
    var db1 := BeginStep(db, vid, Audio, v, retries);
    FrameKeepsVideo(db.videos, db1.videos, vid, Audio);
    assert RequiredPath(db1, vid, false, disk) == RequiredPath(db, vid, false, disk);
    assert PathMissing(db1, vid, false) == PathMissing(db, vid, false);
  }

  /** With a usable cached file, the extractor's outcome does not matter. */
  lemma AudioCacheSkipsExtraction(db: Db, vid: nat, v: Variant, retries: nat, disk: FileState,
                                  e1: Option<string>, e2: Option<string>, trace: Trace)
    ensures AudioTask(db, vid, v, retries, disk, true, e1, trace) == AudioTask(db, vid, v, retries, disk, true, e2, trace)
  {
  }

  // ---------------------------------------------------------------------------
  // Transcription
  // ---------------------------------------------------------------------------

  /** What the transcript cache next to the audio file holds: nothing
      usable, a list of segments, or something that is not a list of
      objects. */
  datatype TranscriptCache = NoCache | CachedList(segs: seq<TranscriptSeg>) | CachedUnusable

  /** What the transcription engine returns. */
  datatype Transcription = Transcribed(segs: seq<TranscriptSeg>) | TranscriptionFailed(err: string)

  predicate TranscriptSucceeds(db: Db, vid: nat, disk: FileState, cache: TranscriptCache, engine: Transcription) {
    RequiredPath(db, vid, true, disk).Ok? && (cache.CachedList? || engine.Transcribed?)
  }

  /** The segments stored: the cached ones when usable, else the engine's. */
  function TranscriptOf(cache: TranscriptCache, engine: Transcription): seq<TranscriptSeg>
    requires cache.CachedList? || engine.Transcribed?
  {
    if cache.CachedList? then cache.segs else engine.segs
  }

  /** `transcribe_task`. On failure the pipeline module clears the stored
      transcript; the task modules clear it only once a transcript was
      loaded or produced, which no failing run reaches. */
  function TranscriptTask(db: Db, vid: nat, v: Variant, retries: nat, disk: FileState, cache: TranscriptCache,
                          engine: Transcription, trace: Trace): (r: Run)
    ensures OnlyStep(db, r.db, vid, Transcript)
    ensures Valid(db) ==> Valid(r.db)
    ensures vid in db.videos ==>
              (StepOf(r.db, vid, Transcript).status == Complete <==> TranscriptSucceeds(db, vid, disk, cache, engine))
    ensures vid !in db.videos ==> r.db == db
    ensures v == Pipeline ==> r.ending == Finished
  {
    var db1 := BeginStep(db, vid, Transcript, v, retries);
    FrameKeepsVideo(db.videos, db1.videos, vid, Transcript);
    assert RequiredPath(db1, vid, true, disk) == RequiredPath(db, vid, true, disk);
    var r := match RequiredPath(db1, vid, true, disk)
      case Err(_) =>
        var h := Handle(v, PathError(db1, vid, true, disk, trace), retries);
        Run(FailStep(db1, vid, Transcript, h.stored, v == Pipeline), h.ending)
      case Ok(_) =>
        if cache.CachedList? || engine.Transcribed? then
          Run(SetStep(StoreTranscript(db1, vid, Some(TranscriptOf(cache, engine))), vid, Transcript, Complete, None), Finished)
        else
          var h := Handle(v, Raised(RuntimeError, "Transcription Failed: " + engine.err, trace), retries);
          Run(FailStep(db1, vid, Transcript, h.stored, v == Pipeline), h.ending);
    VideosFrameTrans(db.videos, db1.videos, r.db.videos, vid, Transcript);
    r
  }

  /** A successful run stores the cached segments when the cache is usable
      and the engine's otherwise. */
  lemma TranscriptStoresSegments(db: Db, vid: nat, v: Variant, retries: nat, disk: FileState, cache: TranscriptCache,
                                 engine: Transcription, trace: Trace)
    requires TranscriptSucceeds(db, vid, disk, cache, engine)
    ensures var r := TranscriptTask(db, vid, v, retries, disk, cache, engine, trace);
      r.ending == Finished && StepOf(r.db, vid, Transcript) == Slot(Complete, None)
      && r.db.videos[vid].transcript == Some(TranscriptOf(cache, engine))
  {
  }

  /** With a usable cache, the engine's outcome does not matter. */
  lemma TranscriptCacheSkipsEngine(db: Db, vid: nat, v: Variant, retries: nat, disk: FileState,
                                   segs: seq<TranscriptSeg>, e1: Transcription, e2: Transcription, trace: Trace)
    ensures TranscriptTask(db, vid, v, retries, disk, CachedList(segs), e1, trace)
            == TranscriptTask(db, vid, v, retries, disk, CachedList(segs), e2, trace)
  {
  }

  /** A failed run sets Error with a message; the pipeline module clears
      the stored transcript and the task modules keep it. */
  lemma TranscriptFailureVariants(db: Db, vid: nat, v: Variant, retries: nat, disk: FileState, cache: TranscriptCache,
                                  engine: Transcription, trace: Trace)
    requires vid in db.videos && !TranscriptSucceeds(db, vid, disk, cache, engine)
    ensures var r := TranscriptTask(db, vid, v, retries, disk, cache, engine, trace);
      StepOf(r.db, vid, Transcript).status == Error && StepOf(r.db, vid, Transcript).error.Some?
      && (v == Pipeline ==> r.db.videos[vid].transcript.None?)
      && (v == Tasks ==> r.db.videos[vid].transcript == db.videos[vid].transcript && r.ending == PathEnding(db, vid, true))
      && r.db.videos[vid].audioPath == db.videos[vid].audioPath
  {
    var db1 := BeginStep(db, vid, Transcript, v, retries);
    FrameKeepsVideo(db.videos, db1.videos, vid, Transcript);
    assert RequiredPath(db1, vid, true, disk) == RequiredPath(db, vid, true, disk);
    assert PathMissing(db1, vid, true) == PathMissing(db, vid, true);
  }

  // ---------------------------------------------------------------------------
  // Full-audio diarization
  // ---------------------------------------------------------------------------

  /** What the diarization engine returns: the speaker turns, a failure, or
      success without a JSON result. */
  datatype DiarizationOutcome = Diarized(turns: seq<DiarSeg>) | DiarizationFailed(err: string) | NoJsonResult

  predicate DiarizationSucceeds(db: Db, vid: nat, disk: FileState, engine: DiarizationOutcome) {
    RequiredPath(db, vid, true, disk).Ok? && engine.Diarized?
  }

  /** The class raised for a success without a JSON result: a ValueError in
      the task modules, a RuntimeError in the pipeline module. */
  function NoJsonClass(v: Variant): ExcClass {
    if v == Tasks then ValueError else RuntimeError
  }

  /** `diarize_full_audio_task`: every failure sets Error and clears the
      stored turns. */
  function DiarizationTask(db: Db, vid: nat, v: Variant, retries: nat, disk: FileState, engine: DiarizationOutcome,
                           trace: Trace): (r: Run)
    ensures OnlyStep(db, r.db, vid, Diarization)
    ensures Valid(db) ==> Valid(r.db)
    ensures vid in db.videos ==>
              (StepOf(r.db, vid, Diarization).status == Complete <==> DiarizationSucceeds(db, vid, disk, engine))
    ensures vid !in db.videos ==> r.db == db
    ensures v == Pipeline ==> r.ending == Finished
  {
    var db1 := BeginStep(db, vid, Diarization, v, retries);
    FrameKeepsVideo(db.videos, db1.videos, vid, Diarization);
    assert RequiredPath(db1, vid, true, disk) == RequiredPath(db, vid, true, disk);
    var r := match RequiredPath(db1, vid, true, disk)
      case Err(_) =>
        var h := Handle(v, PathError(db1, vid, true, disk, trace), retries);
        Run(FailStep(db1, vid, Diarization, h.stored, true), h.ending)
      case Ok(_) =>
        match engine
        case Diarized(turns) =>
          Run(SetStep(StoreDiarization(db1, vid, Some(turns)), vid, Diarization, Complete, None), Finished)
        case DiarizationFailed(err) =>
          var h := Handle(v, Raised(RuntimeError, "Diarization Failed: " + err, trace), retries);
          Run(FailStep(db1, vid, Diarization, h.stored, true), h.ending)
        case NoJsonResult =>
          var h := Handle(v, Raised(NoJsonClass(v), "Diarization successful but failed to produce valid JSON result.", trace), retries);
          Run(FailStep(db1, vid, Diarization, h.stored, true), h.ending);
    VideosFrameTrans(db.videos, db1.videos, r.db.videos, vid, Diarization);
    r
  }

  lemma DiarizationStoresTurns(db: Db, vid: nat, v: Variant, retries: nat, disk: FileState, engine: DiarizationOutcome,
                               trace: Trace)
    requires DiarizationSucceeds(db, vid, disk, engine)
    ensures var r := DiarizationTask(db, vid, v, retries, disk, engine, trace);
      r.ending == Finished && StepOf(r.db, vid, Diarization) == Slot(Complete, None)
      && r.db.videos[vid].fullDiarization == Some(engine.turns)
  {
  }

  /** A run whose path check fails sets Error with a message and clears
      the turns; the task modules end it as the path check prescribes. */
  lemma DiarizationPathFailure(db: Db, vid: nat, v: Variant, retries: nat, disk: FileState,
                               engine: DiarizationOutcome, trace: Trace)
    requires vid in db.videos && RequiredPath(db, vid, true, disk).Err?
    ensures var r := DiarizationTask(db, vid, v, retries, disk, engine, trace);
      StepOf(r.db, vid, Diarization).status == Error && StepOf(r.db, vid, Diarization).error.Some?
      && r.db.videos[vid].fullDiarization.None?
      && (v == Tasks ==> r.ending == PathEnding(db, vid, true))
  {
    var db1 := BeginStep(db, vid, Diarization, v, retries);
    FrameKeepsVideo(db.videos, db1.videos, vid, Diarization);
    assert RequiredPath(db1, vid, true, disk) == RequiredPath(db, vid, true, disk);
    assert PathMissing(db1, vid, true) == PathMissing(db, vid, true);
  }

  /** A run whose engine fails sets Error with a message and clears the
      turns; the task modules hand an engine failure back for retrying and
      drop a run without a JSON result. */
  lemma DiarizationEngineFailure(db: Db, vid: nat, v: Variant, retries: nat, disk: FileState,
                                 engine: DiarizationOutcome, trace: Trace)
    requires vid in db.videos && RequiredPath(db, vid, true, disk).Ok? && !engine.Diarized?
    ensures var r := DiarizationTask(db, vid, v, retries, disk, engine, trace);
      StepOf(r.db, vid, Diarization).status == Error && StepOf(r.db, vid, Diarization).error.Some?
      && r.db.videos[vid].fullDiarization.None?
      && (v == Tasks ==> r.ending == (if engine.NoJsonResult? then Raising(Ignore) else Raising(RuntimeError)))
  {
    var db1 := BeginStep(db, vid, Diarization, v, retries);
    FrameKeepsVideo(db.videos, db1.videos, vid, Diarization);
    assert RequiredPath(db1, vid, true, disk) == RequiredPath(db, vid, true, disk);
  }

  /** A failed run sets Error with a message and clears the turns; in the
      task modules an engine failure is handed back for retrying while a
      missing JSON result drops the task. */
  lemma DiarizationFailureClearsResult(db: Db, vid: nat, v: Variant, retries: nat, disk: FileState,
                                       engine: DiarizationOutcome, trace: Trace)
    requires vid in db.videos && !DiarizationSucceeds(db, vid, disk, engine)
    ensures var r := DiarizationTask(db, vid, v, retries, disk, engine, trace);
      StepOf(r.db, vid, Diarization).status == Error && StepOf(r.db, vid, Diarization).error.Some?
      && r.db.videos[vid].fullDiarization.None?
      && (v == Tasks ==>
            r.ending == (if RequiredPath(db, vid, true, disk).Err? then PathEnding(db, vid, true)
                         else if engine.NoJsonResult? then Raising(Ignore)
                         else Raising(RuntimeError)))
  {
    if RequiredPath(db, vid, true, disk).Err? {
      DiarizationPathFailure(db, vid, v, retries, disk, engine, trace);
    } else {
      DiarizationEngineFailure(db, vid, v, retries, disk, engine, trace);
    }
  }

  // ---------------------------------------------------------------------------
  // Regenerating the automatically detected exchanges
  // ---------------------------------------------------------------------------

  /** A detected exchange as handed to `add_long_exchanges`: every key present. */
  function CandidateOf(d: ExchangeDef): (c: Candidate)
    ensures Usable(c) && c.id.value == d.id
  {
    Candidate(Some(d.id), Some(d.start), Some(d.end), d.marker)
  }

  function Candidates(defs: seq<ExchangeDef>): (cs: seq<Candidate>)
    ensures |cs| == |defs| && forall i :: 0 <= i < |defs| ==> cs[i] == CandidateOf(defs[i])
  {
    seq(|defs|, i requires 0 <= i < |defs| => CandidateOf(defs[i]))
  }

  /** Some definition carries this label. */
  predicate Labelled(defs: seq<ExchangeDef>, name: string) {
    exists i :: 0 <= i < |defs| && defs[i].id == name
  }

  /** Clear the video's auto exchanges, then insert the definitions, if
      any, as auto exchanges; the flag is `add_long_exchanges`'s verdict. */
  function Regenerate(db: Db, vid: nat, defs: seq<ExchangeDef>): (r: (Db, bool))
    requires Valid(db)
    ensures Valid(r.0) && r.0.videos == db.videos
  {
    var db1 := ClearExchanges(db, vid, Some("auto"));
    if defs == [] then (db1, true) else AddLongExchanges(db1, vid, Candidates(defs))
  }

  /** The exchange table after regeneration: each definition is stored as
      an auto row, every auto row of the video is one of them, other
      videos' rows are untouched, and so are the video's manual rows whose
      label no definition takes. */
  predicate Regenerated(before: map<nat, Exchange>, after: map<nat, Exchange>, vid: nat, defs: seq<ExchangeDef>) {
    (forall i :: 0 <= i < |defs| ==> HasRow(after, AutoRow(vid, CandidateOf(defs[i]))))
    && (forall x :: x in after && after[x].videoId == vid && after[x].kind == Auto ==>
          exists i :: 0 <= i < |defs| && after[x] == AutoRow(vid, CandidateOf(defs[i])))
    && (forall x :: x in before && before[x].videoId != vid ==> x in after && after[x] == before[x])
    && (forall x :: x in after && after[x].videoId != vid ==> x in before && after[x] == before[x])
    && (forall x :: x in before && before[x].videoId == vid && before[x].kind == Manual && !Labelled(defs, before[x].exchangeLabel) ==>
          x in after && after[x] == before[x])
  }

  lemma MentionedIsLabelled(defs: seq<ExchangeDef>, name: string)
    ensures Mentioned(Candidates(defs), name) <==> Labelled(defs, name)
  {
    var cs := Candidates(defs);
    if Labelled(defs, name) {
      var i :| 0 <= i < |defs| && defs[i].id == name;
      assert Usable(cs[i]) && cs[i].id.value == name;
    }
  }

  /** The insertion step of a regeneration with at least one definition. */
  predicate Inserting(db: Db, vid: nat, defs: seq<ExchangeDef>) {
    Valid(db) && vid in db.videos && defs != []
    && forall i, j :: 0 <= i < j < |defs| ==> defs[i].id != defs[j].id
  }

  /** Inserting the definitions succeeds and stores each as an auto row. */
  lemma InsertionStoresDefs(db: Db, vid: nat, defs: seq<ExchangeDef>)
    requires Inserting(db, vid, defs)
    ensures var r := AddLongExchanges(db, vid, Candidates(defs));
      r.1 && forall i :: 0 <= i < |defs| ==> HasRow(r.0.exchanges, AutoRow(vid, CandidateOf(defs[i])))
  {
    var cs := Candidates(defs);
    var r := AddLongExchanges(db, vid, cs);
    AddLongExchangesStores(db, vid, cs, 0);
    forall i | 0 <= i < |defs|
      ensures HasRow(r.0.exchanges, AutoRow(vid, CandidateOf(defs[i])))
    {
      AddLongExchangesStores(db, vid, cs, i);
    }
  }

  /** After insertion, a row of the video whose label no definition takes
      is one that was there before, and every such row is still there. */
  lemma InsertionKeepsUnlabelled(db: Db, vid: nat, defs: seq<ExchangeDef>)
    requires Inserting(db, vid, defs)
    ensures var r := AddLongExchanges(db, vid, Candidates(defs)).0;
      (forall x :: x in r.exchanges && !(r.exchanges[x].videoId == vid && Labelled(defs, r.exchanges[x].exchangeLabel)) ==>
         x in db.exchanges && r.exchanges[x] == db.exchanges[x])
      && (forall x :: x in db.exchanges && !(db.exchanges[x].videoId == vid && Labelled(defs, db.exchanges[x].exchangeLabel)) ==>
         x in r.exchanges && r.exchanges[x] == db.exchanges[x])
  {
    var r := AddLongExchanges(db, vid, Candidates(defs)).0;
    forall x | x in r.exchanges && !(r.exchanges[x].videoId == vid && Labelled(defs, r.exchanges[x].exchangeLabel))
      ensures x in db.exchanges && r.exchanges[x] == db.exchanges[x]
    {
      MentionedIsLabelled(defs, r.exchanges[x].exchangeLabel);
    }
    forall x | x in db.exchanges && !(db.exchanges[x].videoId == vid && Labelled(defs, db.exchanges[x].exchangeLabel))
      ensures x in r.exchanges && r.exchanges[x] == db.exchanges[x]
    {
      assert SameKey(r.exchanges[x], db.exchanges[x]);
      MentionedIsLabelled(defs, r.exchanges[x].exchangeLabel);
    }
  }

  /** After insertion into a table with no auto row for the video, every
      auto row of the video is one of the definitions. */
  lemma InsertionAutoRowsAreDefs(db: Db, vid: nat, defs: seq<ExchangeDef>)
    requires Inserting(db, vid, defs)
    requires forall x :: x in db.exchanges ==> !(db.exchanges[x].videoId == vid && db.exchanges[x].kind == Auto)
    ensures var r := AddLongExchanges(db, vid, Candidates(defs)).0;
      forall x :: x in r.exchanges && r.exchanges[x].videoId == vid && r.exchanges[x].kind == Auto ==>
        exists i :: 0 <= i < |defs| && r.exchanges[x] == AutoRow(vid, CandidateOf(defs[i]))
  {
    var cs := Candidates(defs);
    var r := AddLongExchanges(db, vid, cs).0;
    InsertionKeepsUnlabelled(db, vid, defs);
    forall x | x in r.exchanges && r.exchanges[x].videoId == vid && r.exchanges[x].kind == Auto
      ensures exists i :: 0 <= i < |defs| && r.exchanges[x] == AutoRow(vid, CandidateOf(defs[i]))
    {
      var name := r.exchanges[x].exchangeLabel;
      assert Labelled(defs, name);
      var i :| 0 <= i < |defs| && defs[i].id == name;
      AddLongExchangesStores(db, vid, cs, i);
    }
  }

  /** For definitions with distinct labels, regeneration succeeds and
      replaces the video's auto exchanges by exactly those definitions. */
  lemma RegenerationReplacesAuto(db: Db, vid: nat, defs: seq<ExchangeDef>)
    requires Valid(db) && vid in db.videos
    requires forall i, j :: 0 <= i < j < |defs| ==> defs[i].id != defs[j].id
    ensures Regenerate(db, vid, defs).1
    ensures Regenerated(db.exchanges, Regenerate(db, vid, defs).0.exchanges, vid, defs)
  {
    var db1 := ClearExchanges(db, vid, Some("auto"));
    if defs != [] {
      InsertionStoresDefs(db1, vid, defs);
      InsertionKeepsUnlabelled(db1, vid, defs);
      InsertionAutoRowsAreDefs(db1, vid, defs);
    }
  }

  // ---------------------------------------------------------------------------
  // Exchange identification by speaker change (task modules)
  // ---------------------------------------------------------------------------

  /** Transcript and diarization steps Complete and both results stored. */
  predicate SpeakerInputsReady(db: Db, vid: nat) {
    vid in db.videos && StepOf(db, vid, Transcript).status == Complete && StepOf(db, vid, Diarization).status == Complete
    && db.videos[vid].transcript.Some? && db.videos[vid].fullDiarization.Some?
  }

  function SpeakerInputs(db: Db, vid: nat, trace: Trace): (r: Checked<(seq<TranscriptSeg>, seq<DiarSeg>)>)
    ensures r.Go? <==> SpeakerInputsReady(db, vid)
    ensures r.Go? ==> r.value == (db.videos[vid].transcript.value, db.videos[vid].fullDiarization.value)
    ensures r.Stop? ==> r.exc.cls == ValueError || r.exc.cls == Ignore
  {
    if vid !in db.videos then Stop(Raised(ValueError, "Video record not found.", trace))
    else
      var x := db.videos[vid];
      if x.steps.transcript.status != Complete then
        Stop(Raised(Ignore, "Prerequisite Failed: Transcript step is not 'Complete'.", trace))
      else if x.steps.diarization.status != Complete then
        Stop(Raised(Ignore, "Prerequisite Failed: Diarization step is not 'Complete'.", trace))
      else if x.transcript.None? then Stop(Raised(ValueError, "Transcript data is missing in DB.", trace))
      else if x.fullDiarization.None? then Stop(Raised(ValueError, "Diarization data is missing in DB.", trace))
      else Go((x.transcript.value, x.fullDiarization.value))
  }

  /** The speaker-change definitions of the aligned transcript. */
  function SpeakerChangeDefs(ts: seq<TranscriptSeg>, ds: seq<DiarSeg>, isWord: WordClass): (defs: seq<ExchangeDef>)
    ensures forall i, j :: 0 <= i < j < |defs| ==> defs[i].id != defs[j].id
    ensures ts == [] ==> defs == []
  {
    SpeakerChangeExchanges(Align(ts, ds, Unknown), isWord)
  }

  /** The step after the exchange table has been written: Complete, or
      Error when `add_long_exchanges` reports failure. */
  function AfterRegeneration(db: Db, vid: nat, v: Variant, ok: bool, retries: nat, trace: Trace): (r: Run)
    ensures OnlyStep(db, r.db, vid, ExchangeId)
    ensures Valid(db) ==> Valid(r.db)
    ensures vid in db.videos ==> (StepOf(r.db, vid, ExchangeId).status == Complete <==> ok)
    ensures ok ==> r.ending == Finished && (vid in db.videos ==> StepOf(r.db, vid, ExchangeId) == Slot(Complete, None))
  {
    if ok then Run(SetStep(db, vid, ExchangeId, Complete, None), Finished)
    else
      var h := Handle(v, Raised(RuntimeError, "DB error adding/updating 'auto' exchange definitions.", trace), retries);
      Run(FailStep(db, vid, ExchangeId, h.stored, false), h.ending)
  }

  /** Regenerate and complete the step, for definitions with distinct labels. */
  function ReplaceAuto(db: Db, vid: nat, defs: seq<ExchangeDef>, v: Variant, retries: nat, trace: Trace): (r: Run)
    requires Valid(db) && vid in db.videos
    requires forall i, j :: 0 <= i < j < |defs| ==> defs[i].id != defs[j].id
    ensures Valid(r.db) && VideosFrame(db.videos, r.db.videos, vid, ExchangeId)
    ensures r.ending == Finished && StepOf(r.db, vid, ExchangeId) == Slot(Complete, None)
    ensures Regenerated(db.exchanges, r.db.exchanges, vid, defs)
  {
    RegenerationReplacesAuto(db, vid, defs);
    var g := Regenerate(db, vid, defs);
    AfterRegeneration(g.0, vid, v, g.1, retries, trace)
  }

  /** `identify_exchanges_task` of the task modules. An empty transcript
      completes the step without touching the exchanges; otherwise the
      transcript is aligned with the turns (never empty, as alignment keeps
      one entry per segment) and the video's auto exchanges are replaced by
      the speaker-change definitions. */
  function IdentifyBySpeakerChange(db: Db, vid: nat, isWord: WordClass, retries: nat, trace: Trace): (r: Run)
    requires Valid(db)
    ensures Valid(r.db)
    ensures VideosFrame(db.videos, r.db.videos, vid, ExchangeId)
    ensures vid in db.videos ==> (StepOf(r.db, vid, ExchangeId).status == Complete <==> SpeakerInputsReady(db, vid))
    ensures !SpeakerInputsReady(db, vid) ==> r.db.exchanges == db.exchanges
  {
    var db1 := BeginStep(db, vid, ExchangeId, Tasks, retries);
    FrameKeepsVideo(db.videos, db1.videos, vid, ExchangeId);
    assert SpeakerInputsReady(db1, vid) == SpeakerInputsReady(db, vid);
    var r := match SpeakerInputs(db1, vid, trace)
      case Stop(e) =>
        var h := Handle(Tasks, e, retries);
        Run(FailStep(db1, vid, ExchangeId, h.stored, false), h.ending)
      case Go(inputs) =>
        if inputs.0 == [] then Run(SetStep(db1, vid, ExchangeId, Complete, None), Finished)
        else
          ReplaceAuto(db1, vid, SpeakerChangeDefs(inputs.0, inputs.1, isWord), Tasks, retries, trace);
    VideosFrameTrans(db.videos, db1.videos, r.db.videos, vid, ExchangeId);
    r
  }

  /** With its inputs in place and a non-empty transcript, the run
      completes and the video's auto exchanges become exactly the
      speaker-change definitions. */
  lemma SpeakerChangeRegenerates(db: Db, vid: nat, isWord: WordClass, retries: nat, trace: Trace)
    requires Valid(db) && SpeakerInputsReady(db, vid) && db.videos[vid].transcript.value != []
    ensures var r := IdentifyBySpeakerChange(db, vid, isWord, retries, trace);
      var defs := SpeakerChangeDefs(db.videos[vid].transcript.value, db.videos[vid].fullDiarization.value, isWord);
      r.ending == Finished && StepOf(r.db, vid, ExchangeId) == Slot(Complete, None)
      && Regenerated(db.exchanges, r.db.exchanges, vid, defs)
  {
    var db1 := BeginStep(db, vid, ExchangeId, Tasks, retries);
    FrameKeepsVideo(db.videos, db1.videos, vid, ExchangeId);
    RegenerationReplacesAuto(db1, vid, SpeakerChangeDefs(db.videos[vid].transcript.value, db.videos[vid].fullDiarization.value, isWord));
  }

  /** An empty transcript completes the step and leaves every exchange,
      automatic or manual, as it was. */
  lemma EmptyTranscriptKeepsExchanges(db: Db, vid: nat, isWord: WordClass, retries: nat, trace: Trace)
    requires Valid(db) && SpeakerInputsReady(db, vid) && db.videos[vid].transcript.value == []
    ensures var r := IdentifyBySpeakerChange(db, vid, isWord, retries, trace);
      r.ending == Finished && StepOf(r.db, vid, ExchangeId) == Slot(Complete, None) && r.db.exchanges == db.exchanges
  {
    var db1 := BeginStep(db, vid, ExchangeId, Tasks, retries);
    FrameKeepsVideo(db.videos, db1.videos, vid, ExchangeId);
  }

  /** Missing inputs set Error with a message and the task is dropped, never
      retried: a missing row or result is a ValueError, an incomplete
      prerequisite an Ignore. */
  lemma SpeakerChangeRefusedWithoutInputs(db: Db, vid: nat, isWord: WordClass, retries: nat, trace: Trace)
    requires Valid(db) && vid in db.videos && !SpeakerInputsReady(db, vid)
    ensures var r := IdentifyBySpeakerChange(db, vid, isWord, retries, trace);
      StepOf(r.db, vid, ExchangeId).status == Error && StepOf(r.db, vid, ExchangeId).error.Some?
      && r.ending == Raising(Ignore)
  {
    var db1 := BeginStep(db, vid, ExchangeId, Tasks, retries);
    FrameKeepsVideo(db.videos, db1.videos, vid, ExchangeId);
    assert SpeakerInputsReady(db1, vid) == SpeakerInputsReady(db, vid);
  }

  // ---------------------------------------------------------------------------
  // Exchange identification by transcript markers (pipeline module)
  // ---------------------------------------------------------------------------

  /** Transcript step Complete and the transcript stored. */
  predicate MarkerInputsReady(db: Db, vid: nat) {
    vid in db.videos && StepOf(db, vid, Transcript).status == Complete && db.videos[vid].transcript.Some?
  }

  function MarkerInputs(db: Db, vid: nat, trace: Trace): (r: Checked<seq<TranscriptSeg>>)
    ensures r.Go? <==> MarkerInputsReady(db, vid)
    ensures r.Go? ==> r.value == db.videos[vid].transcript.value
    ensures r.Stop? ==> r.exc.cls == ValueError || r.exc.cls == RuntimeError
  {
    if vid !in db.videos then Stop(Raised(ValueError, "Video record not found.", trace))
    else
      var x := db.videos[vid];
      if x.steps.transcript.status != Complete then
        Stop(Raised(RuntimeError, "Cannot identify exchanges: Transcript step is not 'Complete'.", trace))
      else if x.transcript.None? then Stop(Raised(ValueError, "Transcript data is missing in DB.", trace))
      else Go(x.transcript.value)
  }

  /** `identify_exchanges_task` of the pipeline module: the video's auto
      exchanges are always cleared, even for an empty transcript, and
      replaced by the marker definitions (none for an empty transcript). */
  function IdentifyByMarkers(db: Db, vid: nat, ps: seq<Pattern>, trace: Trace): (r: Run)
    requires Valid(db)
    ensures Valid(r.db) && r.ending == Finished
    ensures VideosFrame(db.videos, r.db.videos, vid, ExchangeId)
    ensures vid in db.videos ==> (StepOf(r.db, vid, ExchangeId).status == Complete <==> MarkerInputsReady(db, vid))
    ensures !MarkerInputsReady(db, vid) ==> r.db.exchanges == db.exchanges
  {
    var db1 := BeginStep(db, vid, ExchangeId, Pipeline, 0);
    FrameKeepsVideo(db.videos, db1.videos, vid, ExchangeId);
    assert MarkerInputsReady(db1, vid) == MarkerInputsReady(db, vid);
    var r := match MarkerInputs(db1, vid, trace)
      case Stop(e) =>
        var h := Handle(Pipeline, e, 0);
        Run(FailStep(db1, vid, ExchangeId, h.stored, false), h.ending)
      case Go(ts) =>
        ReplaceAuto(db1, vid, IdentifyLongExchanges(ps, ts), Pipeline, 0, trace);
    VideosFrameTrans(db.videos, db1.videos, r.db.videos, vid, ExchangeId);
    r
  }

  /** With the transcript in place the run completes and the video's auto
      exchanges become exactly the marker definitions. */
  lemma MarkersRegenerate(db: Db, vid: nat, ps: seq<Pattern>, trace: Trace)
    requires Valid(db) && MarkerInputsReady(db, vid)
    ensures var r := IdentifyByMarkers(db, vid, ps, trace);
      StepOf(r.db, vid, ExchangeId) == Slot(Complete, None)
      && Regenerated(db.exchanges, r.db.exchanges, vid, IdentifyLongExchanges(ps, db.videos[vid].transcript.value))
  {
    var db1 := BeginStep(db, vid, ExchangeId, Pipeline, 0);
    FrameKeepsVideo(db.videos, db1.videos, vid, ExchangeId);
    RegenerationReplacesAuto(db1, vid, IdentifyLongExchanges(ps, db.videos[vid].transcript.value));
  }

  /** On an empty transcript the two strategies part ways: the task
      modules keep the video's auto exchanges, the pipeline module removes
      them all. */
  lemma EmptyTranscriptStrategiesDiffer(db: Db, vid: nat, isWord: WordClass, retries: nat, ps: seq<Pattern>, trace: Trace)
    requires Valid(db) && SpeakerInputsReady(db, vid) && db.videos[vid].transcript.value == []
    ensures IdentifyBySpeakerChange(db, vid, isWord, retries, trace).db.exchanges == db.exchanges
    ensures var m := IdentifyByMarkers(db, vid, ps, trace).db.exchanges;
      (forall x :: x in m ==> !(m[x].videoId == vid && m[x].kind == Auto))
      && (forall x :: x in db.exchanges && !(db.exchanges[x].videoId == vid && db.exchanges[x].kind == Auto) ==>
            x in m && m[x] == db.exchanges[x])
  {
    EmptyTranscriptKeepsExchanges(db, vid, isWord, retries, trace);
    MarkersRegenerate(db, vid, ps, trace);
  }
}
